=== FILE: README.md ===
# bolt.new-any-llm: chat routing, provider resolution and the AI tool layer in Dafny

This project models the string and list handling that moves a chat prompt from the
browser to an LLM provider in bolt.new-any-llm, and proves properties of it.

The client writes a routing header `[Model: m]\n\n[Provider: p]\n\n` in front of
the prompt. The server reads it back and dispatches to a provider adapter. The
model covers these parts of that path:

- **Routing tags.** The routing-tag regular expressions, as hand-written matchers with
  JavaScript's leftmost, lazy semantics (`Tags`).
- **Server-side normalisation** (`StreamText`). Tag extraction, model, provider and
  token-ceiling selection, and prompt conversion.
- **Stream translation** (`Translator`). The translation of a model stream into
  Server-Sent-Events frames, which use the `data:` field syntax of section 9.2 of the
  WHATWG HTML Living Standard.
- **The two HTTP actions.** The chat route (`ChatRoute`) and the prompt-enhancer route
  (`Enhancer`), as pure functions from a request record to a response.
- **Provider adapters** (`Providers`). Case-insensitive provider dispatch, config
  normalisation, message flattening and the Azure request.
- **Client state.** The client send guard (`ChatClient`), the provider/model pickers
  (`ModelSelector`) and the settings dialog's credential map (`Settings`).
- **The static model catalogue** (`Catalogue`).
- **The second-generation layer under `src/`:**
  - shared records (`AiTypes`);
  - the OpenAI stream mapping (`OpenAiSdk`);
  - the adapter cache (`AiFactory`);
  - the tool registry (`ToolSystem`);
  - the service object (`AiService`);
  - the built-in tools (`SystemTools`);
  - the configuration store (`ConfigStore`).

Everything is immutable data and pure functions. Mutable objects become values that
each operation returns anew.

The model takes as parameters what it cannot see or compute:
- `JSON.stringify` and `JSON.parse`;
- `eval`;
- the clock and the UUID source;
- `stripIndents`;
- the model list and the system prompt.

Strings are `seq<char>`. Whitespace and case are ASCII only: `trim` and `\s` use
space, tab, LF, VT, FF and CR, and `toLowerCase` maps A–Z.

## Model

| member | source | states |
|---|---|---|
| Text.Trim | app/routes/api.chat.ts:55 | `trim` returns a slice of its input with only whitespace cut away on either side, and leaves no whitespace at either end |
| Text.BlankIffAllSpace | app/lib/.server/llm/stream-text.ts:82 | a string trims to '' exactly when every character is whitespace |
| Text.TrimSkipsLeadingSpace | app/routes/api.chat.ts:55 | leading whitespace in front of a text does not change what it trims to |
| Text.TrimSkipsBlankLines | app/routes/api.chat.ts:55 | the blank lines the routing header leaves behind disappear under `trim` |
| Text.ToLower | app/lib/providers/factory.ts:7 | lower-casing keeps the length and lower-cases each character in place |
| Text.ToLowerIdempotent | app/routes/api.chat.ts:40 | lower-casing an already lower-cased name changes nothing |
| Text.JoinLength | app/lib/providers/base.ts:42 | joining n pieces inserts exactly n-1 separators |
| Text.ConcatAppend | app/lib/.server/llm/stream-text.ts:183 | concatenating pieces distributes over appending piece lists |
| Messages.FirstTextIndex | app/routes/api.chat.ts:26 | `find(type === 'text')` picks the first text part, and none exactly when no part is text |
| Messages.SetFirstText | app/routes/api.chat.ts:58-62 | only the first text part's text is replaced; every other part and the length are kept |
| Tags.ShortestFrom | app/utils/constants.ts:7-8 | the lazy group tries capture lengths in increasing order and returns the first that lets the rest of the pattern match |
| Tags.FirstFrom | app/utils/constants.ts:7-8 | the scan returns the leftmost start that has a match, with its shortest capture |
| Tags.Exec | app/utils/constants.ts:7-8 | `match` returns the leftmost match with the shortest lazy capture, and no match exactly when none exists anywhere |
| Tags.FirstMatchUnique | app/utils/constants.ts:7-8 | the reported match is determined by the pattern and the text alone |
| Tags.CaptureFirstMatch | app/lib/.server/llm/stream-text.ts:29-33 | `match(re)[1]` is absent exactly when the pattern matches nowhere, and otherwise is the capture of the leftmost match with the shortest lazy capture |
| Tags.RemoveFirstMatch | app/lib/.server/llm/stream-text.ts:36 | `replace(re, '')` cuts out exactly the first match, and returns the text unchanged when there is none |
| Tags.TagAt | app/utils/constants.ts:7-8 | a well-formed tag with no earlier match is found, captured whole, and removed by `replace` |
| Tags.HeaderRoundTrip | app/utils/constants.ts:7-8 | on header + body, both server tags capture m and p, and removing them returns the body exactly |
| Tags.HeaderRoundTripLoose | app/routes/api.chat.ts:33-34 | the route's looser tags also capture m and p; removing them leaves the header's four line breaks in front of the body |
| Tags.ModelTagOnlyAtStart | app/utils/constants.ts:7 | the model tag is anchored: text not opening with '[' has no model tag |
| Tags.ProviderTagAnywhere | app/utils/constants.ts:8 | the provider tag is found after any bracket-free text |
| Tags.ModelTagNeedsBlankLine | app/utils/constants.ts:7 | without the blank line after ']' the server's model tag does not match |
| Catalogue.Relabel | app/utils/constants.ts:60-63 | relabelling keeps every model's fields and order and sets the provider to the owner |
| Catalogue.FlattenLength | app/utils/constants.ts:59-64 | the flattened list has one entry per static model of every provider |
| Catalogue.FlattenMembers | app/utils/constants.ts:59-64 | an entry is in the flattened list exactly when it is some provider's static model relabelled with that provider's name |
| Catalogue.IndexOfName | app/lib/.server/llm/stream-text.ts:115 | the position of the first entry with the name; absent exactly when no entry has it |
| Catalogue.ModelListContents | app/utils/constants.ts:59-64 | `MODEL_LIST` is the providers' model lists in `PROVIDER_LIST` order |
| Catalogue.RelabelOwned | app/utils/constants.ts:60-63 | relabelling models that already name their owner is the identity |
| Catalogue.CatalogueSize | app/utils/constants.ts:12-53 | the catalogue holds 16 models and each has a positive token ceiling |
| Catalogue.DefaultProviderIsOpenRouter | app/utils/constants.ts:56 | the default provider is the first list entry, OpenRouter |
| Catalogue.DefaultModelNotListed | app/utils/constants.ts:9 | the default model is in no provider's static list |
| Catalogue.DuplicateNamesResolveToOpenRouter | app/utils/constants.ts:16-17 | 'gpt-4' and 'gpt-3.5-turbo' are listed under two providers, and a lookup by name returns the OpenRouter entry |
| Catalogue.ModelsOf | app/components/chat/ModelSelector.tsx:30 | the filter keeps exactly the entries of the named provider |
| Catalogue.ModelsOfAppend | app/components/chat/ModelSelector.tsx:30 | filtering keeps list order: it distributes over concatenation |
| Catalogue.ModelsOfRelabel | app/utils/constants.ts:60-63 | filtering a relabelled list by provider keeps all of it or none of it |
| Catalogue.ModelsOfFlatten | app/utils/constants.ts:59-64 | filtering the catalogue by a listed provider returns exactly that provider's models |
| Catalogue.NoModelsOfAbsent | app/utils/constants.ts:59-64 | a provider name not in the list has no models |
| Catalogue.InitializeModelList | app/utils/constants.ts:66-86 | the stored credentials, parseable or not, never change the returned catalogue |
| StreamText.StripParts | app/lib/.server/llm/stream-text.ts:37-46 | every text part loses its tags and other parts are kept; a text part without text fails |
| StreamText.ExtractProperties | app/lib/.server/llm/stream-text.ts:22-50 | extraction fails exactly on a text part without text; the model and provider are the tag captures of the tag text, else the defaults; string content loses its first model and provider tags; a part list is serialised with every text part stripped |
| StreamText.StripEmpty | app/lib/.server/llm/stream-text.ts:47 | absent content extracts to the empty string |
| StreamText.ExtractRoundTrip | app/lib/.server/llm/stream-text.ts:29-36 | header + body in a string extracts to exactly (m, p, body) |
| StreamText.ExtractDefaults | app/lib/.server/llm/stream-text.ts:32-33 | text without '[' yields the default model and the first provider's name, and the content unchanged |
| StreamText.ExtractClientMessage | app/lib/.server/llm/stream-text.ts:23-49 | the client's part-list message yields (m, p) and the serialised parts with the tags removed |
| StreamText.ProcessMessages | app/lib/.server/llm/stream-text.ts:111-125 | the pass succeeds exactly when every user message is readable, and maps each message in place |
| StreamText.ProcessedAll | app/lib/.server/llm/stream-text.ts:111-125 | the reference pass: each message of a readable history replaced by its extracted, cleaned form, in place |
| StreamText.ProcessedIsReference | app/lib/.server/llm/stream-text.ts:111-125 | the stateful pass yields exactly the reference messages, and their conversion succeeds exactly when some kept user message exists |
| StreamText.ReadablePrefix | app/lib/.server/llm/stream-text.ts:111-125 | every prefix and suffix of a readable history is readable |
| StreamText.LastFromFront | app/lib/.server/llm/stream-text.ts:111-125 | one step from the front agrees with the from-the-end reference selection |
| StreamText.SelectionIsLast | app/lib/.server/llm/stream-text.ts:108-125 | the provider is the last user message's (defaulted when untagged); the model is the last user-named model in the list, else the default |
| StreamText.ResolveMaxTokens | app/lib/.server/llm/stream-text.ts:127-128 | the ceiling is the first same-named catalogue entry's when that is non-zero, and 4096 otherwise |
| StreamText.DefaultModelGetsFallback | app/lib/.server/llm/stream-text.ts:127-128 | the default model gets the 4096 fallback |
| StreamText.KeptIffTrimmed | app/lib/.server/llm/stream-text.ts:75-82 | a message is kept exactly when its content is truthy and does not trim to '' |
| StreamText.Entry | app/lib/.server/llm/stream-text.ts:73-89 | a message contributes at most one entry, exactly when kept, with its role and a non-blank content |
| StreamText.ConvertBody | app/lib/.server/llm/stream-text.ts:73-89 | no blank entry is produced and the output is no longer than the history |
| StreamText.ConvertBodyAppend | app/lib/.server/llm/stream-text.ts:73-89 | conversion keeps order: it distributes over concatenation |
| StreamText.ConvertBodySingle | app/lib/.server/llm/stream-text.ts:73-89 | a single message converts to its entry |
| StreamText.ConvertToProviderMessages | app/lib/.server/llm/stream-text.ts:59-100 | one system entry is prepended exactly when the prompt is non-empty; the error text is the source's |
| StreamText.ConvertFailsIff | app/lib/.server/llm/stream-text.ts:95-97 | conversion fails exactly when no user message survives the blank filter |
| StreamText.KeptUserAppears | app/lib/.server/llm/stream-text.ts:73-89 | each kept user message appears in the output, at or before its own position |
| StreamText.UserEntrySource | app/lib/.server/llm/stream-text.ts:73-89 | every user entry in the output comes from a kept user message |
| StreamText.PrepareCall | app/lib/.server/llm/stream-text.ts:108-143 | unreadable input fails; otherwise the call succeeds exactly when a user message survives the blank filter, and then its prompt is the conversion of the cleaned messages, with the last-user-message provider, the last listed model and that model's ceiling |
| Translator.TranslateChunk | app/lib/.server/llm/stream-text.ts:166-213 | empty deltas and other objects give nothing; a non-empty text delta or a raw string gives exactly one content frame with a null finish_reason; a finish gives a stop frame with an empty delta, then [DONE]; no content frame carries a finish_reason |
| Translator.TranslateAll | app/lib/.server/llm/stream-text.ts:166-213 | every transformed frame carries the current model and none is a role frame |
| Translator.Translate | app/lib/.server/llm/stream-text.ts:151-213 | the first frame is always the role-only frame; no later frame is |
| Translator.TranslateAllAppend | app/lib/.server/llm/stream-text.ts:166-213 | the transform is stateless: it distributes over concatenation of chunk streams |
| Translator.FramesAfterFinish | app/lib/.server/llm/stream-text.ts:185-199 | chunks after a finish still produce frames; nothing is suppressed |
| Translator.FramesTextAppend | app/lib/.server/llm/stream-text.ts:166-213 | frame content concatenation distributes over appending frames |
| Translator.ContentPreserved | app/lib/.server/llm/stream-text.ts:169-212 | the frames' contents, concatenated, equal the non-empty deltas and raw strings in order |
| Translator.CountDoneAppend | app/lib/.server/llm/stream-text.ts:198 | [DONE] markers add up over appended frames |
| Translator.DonePerFinish | app/lib/.server/llm/stream-text.ts:185-199 | there is exactly one [DONE] per finish chunk |
| Translator.EncodeFrame | app/lib/.server/llm/stream-text.ts:164 | an event is 'data: ', then the frame's JSON or [DONE], then the CRLF CRLF terminator, nothing else |
| Translator.FindEnd | app/lib/.server/llm/stream-text.ts:164 | the scan finds the first event terminator at or after a position, or reports none |
| Translator.AllData | app/lib/.server/llm/stream-text.ts:164 | one data payload per frame, in order |
| Translator.FirstEndAfterData | app/lib/.server/llm/stream-text.ts:164 | after a CR-free payload the first terminator is the frame's own |
| Translator.DecodeEncoded | app/lib/.server/llm/stream-text.ts:164 | splitting the encoded stream at its terminators returns exactly the frames' payloads, provided JSON output contains no CR |
| Providers.NormalizeConfig | app/lib/providers/base.ts:30-32 | a bare string becomes a config with only that key; a structured config is kept as given |
| Providers.BaseGenerate | app/lib/providers/base.ts:34-36 | the base adapter always fails with 'Method not implemented' |
| Providers.PartTexts | app/lib/providers/base.ts:42 | text parts give their text (missing text gives ''), other parts give '' |
| Providers.CleanContent | app/lib/providers/base.ts:41-43 | string content passes unchanged; part lists are joined with '\n' |
| Providers.CleanMessages | app/lib/providers/base.ts:38-45 | the list keeps its length, order and roles; only role and content are kept |
| Providers.CountNewlinesAppend | app/lib/providers/base.ts:42 | line-break counts add up over concatenation |
| Providers.FlattenSeparators | app/lib/providers/base.ts:42 | n parts flatten to their texts plus exactly n-1 separators |
| Providers.ImagesFlattenToSeparators | app/lib/providers/base.ts:42 | n image parts flatten to n-1 line breaks and nothing else |
| Providers.ImagesContribute | app/lib/providers/base.ts:42 | image parts contribute no text |
| Providers.CreateProvider | app/lib/providers/factory.ts:6-31 | dispatch is on the lower-cased name; Azure needs a structured config; anything else is unsupported |
| Providers.AdapterFor | app/lib/providers/factory.ts:7-16 | every supported name resolves, to Azure exactly for 'azure-openai', with the normalised config |
| Providers.CreateProviderIgnoresCase | app/lib/providers/factory.ts:7 | names differing only in letter case resolve identically |
| Providers.OtherProvidersUnsupported | app/lib/providers/factory.ts:28-29 | 'Anthropic', 'Google' and 'azure' are refused |
| Providers.StripTrailingSlash | app/lib/providers/azure-openai.ts:10 | at most one trailing '/' is removed, exactly when present |
| Providers.StripOnlyOneSlash | app/lib/providers/azure-openai.ts:10 | of two trailing slashes one remains |
| Providers.AzureUrlShape | app/lib/providers/azure-openai.ts:13-14 | the URL is the trimmed endpoint, the deployments path with the model, and the api-version query |
| Providers.AzureGenerate | app/lib/providers/azure-openai.ts:5-31 | fails exactly when endpoint or version is missing or empty; sends the key in 'api-key', no bearer token, cleaned messages and stream true |
| Providers.AzureUrlIgnoresTrailingSlash | app/lib/providers/azure-openai.ts:10-14 | an endpoint with one trailing '/' builds the same request as without it |
| ChatRoute.MessageText | app/routes/api.chat.ts:25-30 | the tag text is the string content, or the first text part's text ('' when none); null content has none |
| ChatRoute.ReadTags | app/routes/api.chat.ts:33-41 | both loose tags must match; the provider capture is lower-cased and the model capture kept |
| ChatRoute.CleanText | app/routes/api.chat.ts:55 | the cleaned text is the trim of the text with its first loose provider tag cut out and then its first loose model tag, so no whitespace is left at either end |
| ChatRoute.WriteBack | app/routes/api.chat.ts:58-65 | only the string content or the first text part is replaced; other parts are kept |
| ChatRoute.ReadRoute | app/routes/api.chat.ts:22-41 | a missing tag gives 400; absent content gives 500; otherwise the tags are read from the last message |
| ChatRoute.CleanLast | app/routes/api.chat.ts:54-65 | earlier messages are unchanged; the last keeps its role and id, and its content becomes the tag-stripped, trimmed text written back in the content's own shape |
| ChatRoute.Dispatch | app/routes/api.chat.ts:43-72 | an absent or null `apiKeys` throws and gives 500; otherwise 400 exactly when `apiKeys[name]` is falsy, counting inherited properties such as 'constructor' and '__proto__' as truthy; a truthy name that is not an own entry reaches `createProvider` and gives 500; an Azure adapter whose configuration the Azure client rejects gives 500; generation uses the resolved adapter, captured model and 4096 |
| ChatRoute.ChatAction | app/routes/api.chat.ts:12-82 | a missing or empty message list gives 400; an unreadable body gives 500; generation only after tags and key are found, and only from an object-valued `apiKeys` |
| ChatRoute.MissingTagIs400 | app/routes/api.chat.ts:36-38 | a last message lacking either tag gives 400 whatever the keys |
| ChatRoute.InheritedNamesUnsupported | app/lib/providers/factory.ts:28-29 | 'constructor' and '__proto__' have no adapter, whatever value is passed with them |
| ChatRoute.MissingKeyIs400 | app/routes/api.chat.ts:44-48 | for any present `apiKeys` value, a credential that is neither an own truthy entry nor inherited gives 400 naming the lower-cased provider |
| ChatRoute.ScalarKeysAre400 | app/routes/api.chat.ts:44-47 | a number or boolean `apiKeys` answers the same 400 as an empty object, for any provider tag other than 'constructor' and '__proto__' |
| ChatRoute.TruthyScalarLookupIs500 | app/routes/api.chat.ts:44-81 | a non-object `apiKeys` (a string or array) whose lookup of the provider tag is truthy, such as 'length' or '0', passes the key check and answers 500, unlike an empty object |
| ChatRoute.ReadHeaderTags | app/routes/api.chat.ts:33-41 | the client's header reads back as (m, lower(p)) |
| ChatRoute.CleanHeaderText | app/routes/api.chat.ts:55 | cleaning header + input yields trim(input) |
| ChatRoute.ReadClientRoute | app/components/chat/Chat.client.tsx:235 | a history ending in a client message routes to (m, lower(p)) |
| ChatRoute.CleanClientMessage | app/routes/api.chat.ts:54-65 | cleaning a client message replaces its text part by trim(input) and keeps the images |
| ChatRoute.ActionDispatches | app/routes/api.chat.ts:12-72 | a readable last message leads to dispatch with its route |
| ChatRoute.DispatchGenerates | app/routes/api.chat.ts:51-72 | a present credential for a supported provider leads to generation |
| ChatRoute.ClientRequestRoundTrip | app/routes/api.chat.ts:33-72 | a client-built request never gets 400; if it generates, it does so with (m, lower(p), 4096) and the cleaned input |
| ChatRoute.ClientRequestGenerated | app/routes/api.chat.ts:51-72 | a client-built request for a supported provider with a key always generates |
| Enhancer.Template | app/routes/api.enhancer.ts:49-76 | read without a tag, the template starts with the instructions and holds the draft between the prompt tags, on its own line indented by 14, the closing tag indented by 12 |
| Enhancer.TemplateStrings | app/routes/api.enhancer.ts:49-76 | the two literal pieces around `${message}`: the instructions and opening tag with the draft line's 14-space indentation, then a line break and the closing tag indented by 12 |
| Enhancer.TemplateDraftTrims | app/routes/api.enhancer.ts:73-75 | the indentation in front of the draft trims away |
| Enhancer.EnhancerContent | app/routes/api.enhancer.ts:47-76 | the user message is the routing header followed by what the `stripIndents` tag makes of the template's pieces and the draft |
| Enhancer.FailureStatus | app/routes/api.enhancer.ts:91-105 | an Error whose message contains 'API key' gives 401; any other failure gives 500 |
| Enhancer.EnhancerAction | app/routes/api.enhancer.ts:19-106 | no provider object crashes; an invalid model gives 400 first; an invalid provider name gives 400; success streams event-stream headers and hands the body's message, unconverted, to the tag |
| Enhancer.ModelCheckedFirst | app/routes/api.enhancer.ts:25-37 | with both fields invalid, the model error is the one reported |
| Enhancer.MissingProviderCrashes | app/routes/api.enhancer.ts:22 | a missing provider object fails at destructuring, before any 400 |
| Enhancer.EnhancerRoutesToRequestedModel | app/routes/api.enhancer.ts:47-48 | format compatibility only: the header the enhancer writes is in the format the chat route's tag extractor reads, and that extractor would recover the requested model and provider (the enhancer's own call chooses its model via `getModel`) |
| ChatClient.TextToSend | app/components/chat/Chat.client.tsx:214 | the explicit text when non-empty, else the input buffer |
| ChatClient.ImageParts | app/components/chat/Chat.client.tsx:237-240 | one image part per data URI, in order |
| ChatClient.SendMessage | app/components/chat/Chat.client.tsx:213-248 | empty text, a pending request or a missing key leaves state unchanged; an accepted send appends one tagged user message and clears the input |
| ChatClient.SendAcceptedIff | app/components/chat/Chat.client.tsx:216-224 | messages change exactly when the text is non-empty, nothing is loading and a key exists under the lower-cased name |
| ChatClient.Abort | app/components/chat/Chat.client.tsx:181-184 | abort always sets aborted and stops loading, keeping the history |
| ChatClient.AbortIdempotent | app/components/chat/Chat.client.tsx:181-184 | aborting twice is aborting once, yet an idle abort still changes state |
| ChatClient.RequestKeys | app/components/chat/Chat.client.tsx:138-142 | the body carries only the active provider's credential, under its lower-cased name |
| ChatClient.ShouldPersist | app/components/chat/Chat.client.tsx:168-170 | history is persisted exactly when it grew beyond the initial count |
| ChatClient.SendPersists | app/components/chat/Chat.client.tsx:168-170 | an accepted send always triggers persistence |
| ChatClient.SendReachesRoute | app/components/chat/Chat.client.tsx:230-242 | the message an accepted send appends is routed by the server to the selected model and lower-cased provider |
| Settings.InitialKeys | app/components/settings/SettingsDialog.tsx:15-22 | a missing, empty or unparseable cookie gives the empty map; a parseable one gives exactly what it parses to |
| Settings.HandleApiKeyChange | app/components/settings/SettingsDialog.tsx:36-37 | an edit stores the value under the lower-cased name and leaves every other entry unchanged |
| Settings.EditIdempotent | app/components/settings/SettingsDialog.tsx:36-39 | repeating an edit changes nothing |
| Settings.EditIgnoresCase | app/components/settings/SettingsDialog.tsx:37 | spellings differing only in case edit the same entry |
| Settings.DisplayedKey | app/components/settings/SettingsDialog.tsx:95 | the field shows the entry under the lower-cased name when there is one, and '' otherwise |
| Settings.EditThenDisplay | app/components/settings/SettingsDialog.tsx:36-37 | an edit shows in its own field and leaves other providers' fields as they were |
| ModelSelector.FilteredModels | app/components/chat/ModelSelector.tsx:30 | the offered models are exactly the entries of the current provider |
| ModelSelector.FilteredKeepsOrder | app/components/chat/ModelSelector.tsx:30 | the offered models keep list order |
| ModelSelector.FindProvider | app/components/chat/ModelSelector.tsx:40 | the chosen name is looked up by exact equality; none exactly when no provider has it |
| ModelSelector.FirstModelOf | app/components/chat/ModelSelector.tsx:43 | the first model of the provider is the first offered model; none exactly when none is offered |
| ModelSelector.HandleProviderChange | app/components/chat/ModelSelector.tsx:39-48 | an unknown name changes nothing; a known one is selected with its first model, or the model stays |
| ModelSelector.SwitchSelectsOfferedModel | app/components/chat/ModelSelector.tsx:39-48 | after switching to a provider with models, the selected model is one of those offered |
| ModelSelector.HandleSaveApiKey | app/components/chat/ModelSelector.tsx:32-37 | the key is stored under the exact provider name; other entries are untouched; the typed key is cleared |
| ModelSelector.HandleSaveApiKeyLower | app/components/chat/ModelSelector.tsx:32-37 | corrected save: the same update the settings dialog makes |
| ModelSelector.ShowAddKey | app/components/chat/ModelSelector.tsx:101 | 'Add API Key' shows exactly when no truthy key is stored under the exact provider name; for an already lower-case name that is when the settings field is empty |
| ModelSelector.CatalogueNamesNotLowerCase | app/utils/constants.ts:14 | the default provider's name changes under lower-casing |
| ModelSelector.SettingsKeyHiddenFromSelector | app/components/chat/ModelSelector.tsx:101 | as written, a key entered in settings is found by the chat page while 'Add API Key' is still offered |
| ModelSelector.SelectorKeyHiddenFromChat | app/components/chat/ModelSelector.tsx:32-37 | as written, and latent (its only caller, the Save button, is never rendered): a key saved in the selector would hide the button yet not be found by the chat page |
| ModelSelector.AddKeyAgreesWithChat | app/components/chat/ModelSelector.tsx:101 | corrected: the button shows exactly when the chat page would refuse to send |
| ModelSelector.SavedKeyReachesChat | app/components/chat/ModelSelector.tsx:32-37 | corrected: a saved key is found by the chat page and shown in the settings field |
| AiTypes.ErrorString | src/lib/ai-service.ts:50 | `String(error)` is 'name: message' for errors, the name alone for an empty message, the message alone for an empty name, 'Error: message' for SDK API errors, the rendering otherwise |
| OpenAiSdk.StreamParams | src/lib/providers/openai.ts:23-29 | the streaming request carries model, messages, max tokens and stream true |
| OpenAiSdk.CompletionParams | src/lib/providers/openai.ts:74-79 | the plain request carries model, messages and max tokens, not streaming |
| OpenAiSdk.ChunkOf | src/lib/providers/openai.ts:35-42 | a part yields a chunk exactly when its delta text is non-empty; done exactly when it finished with 'stop' |
| OpenAiSdk.Chunks | src/lib/providers/openai.ts:34-44 | at most one chunk per part, none with empty content |
| OpenAiSdk.ChunksAppend | src/lib/providers/openai.ts:34-44 | chunks follow upstream order: the mapping distributes over concatenation |
| OpenAiSdk.ChunksPreserveText | src/lib/providers/openai.ts:34-44 | the chunk contents, concatenated, equal the upstream delta texts concatenated |
| OpenAiSdk.BareStopDropped | src/lib/providers/openai.ts:35-36 | a stop part without text yields no chunk, so done never appears |
| OpenAiSdk.DoneNeedsStopWithText | src/lib/providers/openai.ts:35-41 | every done chunk comes from a part that finished with 'stop' and carried text |
| OpenAiSdk.ChunksSingle | src/lib/providers/openai.ts:34-44 | one part contributes exactly its own chunk (same id, its delta text, done exactly on a 'stop' finish) or nothing; with ChunksAppend this fixes every chunk |
| OpenAiSdk.StopWithTextGivesDone | src/lib/providers/openai.ts:35-41 | conversely, a part that finished with 'stop' and carried text yields a done chunk with that part's id |
| OpenAiSdk.Classify | src/lib/providers/openai.ts:54-66 | SDK API errors keep message and status under OPENAI_API_ERROR; anything else is UNKNOWN_ERROR |
| OpenAiSdk.GenerateStream | src/lib/providers/openai.ts:18-67 | a failed request is classified; otherwise the stream's chunks are exactly the per-part chunks of the upstream parts, its text is preserved and its error passed on |
| OpenAiSdk.Generate | src/lib/providers/openai.ts:69-101 | the result is the first choice's content or '', with usage always present and each missing count 0 |
| AiFactory.Lookup | src/lib/ai-factory.ts:7-37 | a hit is returned unvalidated; a missing OpenAI key and other providers fail without touching the cache; success caches a new adapter |
| AiFactory.GetProvider | src/lib/ai-factory.ts:7-37 | `getProvider` is the lookup under the key provider + '-' + apiKey, keeping the cache well formed |
| AiFactory.BuiltAdapterIsNew | src/lib/ai-factory.ts:24 | a newly built adapter is no cached instance |
| AiFactory.RepeatReturnsSameInstance | src/lib/ai-factory.ts:10-12 | a repeat call with the same provider and key returns the same instance and leaves the cache alone |
| AiFactory.ClearProviders | src/lib/ai-factory.ts:39-41 | clearing empties the cache |
| AiFactory.ClearForcesRebuild | src/lib/ai-factory.ts:39-41 | after clearing, a valid configuration gets an adapter never handed out before |
| AiFactory.MissingKeyServedFromCache | src/lib/ai-factory.ts:8-12 | as written, a keyless configuration is served the adapter cached for the literal key 'undefined' |
| AiFactory.GetProviderFixed | src/lib/ai-factory.ts:7-37 | corrected lookup, keeping every entry under its own key |
| AiFactory.FixedRefusesMissingKey | src/lib/ai-factory.ts:17-23 | corrected: a keyless OpenAI configuration is always refused, whatever is cached |
| AiFactory.FixedServesOwnKey | src/lib/ai-factory.ts:8-12 | corrected: an OpenAI hit always carries the very key requested |
| ToolSystem.Find | src/lib/tool-system.ts:21 | the lookup finds a tool of that name, or none exactly when no tool has it |
| ToolSystem.RegisterTool | src/lib/tool-system.ts:10-18 | a new name is appended; a registered name gives DUPLICATE_TOOL and changes nothing |
| ToolSystem.ClearTools | src/lib/tool-system.ts:59-61 | clearing leaves no tool registered |
| ToolSystem.RegisterAfterClear | src/lib/tool-system.ts:59-61 | after clearing, any tool registers |
| ToolSystem.ExecutionError | src/lib/tool-system.ts:33-43 | a SyntaxError maps to INVALID_TOOL_ARGS; other errors to TOOL_EXECUTION_ERROR with their message, or 'Unknown error' |
| ToolSystem.ExecuteTool | src/lib/tool-system.ts:20-45 | unknown names give TOOL_NOT_FOUND; unparseable arguments INVALID_TOOL_ARGS; a throwing tool gives its wrapped error; a returning tool gives exactly its value |
| ToolSystem.Descriptions | src/lib/tool-system.ts:47-57 | the i-th description is the i-th registered tool's name, description and parameters |
| ToolSystem.DescriptionsAppend | src/lib/tool-system.ts:52-56 | descriptions distribute over concatenation of tool lists |
| ToolSystem.RegisterListsLast | src/lib/tool-system.ts:10-18 | registering a new tool appends exactly its description |
| AiService.CreateProvider | src/lib/ai-service.ts:30-38 | only 'openai' is accepted, with its key or ''; otherwise 'Unsupported provider: ' + name |
| AiService.ToolMapOf | src/lib/ai-service.ts:24-27 | the map holds exactly the listed names, each bound to the last tool of that name |
| AiService.ExtendToolMap | src/lib/ai-service.ts:25-27 | adding one tool keeps the map exact, the new tool winning its name |
| AiService.NewService | src/lib/ai-service.ts:22-28 | the provider is chosen first, so an unsupported one yields no service; tools are keyed by name |
| AiService.RegisterTool | src/lib/ai-service.ts:88-90 | registering overwrites silently, leaving other tools and the provider alone |
| AiService.UnregisterTool | src/lib/ai-service.ts:92-94 | only that name is removed; an absent name changes nothing |
| AiService.RegisterThenUnregister | src/lib/ai-service.ts:88-94 | registering a new name and removing it again restores the service |
| AiService.UpdateConfig | src/lib/ai-service.ts:96-99 | the provider selection is the constructor's; tools are untouched; an unsupported provider fails |
| AiService.ProcessToolCall | src/lib/ai-service.ts:40-52 | unknown names give 'Tool not found'; parse and execution failures are wrapped as 'Failed to execute tool <name>: ' |
| AiService.UnknownToolIgnoresArguments | src/lib/ai-service.ts:41-44 | the unknown-tool error comes before, and regardless of, argument parsing |
| AiService.ProcessToolCalls | src/lib/ai-service.ts:109-111 | success exactly when every call succeeds, with results in call order; a failure is that of some failing call |
| SystemTools.IndexOf | src/lib/system-tools.ts:94 | the first occurrence of a character at or after a position, or the end |
| SystemTools.HasDot | src/lib/system-tools.ts:94 | some '.' lies in the range |
| SystemTools.ValidateEmailIff | src/lib/system-tools.ts:94-96 | the check accepts exactly one '@' after a non-empty head, no whitespace, and an inner '.' in the domain |
| SystemTools.ValidateEmailTool | src/lib/system-tools.ts:92-99 | null arguments throw a TypeError; otherwise the verdict is the pattern on `String(email)` and the address is echoed back unchanged; a missing address is invalid and not echoed |
| SystemTools.OnlyStringsAndArraysValid | src/lib/system-tools.ts:94-96 | a present address that is neither a string nor an array never passes: its string form has no '@' |
| SystemTools.Digits | src/lib/system-tools.ts:96 | a number's string form is a non-empty run of decimal digits |
| SystemTools.Sanitize | src/lib/system-tools.ts:64 | the output contains only digits, + - * / . ( ) and whitespace |
| SystemTools.SanitizeAppend | src/lib/system-tools.ts:64 | the sanitiser works character by character: it distributes over concatenation |
| SystemTools.SanitizeKeepsAllowed | src/lib/system-tools.ts:64 | allowed text passes through unchanged |
| SystemTools.SanitizeIdempotent | src/lib/system-tools.ts:64 | sanitising twice is sanitising once |
| SystemTools.SanitizeSubsequence | src/lib/system-tools.ts:64 | the output is a subsequence of the input |
| SystemTools.EvalInputAllowed | src/lib/system-tools.ts:64-67 | what reaches `eval` consists of allowed characters only |
| SystemTools.CalculateMathTool | src/lib/system-tools.ts:61-72 | an evaluation failure gives 'Invalid mathematical expression'; success returns the result |
| SystemTools.Tools | src/lib/system-tools.ts:16-101 | five tools with pairwise distinct names |
| SystemTools.FormatDateTool | src/lib/system-tools.ts:41-50 | null arguments throw a TypeError; otherwise the formatter gets the date and the format, 'long' when the field is missing |
| SystemTools.RegisterAll | src/lib/system-tools.ts:104-106 | registration through the tool registry keeps it well formed; a failure is DUPLICATE_TOOL |
| SystemTools.RegisterAllFresh | src/lib/system-tools.ts:104-106 | distinct, unregistered tools are all appended in order |
| SystemTools.SystemToolsRegisterCleanly | src/lib/system-tools.ts:104-106 | on an empty registry all five system tools register without DUPLICATE_TOOL |
| SystemTools.SystemToolsTwiceRefused | src/lib/tool-system.ts:11-16 | registering the system tools a second time is refused at the first one |
| ConfigStore.SetConfig | src/store/ai.ts:20-23 | fields present in the partial are overwritten; absent fields keep their values |
| ConfigStore.SetConfigIdempotent | src/store/ai.ts:20-23 | applying a partial twice is applying it once |
| ConfigStore.EmptyPatchKeepsConfig | src/store/ai.ts:20-23 | the empty partial changes nothing |
| ConfigStore.FullPatchReplaces | src/store/ai.ts:20-23 | a partial setting every field replaces the whole configuration |
| ConfigStore.ResetConfig | src/store/ai.ts:24 | reset restores the default from any state |
| ConfigStore.ResetForgetsPatches | src/store/ai.ts:24 | after a reset, earlier partials leave no trace |

## Left out

- Network and SDK calls are not modelled, and adapters are request records instead:
  - `fetch` in the Azure and OpenRouter adapters, the OpenAI client and `model.doStream`;
  - `getModel`, `getModelList` and `getSystemPrompt`, whose model list and system prompt
    are parameters;
  - the `ai` package's `streamText`, and chat forking and persistence.
- app/lib/providers/openai.ts and app/lib/providers/openrouter.ts only wrap `cleanMessages`
  around an SDK or `fetch` call. `Providers.CleanMessages` covers their logic. The `name`
  spread at app/lib/providers/openai.ts:25 is dead because `cleanMessages` never sets `name`.
- Stream plumbing and concurrency are not modelled. Streams are finite sequences, and an
  upstream failure is a value at the end of the sequence. This covers `TransformStream`,
  `ReadableStream`, `pipeTo` aborts, `AbortController` and the reader loops of the hooks
  under src/hooks.
- `Date.now()` frame ids and timestamps, `crypto.randomUUID` and `new Date()` are left out
  or become parameters.
- React state, rendering and toasts are left out, as are the dialog's open/closed flags.
  `ModelSelector.HandleSaveApiKey` returns the map it writes to the cookie, because the
  source never feeds it back into the `apiKeys` prop.
- Cookies are left out. `JSON.parse` and `JSON.stringify` are opaque parameters.
  - `Settings.InitialKeys`: a cookie that parses to a non-object is treated as a parse
    failure.
  - `Settings.InitialKeys` leaves out the effect at SettingsDialog.tsx:24-34, which
    re-parses the same cookie.
- `temperature` (0.7 defaults, `||` and `??` on floats) is not modelled, and neither is
  `Number(env)` parsing. The environment-derived DEFAULT_CONFIG is a parameter of
  `ConfigStore.ResetConfig`.
- `eval` in `calculateMath` is a parameter, and so are `Intl.DateTimeFormat`, the clock and
  the UUID source.
- JSON numbers are integers (`AiTypes.Value`). The fractional, NaN and infinite results
  `eval` can give in `calculateMath` are not represented.
- `Enhancer.Template`, `Enhancer.EnhancerContent`: `stripIndents` (app/utils/stripIndent.ts)
  is not part of this model. It is a tag parameter, so the contracts say what it receives,
  not how it removes indentation.
- `SystemTools.CalculateMathTool`: a non-string expression makes `replace` throw a
  TypeError. The engine's message text is not modelled (it is left empty).
- `SystemTools.ValidateEmailTool`: JavaScript's `String` of a number is modelled for
  integers only. An array element that is undefined cannot occur in parsed JSON and is
  not represented.
- Unicode is not modelled. Case folding in `toLowerCase` and the Unicode whitespace of
  `trim` and `\s` are replaced by their ASCII parts.
- `AiService.ProcessToolCalls`: which rejection `Promise.all` reports depends on timing. The
  contract only promises the error of some failing call. The function reports the first in
  call order, and leaves out the side effects of calls that keep running after a failure.
- `AiService`: `processMessage`, `generate` and `generateStream` only forward to the adapter
  through SDK calls, and are left out.
- `ChatClient.Abort` follows the code: it sets `aborted` even when no stream is active, so it
  is not a no-op on an idle chat.
- `ConfigStore.SetConfig`: a patch that lists `provider` or `model` explicitly as `undefined`
  overwrites the field with `undefined` through the spread. That is not represented: both
  fields are plain strings, so a patch can only keep or set them.
- `ChatRoute.Dispatch`: strings and arrays differ from numbers and booleans. Their truthy
  built-in properties ('length', indices, methods) can pass the key check and then answer 500
  (`ChatRoute.TruthyScalarLookupIs500`).
- `ChatRoute.Dispatch`: for an `apiKeys` value that is not an object, which of its property
  lookups are truthy is engine-defined (string and array methods, indices, `length`). It is
  the parameter `KeysOther.truthy` rather than a computed set. A truthy lookup on a name that
  is not an own entry is taken to give 500. That rests on no built-in prototype carrying a
  property named after a supported provider ('openai', 'openrouter', 'azure-openai').
- `ChatRoute.ChatAction` leaves out the `generate` call itself. Its response body is the
  `Generation` record of what would be sent.
- `Translator.DecodeEncoded` requires the JSON serialisation to contain no carriage return.
  `JSON.stringify` escapes control characters, but that is not modelled.
- The `Tool`, `AIConfig` and model-name unions of src/types/ai.ts are compile-time types
  only. The model accepts any string where the source's runtime would.

## Findings

| source | as written | input that shows it | evidently intended | confidence | as-written member | corrected member |
|---|---|---|---|---|---|---|
| app/components/chat/ModelSelector.tsx:101 | 'Add API Key' tests `apiKeys[provider.name]` under the exact name | the settings dialog stores 'sk' for OpenRouter under 'openrouter'; the chat page sends, yet the selector still offers 'Add API Key' | look the key up under the lower-cased name, as the settings dialog and the chat page do | medium, not executed | ModelSelector.SettingsKeyHiddenFromSelector | ModelSelector.AddKeyAgreesWithChat |
| app/components/chat/ModelSelector.tsx:32-37 | the saved key goes under `provider.name` as written; latent, unreachable in the component as written, since the Save button is rendered only while `showApiKeyInput` is true (lines 124-134) and nothing sets it true (lines 27, 35, 140) | were the input shown, saving 'sk' for OpenRouter would write 'OpenRouter'; the chat page looks under 'openrouter' and refuses to send | store under the lower-cased name | low, not executed | ModelSelector.SelectorKeyHiddenFromChat | ModelSelector.SavedKeyReachesChat |
| src/lib/ai-factory.ts:8 | the cache key interpolates a missing apiKey as 'undefined' and is consulted before validation | getProvider({provider: 'openai', apiKey: 'undefined'}), then getProvider({provider: 'openai'}) returns the first adapter instead of MISSING_API_KEY | a keyless configuration is always refused | low, not executed | AiFactory.MissingKeyServedFromCache | AiFactory.FixedRefusesMissingKey |

=== FILE: ai_factory.dfy ===
/**
 * The adapter cache of the src/ layer (src/lib/ai-factory.ts). The static map
 * becomes an explicit `Factory` value threaded through the calls, and object
 * identity becomes an instance number handed out by a counter.
 */
module AiFactory {
  import opened Wrappers
  import opened Text
  import opened AiTypes

  /** An `OpenAIProvider` object: the key it was built with and its identity. */
  datatype Adapter = OpenAIAdapter(apiKey: string, instance: nat)

  /** The cache, and how many adapters have been built so far. */
  datatype Factory = Factory(cache: map<string, Adapter>, built: nat)

  const Empty := Factory(map[], 0)

  /** Every cached adapter was built before the counter's current value. */
  predicate Valid(f: Factory) {
    forall k :: k in f.cache ==> f.cache[k].instance < f.built
  }

  /** A template literal renders a missing key as 'undefined'. */
  function Render(apiKey: Option<string>): string {
    if apiKey.Some? then apiKey.value else "undefined"
  }

  /** `${config.provider}-${config.apiKey}`. */
  function CacheKey(c: AIConfig): string {
    c.provider + "-" + Render(c.apiKey)
  }

  const MissingKey := AIError("OpenAI API key is required", "MISSING_API_KEY", None)

  function Unsupported(provider: string): AIError {
    AIError("Provider " + provider + " is not supported", "UNSUPPORTED_PROVIDER", None)
  }

  /** The lookup-or-build step, parameterised by the cache key so the corrected variant can share it. */
  function Lookup(f: Factory, c: AIConfig, key: string): (r: (Result<Adapter, AIError>, Factory))
    requires Valid(f)
    ensures Valid(r.1)
    ensures key in f.cache ==> r == (Ok(f.cache[key]), f)
    ensures key !in f.cache && c.provider == "openai" && (c.apiKey.None? || c.apiKey.value == "") ==> r == (Err(MissingKey), f)
    ensures key !in f.cache && c.provider != "openai" ==> r == (Err(Unsupported(c.provider)), f)
    ensures key !in f.cache && r.0.Ok? ==>
      c.provider == "openai" && c.apiKey.Some? && r.0.value == OpenAIAdapter(c.apiKey.value, f.built) &&
      r.1 == Factory(f.cache[key := r.0.value], f.built + 1)
    ensures r.0.Ok? ==> r.0.value.apiKey != "" || key in f.cache
  {
    if key in f.cache then (Ok(f.cache[key]), f)
    else if c.provider == "openai" then
      if c.apiKey.None? || c.apiKey.value == "" then (Err(MissingKey), f)
      else
        var a := OpenAIAdapter(c.apiKey.value, f.built);
        (Ok(a), Factory(f.cache[key := a], f.built + 1))
    else (Err(Unsupported(c.provider)), f)
  }

  /** `AIFactory.getProvider`. */
  function GetProvider(f: Factory, c: AIConfig): (r: (Result<Adapter, AIError>, Factory))
    requires Valid(f)
    ensures Valid(r.1)
    ensures r == Lookup(f, c, CacheKey(c))
  {
    Lookup(f, c, CacheKey(c))
  }

  /** A freshly built adapter is a new object: no cached adapter is the same instance. */
  lemma BuiltAdapterIsNew(f: Factory, c: AIConfig)
    requires Valid(f) && CacheKey(c) !in f.cache && GetProvider(f, c).0.Ok?
    ensures forall k :: k in f.cache ==> f.cache[k] != GetProvider(f, c).0.value
  {
  }

  /** A second call with the same provider and key returns the same instance and leaves the cache as it was. */
  lemma RepeatReturnsSameInstance(f: Factory, c: AIConfig)
    requires Valid(f) && GetProvider(f, c).0.Ok?
    ensures var (r, f1) := GetProvider(f, c); GetProvider(f1, c) == (r, f1)
  {
  }

  /** `AIFactory.clearProviders`: the cache is emptied; the instance counter keeps running. */
  function ClearProviders(f: Factory): (r: Factory)
    requires Valid(f)
    ensures Valid(r) && r.cache == map[] && r.built == f.built
  {
    Factory(map[], f.built)
  }

  /** After clearing, a valid OpenAI configuration gets a new adapter, never one handed out before the clear. */
  lemma ClearForcesRebuild(f: Factory, c: AIConfig)
    requires Valid(f) && c.provider == "openai" && c.apiKey.Some? && c.apiKey.value != ""
    ensures var r := GetProvider(ClearProviders(f), c).0;
      r.Ok? && forall k :: k in f.cache ==> f.cache[k] != r.value
  {
  }

  /**
   * As written: once some caller has used the literal key 'undefined', a
   * configuration with no key at all hits that cache entry and is served an
   * adapter instead of MISSING_API_KEY.
   */
  lemma MissingKeyServedFromCache(model: string)
    ensures var withKey := AIConfig("openai", model, None, None, Some("undefined"), None);
      var noKey := AIConfig("openai", model, None, None, None, None);
      var (_, f1) := GetProvider(Empty, withKey);
      GetProvider(f1, noKey).0 == Ok(OpenAIAdapter("undefined", 0))
  {
    var withKey := AIConfig("openai", model, None, None, Some("undefined"), None);
    var noKey := AIConfig("openai", model, None, None, None, None);
    assert CacheKey(withKey) == CacheKey(noKey);
  }

  /** Corrected key: a missing key renders as '', which no successful call ever stores. */
  function CacheKeyFixed(c: AIConfig): string {
    c.provider + "-" + c.apiKey.GetOr("")
  }

  /** Every cache entry sits under the key its own adapter was built from. */
  predicate KeysMatch(f: Factory) {
    forall k :: k in f.cache ==> k == "openai-" + f.cache[k].apiKey && f.cache[k].apiKey != ""
  }

  /** `getProvider` with the corrected cache key. */
  function GetProviderFixed(f: Factory, c: AIConfig): (r: (Result<Adapter, AIError>, Factory))
    requires Valid(f) && KeysMatch(f)
    ensures Valid(r.1) && KeysMatch(r.1)
    ensures r == Lookup(f, c, CacheKeyFixed(c))
  {
    Lookup(f, c, CacheKeyFixed(c))
  }

  /** With the corrected key, an OpenAI configuration without a key is always refused, whatever was cached before. */
  lemma FixedRefusesMissingKey(f: Factory, c: AIConfig)
    requires Valid(f) && KeysMatch(f) && c.provider == "openai" && (c.apiKey.None? || c.apiKey.value == "")
    ensures GetProviderFixed(f, c) == (Err(MissingKey), f)
  {
    assert CacheKeyFixed(c) == "openai-";
    forall k | k in f.cache ensures k != "openai-" {
      assert |k| == 7 + |f.cache[k].apiKey|;
    }
  }

  /** With the corrected key, a successful OpenAI lookup always yields an adapter built with that very key. */
  lemma FixedServesOwnKey(f: Factory, c: AIConfig)
    requires Valid(f) && KeysMatch(f) && c.provider == "openai"
    requires GetProviderFixed(f, c).0.Ok?
    ensures c.apiKey.Some? && GetProviderFixed(f, c).0.value.apiKey == c.apiKey.value
  {
    var key := CacheKeyFixed(c);
    if key in f.cache {
      var a := f.cache[key];
      assert "openai-" + c.apiKey.GetOr("") == "openai-" + a.apiKey;
      assert c.apiKey.GetOr("") == ("openai-" + c.apiKey.GetOr(""))[7..];
      assert a.apiKey == ("openai-" + a.apiKey)[7..];
    }
  }
}

=== FILE: ai_service.dfy ===
/**
 * The service object of the src/ layer (src/lib/ai-service.ts): provider choice,
 * the name-keyed tool map, and tool-call processing. The mutable object becomes
 * a `Service` value; every mutator returns the new value.
 */
module AiService {
  import opened Wrappers
  import opened Text
  import opened AiTypes

  /** An `OpenAIProvider` built with the given key. */
  datatype Adapter = OpenAIAdapter(apiKey: string)

  type ToolMap = map<string, Tool>

  datatype Service = Service(provider: Adapter, tools: ToolMap)

  /** `createProvider`: only 'openai' is supported; a missing key becomes ''. */
  function CreateProvider(c: AIConfig): (r: Result<Adapter, string>)
    ensures r.Ok? <==> c.provider == "openai"
    ensures r.Ok? && c.apiKey.Some? ==> r.value.apiKey == c.apiKey.value
    ensures r.Ok? && c.apiKey.None? ==> r.value.apiKey == ""
    ensures r.Err? ==> r.error == "Unsupported provider: " + c.provider
  {
    if c.provider == "openai" then Ok(OpenAIAdapter(c.apiKey.GetOr("")))
    else Err("Unsupported provider: " + c.provider)
  }

  /** `tools[i]` is the last tool in the list called `name`. */
  predicate LastNamed(tools: seq<Tool>, i: int, name: string) {
    0 <= i < |tools| && tools[i].name == name && forall j :: i < j < |tools| ==> tools[j].name != name
  }

  /** `m` holds exactly the names occurring in `tools`. */
  ghost predicate SameNames(tools: seq<Tool>, m: ToolMap) {
    forall n :: n in m <==> exists i :: 0 <= i < |tools| && tools[i].name == n
  }

  /** Each entry of `m` is the last tool of its name in `tools`. */
  ghost predicate LastWins(tools: seq<Tool>, m: ToolMap) {
    forall n :: n in m ==> exists i :: LastNamed(tools, i, n) && m[n] == tools[i]
  }

  lemma ExtendToolMap(init: seq<Tool>, t: Tool, m: ToolMap)
    requires SameNames(init, m) && LastWins(init, m)
    ensures SameNames(init + [t], m[t.name := t]) && LastWins(init + [t], m[t.name := t])
  {
    var tools := init + [t];
    var r := m[t.name := t];
    assert LastNamed(tools, |tools| - 1, t.name);
    forall n | n in r ensures exists i :: LastNamed(tools, i, n) && r[n] == tools[i] {
      if n != t.name {
        var i :| LastNamed(init, i, n) && m[n] == init[i];
        assert tools[i] == init[i];
        assert LastNamed(tools, i, n);
      }
    }
    forall n | exists i :: 0 <= i < |tools| && tools[i].name == n ensures n in r {
      var i :| 0 <= i < |tools| && tools[i].name == n;
      if i < |init| {
        assert init[i] == tools[i];
      }
    }
  }

  /** The constructor's `forEach`: each tool keyed by its name, a later one replacing an earlier one. */
  function ToolMapOf(tools: seq<Tool>): (r: ToolMap)
    ensures SameNames(tools, r) && LastWins(tools, r)
  {
    if |tools| == 0 then map[]
    else
      var init := tools[..|tools| - 1];
      var t := tools[|tools| - 1];
      ExtendToolMap(init, t, ToolMapOf(init));
      assert init + [t] == tools;
      ToolMapOf(init)[t.name := t]
  }

  /** The constructor: the provider is chosen first, so an unsupported one means no service at all. */
  function NewService(c: AIConfig, tools: Option<seq<Tool>>): (r: Result<Service, string>)
    ensures r.Err? <==> CreateProvider(c).Err?
    ensures r.Err? ==> r.error == CreateProvider(c).error
    ensures r.Ok? ==> r.value.provider == CreateProvider(c).value
    ensures r.Ok? && tools.None? ==> r.value.tools == map[]
    ensures r.Ok? && tools.Some? ==> r.value.tools == ToolMapOf(tools.value)
  {
    match CreateProvider(c)
    case Err(e) => Err(e)
    case Ok(p) => Ok(Service(p, if tools.Some? then ToolMapOf(tools.value) else map[]))
  }

  /** `registerTool`: the tool is stored under its name, replacing any tool of that name. */
  function RegisterTool(s: Service, tool: Tool): (r: Service)
    ensures r.provider == s.provider
    ensures tool.name in r.tools && r.tools[tool.name] == tool
    ensures forall n :: n != tool.name ==> (n in r.tools <==> n in s.tools)
    ensures forall n :: n != tool.name && n in s.tools ==> r.tools[n] == s.tools[n]
  {
    s.(tools := s.tools[tool.name := tool])
  }

  /** `unregisterTool`: only that name goes; an absent name changes nothing. */
  function UnregisterTool(s: Service, name: string): (r: Service)
    ensures name !in s.tools ==> r == s
    ensures r.provider == s.provider && name !in r.tools
    ensures forall n :: n != name ==> (n in r.tools <==> n in s.tools)
    ensures forall n :: n != name && n in s.tools ==> r.tools[n] == s.tools[n]
  {
    s.(tools := s.tools - {name})
  }

  /** Registering a new name and unregistering it again restores the service. */
  lemma RegisterThenUnregister(s: Service, tool: Tool)
    requires tool.name !in s.tools
    ensures UnregisterTool(RegisterTool(s, tool), tool.name) == s
  {
    assert UnregisterTool(RegisterTool(s, tool), tool.name).tools == s.tools;
  }

  /** `updateConfig`: the same provider selection as the constructor; tools are untouched, and a failure leaves the service as it was. */
  function UpdateConfig(s: Service, c: AIConfig): (r: Result<Service, string>)
    ensures r.Err? <==> c.provider != "openai"
    ensures r.Ok? ==> r.value.tools == s.tools
    ensures forall ts :: r.Ok? ==> r.value.provider == NewService(c, ts).value.provider
  {
    match CreateProvider(c)
    case Err(e) => Err(e)
    case Ok(p) => Ok(s.(provider := p))
  }

  function NotFound(name: string): string {
    "Tool not found: " + name
  }

  function Wrapped(name: string, e: Thrown): string {
    "Failed to execute tool " + name + ": " + ErrorString(e)
  }

  /**
   * `processToolCall`. The lookup comes before parsing; a parse failure (a
   * `SyntaxError`) and a rejected tool body are reported the same way.
   */
  function ProcessToolCall(s: Service, call: ToolCall, parse: JsonParser): (r: Result<Value, string>)
    ensures call.name !in s.tools ==> r == Err(NotFound(call.name))
    ensures call.name in s.tools && parse(call.arguments).Err? ==>
      r == Err(Wrapped(call.name, ErrorObject("SyntaxError", parse(call.arguments).error)))
    ensures call.name in s.tools && r.Err? ==> StartsWith(r.error, "Failed to execute tool " + call.name + ": ")
    ensures r.Ok? <==> call.name in s.tools && parse(call.arguments).Ok? &&
                       s.tools[call.name].execute(parse(call.arguments).value).Returned?
    ensures r.Ok? ==> r.value == s.tools[call.name].execute(parse(call.arguments).value).value
  {
    if call.name !in s.tools then Err(NotFound(call.name))
    else
      match parse(call.arguments)
      case Err(m) => Err(Wrapped(call.name, ErrorObject("SyntaxError", m)))
      case Ok(args) =>
        match s.tools[call.name].execute(args)
        case Returned(v) => Ok(v)
        case Threw(e) => Err(Wrapped(call.name, e))
  }

  /** An unknown tool is reported whatever the arguments are, parseable or not. */
  lemma UnknownToolIgnoresArguments(s: Service, call: ToolCall, arguments: string, p1: JsonParser, p2: JsonParser)
    requires call.name !in s.tools
    ensures ProcessToolCall(s, call, p1) == ProcessToolCall(s, call.(arguments := arguments), p2)
  {
  }

  /**
   * `processToolCalls`: `Promise.all` over the calls. On success the results are
   * in call order; on failure the error is that of one of the failing calls.
   */
  function ProcessToolCalls(s: Service, calls: seq<ToolCall>, parse: JsonParser): (r: Result<seq<Value>, string>)
    ensures r.Ok? <==> forall i :: 0 <= i < |calls| ==> ProcessToolCall(s, calls[i], parse).Ok?
    ensures r.Ok? ==> |r.value| == |calls| &&
                      forall i :: 0 <= i < |calls| ==> r.value[i] == ProcessToolCall(s, calls[i], parse).value
    ensures r.Err? ==> exists i :: 0 <= i < |calls| && ProcessToolCall(s, calls[i], parse) == Err(r.error)
  {
    if |calls| == 0 then Ok([])
    else
      match ProcessToolCall(s, calls[0], parse)
      case Err(e) => Err(e)
      case Ok(v) =>
        var rest := ProcessToolCalls(s, calls[1..], parse);
        if rest.Err? then
          assert exists i :: 0 <= i < |calls[1..]| && ProcessToolCall(s, calls[1..][i], parse) == Err(rest.error);
          Err(rest.error)
        else
          assert forall i :: 1 <= i < |calls| ==> calls[i] == calls[1..][i - 1];
          Ok([v] + rest.value)
  }
}

=== FILE: ai_types.dfy ===
/**
 * The records shared by the second-generation AI layer under src/ (src/types/ai.ts):
 * configuration, stream chunks, responses, tools and tool calls, the `AIError`
 * class, and the thrown values the layer inspects. JSON values are an explicit
 * datatype; `JSON.parse` and tool bodies are function values.
 */
module AiTypes {
  import opened Wrappers

  /**
   * A JSON value. Numbers are integers here: the fractional, NaN and infinite
   * numbers an evaluated expression can produce are not represented.
   */
  datatype Value =
    | Null
    | Bool(b: bool)
    | Num(n: int)
    | Str(s: string)
    | Arr(items: seq<Value>)
    | Obj(fields: map<string, Value>)

  /** One entry of `AIConfig.functions`; `parameters` is an opaque JSON schema. */
  datatype FunctionSpec = FunctionSpec(name: string, description: string, parameters: Value)

  /**
   * `AIConfig`. The provider and model unions are only compile-time types, so any
   * string may arrive; `temperature` is stored but never computed with.
   */
  datatype AIConfig = AIConfig(
    provider: string,
    model: string,
    temperature: Option<real>,
    maxTokens: Option<int>,
    apiKey: Option<string>,
    functions: Option<seq<FunctionSpec>>)

  /** A message of the src/ layer: role and string content. */
  datatype AIMessage = AIMessage(role: string, content: string, name: Option<string>)

  /** `StreamChunk`. */
  datatype StreamChunk = StreamChunk(id: string, content: string, done: bool)

  datatype Usage = Usage(promptTokens: int, completionTokens: int, totalTokens: int)

  /** `AIResponse`. */
  datatype AIResponse = AIResponse(content: string, usage: Option<Usage>)

  /** `AIError`: a message, a machine-readable code and an optional HTTP status. */
  datatype AIError = AIError(message: string, code: string, statusCode: Option<int>)

  /**
   * A value thrown by a callee: an `Error` instance with its `name` (the
   * class, so `SyntaxError` stands for `instanceof SyntaxError`), the OpenAI
   * SDK's `APIError` with its optional status, or a non-`Error` value shown
   * by its string conversion.
   */
  datatype Thrown =
    | ErrorObject(name: string, message: string)
    | ApiError(message: string, status: Option<int>)
    | NonError(rendered: string)
  {
    /** `error instanceof Error`. */
    predicate IsError() {
      !NonError?
    }

    /** `error instanceof SyntaxError`. */
    predicate IsSyntaxError() {
      ErrorObject? && name == "SyntaxError"
    }
  }

  /** `String(error)`: `Error.prototype.toString` for errors, the rendering otherwise. */
  function ErrorString(e: Thrown): (r: string)
    ensures e.NonError? ==> r == e.rendered
    ensures e.ErrorObject? && e.message == "" ==> r == e.name
    ensures e.ErrorObject? && e.name != "" && e.message != "" ==> r == e.name + ": " + e.message
    ensures e.ErrorObject? && e.name == "" ==> r == e.message
    ensures e.ApiError? && e.message != "" ==> r == "Error: " + e.message
    ensures e.ApiError? && e.message == "" ==> r == "Error"
  {
    match e
    case NonError(s) => s
    case ErrorObject(n, m) => if m == "" then n else if n == "" then m else n + ": " + m
    case ApiError(m, _) => if m == "" then "Error" else "Error: " + m
  }

  /** What an awaited tool body does: resolve with a value or reject with a thrown value. */
  datatype Outcome = Returned(value: Value) | Threw(error: Thrown)

  /** `Tool`: `execute` receives the parsed arguments. */
  datatype Tool = Tool(name: string, description: string, parameters: Value, execute: Value -> Outcome)

  /** `ToolCall`; `arguments` is the JSON text still to be parsed. */
  datatype ToolCall = ToolCall(id: string, name: string, arguments: string)

  /** `JSON.parse`: the value, or the message of the `SyntaxError` it throws. */
  type JsonParser = string -> Result<Value, string>
}

=== FILE: catalogue.dfy ===
/**
 * The static catalogue of providers and models (app/utils/constants.ts): the
 * provider list, the flattened model list derived from it, the defaults, and
 * the first-match lookup by model name the rest of the system uses.
 */
module Catalogue {
  import opened Wrappers

  datatype ModelInfo = ModelInfo(name: string, labelText: string, provider: string, maxTokenAllowed: int)

  datatype ProviderInfo = ProviderInfo(name: string, staticModels: seq<ModelInfo>, getApiKeyLink: string)

  /** The default model name. It is not one of the catalogue's models. */
  const DefaultModel: string := "anthropic/claude-3.5-sonnet"

  const OpenRouterModels: seq<ModelInfo> := [
    ModelInfo("gpt-4", "GPT-4", "OpenRouter", 8000),
    ModelInfo("gpt-3.5-turbo", "GPT-3.5 Turbo", "OpenRouter", 4000),
    ModelInfo("anthropic/claude-3-opus", "Claude 3 Opus", "OpenRouter", 16000),
    ModelInfo("anthropic/claude-3-sonnet", "Claude 3 Sonnet", "OpenRouter", 8000),
    ModelInfo("anthropic/claude-2.1", "Claude 2.1", "OpenRouter", 8000),
    ModelInfo("meta-llama/llama-2-70b-chat", "Llama 2 70B", "OpenRouter", 4000),
    ModelInfo("google/gemini-pro", "Gemini Pro", "OpenRouter", 8000),
    ModelInfo("mistral/mistral-medium", "Mistral Medium", "OpenRouter", 8000)
  ]

  const OpenAIModels: seq<ModelInfo> := [
    ModelInfo("gpt-4", "GPT-4", "OpenAI", 8000),
    ModelInfo("gpt-4-turbo", "GPT-4 Turbo", "OpenAI", 128000),
    ModelInfo("gpt-3.5-turbo", "GPT-3.5 Turbo", "OpenAI", 4000)
  ]

  const AnthropicModels: seq<ModelInfo> := [
    ModelInfo("claude-3-opus", "Claude 3 Opus", "Anthropic", 16000),
    ModelInfo("claude-3-sonnet", "Claude 3 Sonnet", "Anthropic", 8000),
    ModelInfo("claude-2.1", "Claude 2.1", "Anthropic", 8000)
  ]

  const GoogleModels: seq<ModelInfo> := [
    ModelInfo("gemini-pro", "Gemini Pro", "Google", 8000),
    ModelInfo("gemini-pro-vision", "Gemini Pro Vision", "Google", 8000)
  ]

  /** `PROVIDER_LIST`, in its declared order. */
  const ProviderList: seq<ProviderInfo> := [
    ProviderInfo("OpenRouter", OpenRouterModels, "https://openrouter.ai/settings/keys"),
    ProviderInfo("OpenAI", OpenAIModels, "https://platform.openai.com/api-keys"),
    ProviderInfo("Anthropic", AnthropicModels, "https://console.anthropic.com/settings/keys"),
    ProviderInfo("Google", GoogleModels, "https://makersuite.google.com/app/apikey")
  ]

  /** `PROVIDER_LIST[0]`. */
  const DefaultProvider: ProviderInfo := ProviderList[0]

  /** `models.map(model => ({...model, provider: name}))`. */
  function Relabel(models: seq<ModelInfo>, name: string): (r: seq<ModelInfo>)
    ensures |r| == |models|
    ensures forall i :: 0 <= i < |r| ==> r[i] == models[i].(provider := name)
  {
    if |models| == 0 then [] else [models[0].(provider := name)] + Relabel(models[1..], name)
  }

  /** `providers.flatMap(p => Relabel(p.staticModels, p.name))`. */
  function Flatten(providers: seq<ProviderInfo>): seq<ModelInfo> {
    if |providers| == 0 then []
    else Relabel(providers[0].staticModels, providers[0].name) + Flatten(providers[1..])
  }

  /** `MODEL_LIST`. */
  const ModelList: seq<ModelInfo> := Flatten(ProviderList)

  function ModelCount(providers: seq<ProviderInfo>): nat {
    if |providers| == 0 then 0 else |providers[0].staticModels| + ModelCount(providers[1..])
  }

  /** The flattened list holds one entry per static model of every provider. */
  lemma {:induction false} FlattenLength(providers: seq<ProviderInfo>)
    ensures |Flatten(providers)| == ModelCount(providers)
  {
    if |providers| > 0 {
      FlattenLength(providers[1..]);
    }
  }

  /**
   * An entry is in the flattened list exactly when it is some provider's static
   * model with its `provider` field set to that provider's name.
   */
  lemma {:induction false} FlattenMembers(providers: seq<ProviderInfo>, e: ModelInfo)
    ensures e in Flatten(providers) <==>
      exists p, m :: p in providers && m in p.staticModels && e == m.(provider := p.name)
  {
    if |providers| > 0 {
      var head := providers[0];
      FlattenMembers(providers[1..], e);
      var rel := Relabel(head.staticModels, head.name);
      if e in rel {
        var i :| 0 <= i < |rel| && rel[i] == e;
        assert head in providers && head.staticModels[i] in head.staticModels;
      }
      if exists p, m :: p in providers && m in p.staticModels && e == m.(provider := p.name) {
        var p, m :| p in providers && m in p.staticModels && e == m.(provider := p.name);
        if p == head {
          var i :| 0 <= i < |head.staticModels| && head.staticModels[i] == m;
          assert rel[i] == e;
        } else {
          assert p in providers[1..];
        }
      }
    }
  }

  /** Position of the first entry named `name`. */
  function IndexOfName(list: seq<ModelInfo>, name: string): (r: Option<nat>)
    ensures r.Some? ==> r.value < |list| && list[r.value].name == name
    ensures r.Some? ==> forall j :: 0 <= j < r.value ==> list[j].name != name
    ensures r.None? <==> forall j :: 0 <= j < |list| ==> list[j].name != name
  {
    if |list| == 0 then None
    else if list[0].name == name then Some(0)
    else match IndexOfName(list[1..], name)
      case Some(i) => Some(i + 1)
      case None => None
  }

  /** `list.find(m => m.name === name)`: the first entry with that name. */
  function FindByName(list: seq<ModelInfo>, name: string): Option<ModelInfo> {
    match IndexOfName(list, name)
    case Some(i) => Some(list[i])
    case None => None
  }

  /** `MODEL_LIST` is every provider's models, relabelled with their owner, in provider order. */
  lemma ModelListContents()
    ensures ModelList == OpenRouterModels + OpenAIModels + AnthropicModels + GoogleModels
  {
    var ps := ProviderList;
    RelabelOwned(OpenRouterModels, "OpenRouter");
    RelabelOwned(OpenAIModels, "OpenAI");
    RelabelOwned(AnthropicModels, "Anthropic");
    RelabelOwned(GoogleModels, "Google");
    assert Flatten(ps[4..]) == [];
    assert Flatten(ps[3..]) == GoogleModels;
    assert Flatten(ps[2..]) == AnthropicModels + GoogleModels;
    assert Flatten(ps[1..]) == OpenAIModels + (AnthropicModels + GoogleModels);
    assert Flatten(ps) == OpenRouterModels + (OpenAIModels + (AnthropicModels + GoogleModels));
  }

  /** Relabelling models that already name their owner changes nothing. */
  lemma RelabelOwned(models: seq<ModelInfo>, name: string)
    requires forall i :: 0 <= i < |models| ==> models[i].provider == name
    ensures Relabel(models, name) == models
  {
  }

  /** The catalogue holds 16 models (8 + 3 + 3 + 2), each with a positive token ceiling. */
  lemma CatalogueSize()
    ensures |ModelList| == 16
    ensures forall i :: 0 <= i < |ModelList| ==> ModelList[i].maxTokenAllowed > 0
  {
    ModelListContents();
    var parts := [OpenRouterModels, OpenAIModels, AnthropicModels, GoogleModels];
    forall i | 0 <= i < |ModelList| ensures ModelList[i].maxTokenAllowed > 0 {
      if i < 8 {
        assert ModelList[i] == OpenRouterModels[i];
      } else if i < 11 {
        assert ModelList[i] == OpenAIModels[i - 8];
      } else if i < 14 {
        assert ModelList[i] == AnthropicModels[i - 11];
      } else {
        assert ModelList[i] == GoogleModels[i - 14];
      }
    }
  }

  /** The default provider is the first list entry, OpenRouter. */
  lemma DefaultProviderIsOpenRouter()
    ensures DefaultProvider.name == "OpenRouter"
    ensures DefaultProvider == ProviderList[0]
  {
  }

  /** The default model is in no provider's static models. */
  lemma DefaultModelNotListed()
    ensures FindByName(ModelList, DefaultModel) == None
  {
    ModelListContents();
    assert DefaultModel[0] == 'a';
    assert OpenRouterModels[5].name[0] == 'm';
    forall i | 0 <= i < |ModelList| ensures ModelList[i].name != DefaultModel {
      if i < 8 {
        assert ModelList[i] == OpenRouterModels[i];
      } else if i < 11 {
        assert ModelList[i] == OpenAIModels[i - 8];
      } else if i < 14 {
        assert ModelList[i] == AnthropicModels[i - 11];
      } else {
        assert ModelList[i] == GoogleModels[i - 14];
      }
    }
  }

  /**
   * Model names are not unique across providers: a first-match lookup of 'gpt-4'
   * or 'gpt-3.5-turbo' lands on the OpenRouter entry, although OpenAI lists both.
   */
  lemma DuplicateNamesResolveToOpenRouter()
    ensures FindByName(ModelList, "gpt-4") == Some(ModelInfo("gpt-4", "GPT-4", "OpenRouter", 8000))
    ensures FindByName(ModelList, "gpt-3.5-turbo") ==
      Some(ModelInfo("gpt-3.5-turbo", "GPT-3.5 Turbo", "OpenRouter", 4000))
    ensures ModelInfo("gpt-4", "GPT-4", "OpenAI", 8000) in ModelList
    ensures ModelInfo("gpt-3.5-turbo", "GPT-3.5 Turbo", "OpenAI", 4000) in ModelList
  {
    ModelListContents();
    var l := ModelList;
    assert l[0] == OpenRouterModels[0];
    assert l[1] == OpenRouterModels[1];
    assert l[8] == OpenAIModels[0];
    assert l[10] == OpenAIModels[2];
    assert IndexOfName(l, "gpt-4") == Some(0);
    assert l[0].name != "gpt-3.5-turbo";
    assert IndexOfName(l, "gpt-3.5-turbo") == Some(1);
  }

  /** `list.filter(m => m.provider === name)`. */
  function ModelsOf(list: seq<ModelInfo>, name: string): (r: seq<ModelInfo>)
    ensures forall e :: e in r <==> e in list && e.provider == name
  {
    if |list| == 0 then []
    else if list[0].provider == name then [list[0]] + ModelsOf(list[1..], name)
    else ModelsOf(list[1..], name)
  }

  lemma {:induction false} ModelsOfAppend(a: seq<ModelInfo>, b: seq<ModelInfo>, name: string)
    ensures ModelsOf(a + b, name) == ModelsOf(a, name) + ModelsOf(b, name)
  {
    if |a| == 0 {
      assert a + b == b;
    } else {
      assert (a + b)[1..] == a[1..] + b;
      ModelsOfAppend(a[1..], b, name);
    }
  }

  lemma {:induction false} ModelsOfRelabel(models: seq<ModelInfo>, owner: string, name: string)
    ensures ModelsOf(Relabel(models, owner), name) == if owner == name then Relabel(models, owner) else []
  {
    if |models| > 0 {
      var r := Relabel(models, owner);
      assert r[1..] == Relabel(models[1..], owner);
      ModelsOfRelabel(models[1..], owner, name);
    }
  }

  predicate DistinctNames(providers: seq<ProviderInfo>) {
    forall i, j :: 0 <= i < j < |providers| ==> providers[i].name != providers[j].name
  }

  /**
   * With distinct provider names, the entries of the flattened list owned by a
   * provider are exactly that provider's static models, in their original order.
   */
  lemma {:induction false} ModelsOfFlatten(providers: seq<ProviderInfo>, k: nat)
    requires DistinctNames(providers) && k < |providers|
    ensures ModelsOf(Flatten(providers), providers[k].name) ==
      Relabel(providers[k].staticModels, providers[k].name)
  {
    var name := providers[k].name;
    var head := providers[0];
    ModelsOfAppend(Relabel(head.staticModels, head.name), Flatten(providers[1..]), name);
    ModelsOfRelabel(head.staticModels, head.name, name);
    if k == 0 {
      NoModelsOfAbsent(providers[1..], name);
    } else {
      ModelsOfFlatten(providers[1..], k - 1);
    }
  }

  lemma {:induction false} NoModelsOfAbsent(providers: seq<ProviderInfo>, name: string)
    requires forall i :: 0 <= i < |providers| ==> providers[i].name != name
    ensures ModelsOf(Flatten(providers), name) == []
  {
    if |providers| > 0 {
      var head := providers[0];
      ModelsOfAppend(Relabel(head.staticModels, head.name), Flatten(providers[1..]), name);
      ModelsOfRelabel(head.staticModels, head.name, name);
      NoModelsOfAbsent(providers[1..], name);
    }
  }

  /**
   * `initializeModelList`: the stored credentials it reads (parsing may fail)
   * do not influence the result, which is the static model list.
   */
  function InitializeModelList(stored: Option<string>, parse: string -> Option<map<string, string>>): (r: seq<ModelInfo>)
    ensures r == ModelList
  {
    ModelList
  }
}

=== FILE: chat_client.dfy ===
/**
 * The chat page's send path (app/components/chat/Chat.client.tsx) as a state
 * transition: `sendMessage`, `abort`, the credential the request body carries,
 * and when the history is handed to persistence. The chat hook's own state
 * handling (streaming, `isLoading` bookkeeping) and the toast are outside the
 * model; a rejected send reports the notice it would show.
 */
module ChatClient {
  import opened Wrappers
  import opened Text
  import opened Messages
  import opened Tags
  import opened Providers
  import ChatRoute

  datatype ClientState = ClientState(
    messages: seq<Message>,
    isLoading: bool,
    input: string,
    aborted: bool,
    uploadedFiles: seq<string>,
    imageDataList: seq<string>,
    model: string,
    providerName: string,
    apiKeys: map<string, string>)

  datatype SendResult = SendResult(state: ClientState, notice: Option<string>)

  /** `messageInput || input`. */
  function TextToSend(messageInput: Option<string>, input: string): (r: string)
    ensures messageInput.Some? && messageInput.value != "" ==> r == messageInput.value
    ensures messageInput.None? || messageInput.value == "" ==> r == input
  {
    if messageInput.Some? && messageInput.value != "" then messageInput.value else input
  }

  /** One image part per attached data URI, in order. */
  function ImageParts(images: seq<string>): (r: seq<Part>)
    ensures |r| == |images|
    ensures forall i :: 0 <= i < |images| ==> r[i] == ImagePart(images[i])
  {
    if |images| == 0 then [] else [ImagePart(images[0])] + ImageParts(images[1..])
  }

  /** A truthy credential is stored under `name`. */
  predicate HasKey(keys: map<string, string>, name: string) {
    name in keys && keys[name] != ""
  }

  /** The user message a send appends. */
  function OutgoingMessage(st: ClientState, text: string, id: string): Message {
    Message(User, Parts([TextPart(Some(RoutingHeader(st.model, st.providerName) + text))] + ImageParts(st.imageDataList)), id)
  }

  /** `sendMessage`; `id` is the identifier the chat hook gives the new message. */
  function SendMessage(st: ClientState, messageInput: Option<string>, id: string): (r: SendResult)
    ensures var text := TextToSend(messageInput, st.input);
      |text| == 0 || st.isLoading ==> r == SendResult(st, None)
    ensures var text := TextToSend(messageInput, st.input);
      |text| > 0 && !st.isLoading && !HasKey(st.apiKeys, ToLower(st.providerName)) ==>
        r.state == st && r.notice == Some("Please set up your " + st.providerName + " API key in settings first.")
    ensures r.state != st ==>
      && var text := TextToSend(messageInput, st.input);
      && r.notice.None?
      && r.state.messages == st.messages + [OutgoingMessage(st, text, id)]
      && !r.state.aborted && r.state.input == "" && r.state.uploadedFiles == [] && r.state.imageDataList == []
      && r.state.model == st.model && r.state.providerName == st.providerName && r.state.apiKeys == st.apiKeys
  {
    var text := TextToSend(messageInput, st.input);
    if |text| == 0 || st.isLoading then SendResult(st, None)
    else if !HasKey(st.apiKeys, ToLower(st.providerName)) then
      SendResult(st, Some("Please set up your " + st.providerName + " API key in settings first."))
    else
      SendResult(st.(messages := st.messages + [OutgoingMessage(st, text, id)],
                     aborted := false, input := "", uploadedFiles := [], imageDataList := []), None)
  }

  /** A send is accepted exactly when there is text, nothing is loading, and a credential exists under the lower-cased provider name. */
  lemma SendAcceptedIff(st: ClientState, messageInput: Option<string>, id: string)
    ensures SendMessage(st, messageInput, id).state.messages != st.messages <==>
      |TextToSend(messageInput, st.input)| > 0 && !st.isLoading && HasKey(st.apiKeys, ToLower(st.providerName))
  {
    var r := SendMessage(st, messageInput, id);
    if |TextToSend(messageInput, st.input)| > 0 && !st.isLoading && HasKey(st.apiKeys, ToLower(st.providerName)) {
      assert |r.state.messages| == |st.messages| + 1;
    }
  }

  /** `abort`: stops the stream and marks the chat aborted, whether or not anything was streaming. */
  function Abort(st: ClientState): (r: ClientState)
    ensures r.aborted && !r.isLoading
    ensures r.messages == st.messages && r.input == st.input && r.apiKeys == st.apiKeys
  {
    st.(aborted := true, isLoading := false)
  }

  /** Aborting twice is aborting once; aborting when idle still sets the flag. */
  lemma AbortIdempotent(st: ClientState)
    ensures Abort(Abort(st)) == Abort(st)
    ensures !st.isLoading && !st.aborted ==> Abort(st) != st
  {
  }

  /** The `apiKeys` field of the request body: only the active provider's credential, under its lower-cased name (an undefined value is dropped by JSON). */
  function RequestKeys(st: ClientState): (r: map<string, ConfigInput>)
    ensures forall k :: k in r ==> k == ToLower(st.providerName)
    ensures ToLower(st.providerName) in st.apiKeys <==> ToLower(st.providerName) in r
    ensures ToLower(st.providerName) in r ==> r[ToLower(st.providerName)] == Bare(st.apiKeys[ToLower(st.providerName)])
  {
    var k := ToLower(st.providerName);
    if k in st.apiKeys then map[k := Bare(st.apiKeys[k])] else map[]
  }

  /** The history is handed to persistence once it has grown past the initial messages. */
  function ShouldPersist(messages: seq<Message>, initialCount: nat): (r: bool)
    ensures r <==> |messages| > initialCount
  {
    |messages| > initialCount
  }

  /** An accepted send on a page that started from its initial messages triggers persistence. */
  lemma SendPersists(st: ClientState, messageInput: Option<string>, id: string)
    requires |TextToSend(messageInput, st.input)| > 0 && !st.isLoading && HasKey(st.apiKeys, ToLower(st.providerName))
    ensures ShouldPersist(SendMessage(st, messageInput, id).state.messages, |st.messages|)
  {
    SendAcceptedIff(st, messageInput, id);
  }

  /**
   * Client to server: after an accepted send with tag-safe, non-empty model and
   * provider names, the chat route, given the new history and the body's
   * credential map, never answers 400; when it generates, it uses the selected
   * model, the lower-cased provider, and the trimmed text.
   */
  lemma SendReachesRoute(st: ClientState, messageInput: Option<string>, id: string)
    requires |TextToSend(messageInput, st.input)| > 0 && !st.isLoading && HasKey(st.apiKeys, ToLower(st.providerName))
    requires TagSafe(st.model) && TagSafe(st.providerName) && |st.model| > 0 && |st.providerName| > 0
    ensures var after := SendMessage(st, messageInput, id).state;
      var r := ChatRoute.ChatAction(Some(ChatRoute.ChatRequest(Some(after.messages), ChatRoute.KeysObject(RequestKeys(after)))));
      && (r.Failure? ==> r.status == 500)
      && (r.Generation? ==> r.options.model == st.model && r.options.provider == ToLower(st.providerName))
  {
    var text := TextToSend(messageInput, st.input);
    var after := SendMessage(st, messageInput, id).state;
    var images := ImageParts(st.imageDataList);
    assert OutgoingMessage(st, text, id) == ChatRoute.ClientMessage(id, st.model, st.providerName, text, images);
    SendAcceptedIff(st, messageInput, id);
    assert after.messages == st.messages + [ChatRoute.ClientMessage(id, st.model, st.providerName, text, images)];
    var keys := RequestKeys(after);
    assert ToLower(st.providerName) in keys && ChatRoute.Truthy(keys[ToLower(st.providerName)]);
    ChatRoute.ClientRequestRoundTrip(st.messages, id, st.model, st.providerName, text, images, keys);
  }
}

=== FILE: chat_route.dfy ===
/**
 * The chat endpoint (app/routes/api.chat.ts): validate the request, read the
 * routing tags from the last message with the route's own looser expressions,
 * look up the credential, build the adapter, clean the last message and ask the
 * adapter to generate. The outcome is the HTTP status with its error, or the
 * generation call that would be made.
 */
module ChatRoute {
  import opened Wrappers
  import opened Text
  import opened Messages
  import opened Tags
  import opened Providers

  /**
   * The `apiKeys` field of the body as the property lookup `apiKeys[name]` sees
   * it. Indexing an absent or null field throws. On an object, a name is
   * looked up among its own entries and then on Object.prototype. Any other
   * JSON value (a number, a string, a boolean, an array) has no credential
   * entries: `truthy` holds the names under which looking up a property of it
   * gives a truthy value (the names its prototype chain supplies, and for a
   * string or array its indices and a non-zero `length`).
   */
  datatype KeysField =
    | NoKeys
    | KeysObject(own: map<string, ConfigInput>)
    | KeysOther(truthy: set<string>)

  /** A number or a boolean: only Object.prototype's lower-case names are found on it. */
  const ScalarKeys := KeysOther({"constructor", "__proto__"})

  /** The parsed JSON body; a `messages` field that is absent or not an array is None. */
  datatype ChatRequest = ChatRequest(messages: Option<seq<Message>>, apiKeys: KeysField)

  datatype ChatResponse =
    | Failure(status: int, error: string)
    | Generation(adapter: Adapter, messages: seq<Message>, options: GenerateOptions)

  const InvalidMessages := "Invalid messages array"
  const TagsMissing := "Provider or model not specified in message"
  const KeyMissingPrefix := "API key not found for provider: "
  const ServerError := "Failed to process chat request"
  const RouteMaxTokens: int := 4096

  /**
   * The text the tags are read from: the string content, or the first text
   * part's text ('' when there is none). None when the content is null, where
   * calling `.match` throws.
   */
  function MessageText(c: Content): (r: Option<string>)
    ensures r.None? <==> c.NoContent?
    ensures c.Str? ==> r == Some(c.s)
    ensures c.Parts? ==> r == Some(FirstText(c.parts))
  {
    match c
    case Str(s) => Some(s)
    case Parts(ps) => Some(FirstText(ps))
    case NoContent => None
  }

  /** The routing read by the route: (model, lower-cased provider), when both loose tags are present. */
  function ReadTags(text: string): (r: Option<(string, string)>)
    ensures r.Some? <==> Capture(LooseProviderRegex, text).Some? && Capture(LooseModelRegex, text).Some?
    ensures r.Some? ==> r.value.0 == Capture(LooseModelRegex, text).value
    ensures r.Some? ==> r.value.1 == ToLower(Capture(LooseProviderRegex, text).value)
  {
    match (Capture(LooseProviderRegex, text), Capture(LooseModelRegex, text))
    case (Some(p), Some(m)) => Some((m, ToLower(p)))
    case _ => None
  }

  /** The cleaned text: the first provider tag removed, then the first model tag, then trimmed. */
  function CleanText(text: string): (r: string)
    ensures forall t1, t2 :: Replaced(LooseProviderRegex, text, t1) && Replaced(LooseModelRegex, t1, t2) ==> r == Trim(t2)
    ensures r == [] || (!IsSpace(r[0]) && !IsSpace(r[|r| - 1]))
  {
    var t1 := RemoveFirst(LooseProviderRegex, text);
    RemoveFirstMatch(LooseProviderRegex, text);
    RemoveFirstMatch(LooseModelRegex, t1);
    Trim(RemoveFirst(LooseModelRegex, t1))
  }

  /** Writes the cleaned text back: into the first text part of an array, or as the new string content. */
  function WriteBack(c: Content, cleaned: string): (r: Content)
    ensures c.Parts? ==> r.Parts? && |r.parts| == |c.parts|
    ensures c.Parts? ==> forall i :: 0 <= i < |c.parts| && Some(i) != FirstTextIndex(c.parts) ==> r.parts[i] == c.parts[i]
    ensures c.Parts? && FirstTextIndex(c.parts).Some? ==> r.parts[FirstTextIndex(c.parts).value] == TextPart(Some(cleaned))
    ensures !c.Parts? ==> r == Str(cleaned)
  {
    match c
    case Parts(ps) => Parts(SetFirstText(ps, cleaned))
    case _ => Str(cleaned)
  }

  /** A credential entry counts only when truthy: an empty key string does not. */
  predicate Truthy(e: ConfigInput) {
    e.Bare? ==> e.key != ""
  }

  /**
   * The lower-case names `apiKeys[name]` finds on Object.prototype when the
   * body has no such key of its own: `constructor` (the Object function) and
   * `__proto__` (the prototype object). Both are truthy.
   */
  predicate Inherited(name: string) {
    name == "constructor" || name == "__proto__"
  }

  /** `apiKeys[p]` is truthy: an own truthy entry, or an inherited property. */
  predicate KeyFound(keys: KeysField, p: string) {
    match keys
    case NoKeys => false
    case KeysObject(own) => if p in own then Truthy(own[p]) else Inherited(p)
    case KeysOther(truthy) => p in truthy
  }

  /** `apiKeys[p]` is a credential entry of the body's own. */
  predicate Own(keys: KeysField, p: string) {
    keys.KeysObject? && p in keys.own
  }

  /** No adapter exists for an inherited name, whatever is passed as its configuration. */
  lemma InheritedNamesUnsupported(p: string, config: ConfigInput)
    requires Inherited(p)
    ensures CreateProvider(p, config) == Err("Unsupported provider: " + p)
  {
    assert |ToLower(p)| == |p|;
  }

  /** What the route reads from the last message: its text and the routing in it. */
  datatype Route = Route(text: string, model: string, provider: string)

  /** Reads the routing from the last message. None (with the status to answer) when it cannot. */
  function ReadRoute(msgs: seq<Message>): (r: Result<Route, ChatResponse>)
    requires |msgs| > 0
    ensures r.Err? ==> r.error == Failure(500, ServerError) || r.error == Failure(400, TagsMissing)
    ensures r.Err? && r.error.status == 400 <==>
      MessageText(msgs[|msgs| - 1].content).Some? && ReadTags(MessageText(msgs[|msgs| - 1].content).value).None?
    ensures r.Ok? ==> Some(r.value.text) == MessageText(msgs[|msgs| - 1].content)
    ensures r.Ok? ==> ReadTags(r.value.text) == Some((r.value.model, r.value.provider))
  {
    match MessageText(msgs[|msgs| - 1].content)
    case None => Err(Failure(500, ServerError))
    case Some(text) =>
      match ReadTags(text)
      case None => Err(Failure(400, TagsMissing))
      case Some((model, provider)) => Ok(Route(text, model, provider))
  }

  /** The history with only the last message cleaned. */
  function CleanLast(msgs: seq<Message>, text: string): (r: seq<Message>)
    requires |msgs| > 0
    ensures |r| == |msgs| && r[..|msgs| - 1] == msgs[..|msgs| - 1]
    ensures r[|msgs| - 1].role == msgs[|msgs| - 1].role && r[|msgs| - 1].id == msgs[|msgs| - 1].id
    ensures r[|msgs| - 1] == msgs[|msgs| - 1].(content := WriteBack(msgs[|msgs| - 1].content, CleanText(text)))
  {
    var last := msgs[|msgs| - 1];
    var r := msgs[..|msgs| - 1] + [last.(content := WriteBack(last.content, CleanText(text)))];
    assert r[..|msgs| - 1] == msgs[..|msgs| - 1];
    r
  }

  /** The part after the route is read: credential lookup, adapter, cleaning, generation. */
  function Dispatch(msgs: seq<Message>, route: Route, keys: KeysField): (r: ChatResponse)
    requires |msgs| > 0
    ensures keys.NoKeys? ==> r == Failure(500, ServerError)
    ensures r.Failure? ==> r.status == 500 || r == Failure(400, KeyMissingPrefix + route.provider)
    ensures !keys.NoKeys? ==> (r == Failure(400, KeyMissingPrefix + route.provider) <==> !KeyFound(keys, route.provider))
    ensures KeyFound(keys, route.provider) && !Own(keys, route.provider) ==> r == Failure(500, ServerError)
    ensures r.Generation? ==> Own(keys, route.provider) && CreateProvider(route.provider, keys.own[route.provider]) == Ok(r.adapter)
    ensures r.Generation? ==> r.options == GenerateOptions(route.provider, route.model, Some(RouteMaxTokens))
    ensures r.Generation? ==> r.messages == CleanLast(msgs, route.text)
    ensures r.Generation? && r.adapter.kind == AzureAdapter ==> AzureGenerate(r.adapter.config, r.messages, r.options).Ok?
    ensures Own(keys, route.provider) && CreateProvider(route.provider, keys.own[route.provider]).Ok? ==>
      var a := CreateProvider(route.provider, keys.own[route.provider]).value;
      a.kind == AzureAdapter &&
      AzureGenerate(a.config, CleanLast(msgs, route.text), GenerateOptions(route.provider, route.model, Some(RouteMaxTokens))).Err? ==>
        r == Failure(500, ServerError)
  {
    if keys.NoKeys? then
      // indexing undefined or null throws a TypeError
      Failure(500, ServerError)
    else if !KeyFound(keys, route.provider) then Failure(400, KeyMissingPrefix + route.provider)
    else if !Own(keys, route.provider) then
      // the inherited value reaches createProvider, which has no adapter for the name and throws
      Failure(500, ServerError)
    else
      match CreateProvider(route.provider, keys.own[route.provider])
      case Err(_) => Failure(500, ServerError)
      case Ok(adapter) =>
        var cleaned := CleanLast(msgs, route.text);
        var options := GenerateOptions(route.provider, route.model, Some(RouteMaxTokens));
        if adapter.kind == AzureAdapter && AzureGenerate(adapter.config, cleaned, options).Err? then
          Failure(500, ServerError)
        else Generation(adapter, cleaned, options)
  }

  /** `action`: the response the route produces for a request body (None: the body is not JSON). */
  function ChatAction(body: Option<ChatRequest>): (r: ChatResponse)
    ensures body.None? ==> r == Failure(500, ServerError)
    ensures body.Some? ==> (r == Failure(400, InvalidMessages) <==> body.value.messages.None? || body.value.messages.value == [])
    ensures r.Generation? ==>
      && body.Some? && body.value.messages.Some? && |body.value.messages.value| > 0
      && ReadRoute(body.value.messages.value).Ok?
      && body.value.apiKeys.KeysObject?
      && r == Dispatch(body.value.messages.value, ReadRoute(body.value.messages.value).value, body.value.apiKeys)
  {
    if body.None? then Failure(500, ServerError)
    else
      var req := body.value;
      if req.messages.None? || req.messages.value == [] then Failure(400, InvalidMessages)
      else
        match ReadRoute(req.messages.value)
        case Err(response) => response
        case Ok(route) =>
          Dispatch(req.messages.value, route, req.apiKeys)
  }

  /** A last message whose text has a tag missing is rejected with 400, whatever the credentials. */
  lemma MissingTagIs400(msgs: seq<Message>, keys: KeysField)
    requires |msgs| > 0
    requires MessageText(msgs[|msgs| - 1].content).Some?
    requires ReadTags(MessageText(msgs[|msgs| - 1].content).value).None?
    ensures ChatAction(Some(ChatRequest(Some(msgs), keys))) == Failure(400, TagsMissing)
  {
  }

  /** A provider with no truthy credential under its lower-cased name, own or inherited, is rejected with 400. */
  lemma MissingKeyIs400(msgs: seq<Message>, keys: KeysField)
    requires |msgs| > 0
    requires MessageText(msgs[|msgs| - 1].content).Some?
    requires ReadTags(MessageText(msgs[|msgs| - 1].content).value).Some?
    requires var p := ReadTags(MessageText(msgs[|msgs| - 1].content).value).value.1;
      !keys.NoKeys? && !KeyFound(keys, p)
    ensures ChatAction(Some(ChatRequest(Some(msgs), keys))) ==
      Failure(400, KeyMissingPrefix + ReadTags(MessageText(msgs[|msgs| - 1].content).value).value.1)
  {
  }

  /**
   * A number or boolean `apiKeys` holds no credential: any provider but the two
   * names Object.prototype supplies is rejected with 400, as for an empty map.
   */
  lemma ScalarKeysAre400(msgs: seq<Message>)
    requires |msgs| > 0
    requires MessageText(msgs[|msgs| - 1].content).Some?
    requires ReadTags(MessageText(msgs[|msgs| - 1].content).value).Some?
    requires !Inherited(ReadTags(MessageText(msgs[|msgs| - 1].content).value).value.1)
    ensures ChatAction(Some(ChatRequest(Some(msgs), ScalarKeys))) ==
      Failure(400, KeyMissingPrefix + ReadTags(MessageText(msgs[|msgs| - 1].content).value).value.1)
    ensures ChatAction(Some(ChatRequest(Some(msgs), ScalarKeys))) == ChatAction(Some(ChatRequest(Some(msgs), KeysObject(map[]))))
  {
    MissingKeyIs400(msgs, ScalarKeys);
    MissingKeyIs400(msgs, KeysObject(map[]));
  }

  /**
   * A string or array `apiKeys` can answer a provider tag such as 'length' or '0'
   * with a truthy built-in property: the lookup passes, the name is no own entry,
   * and `createProvider` rejects it, so the route answers 500 where an empty
   * object would answer 400.
   */
  lemma TruthyScalarLookupIs500(msgs: seq<Message>, truthy: set<string>)
    requires |msgs| > 0
    requires MessageText(msgs[|msgs| - 1].content).Some?
    requires ReadTags(MessageText(msgs[|msgs| - 1].content).value).Some?
    requires ReadTags(MessageText(msgs[|msgs| - 1].content).value).value.1 in truthy
    ensures ChatAction(Some(ChatRequest(Some(msgs), KeysOther(truthy)))) == Failure(500, ServerError)
  {
  }

  /** The route reads the client's header back: the model as written and the provider lower-cased. */
  lemma ReadHeaderTags(m: string, p: string, input: string)
    requires TagSafe(m) && TagSafe(p) && |m| > 0 && |p| > 0
    ensures ReadTags(RoutingHeader(m, p) + input) == Some((m, ToLower(p)))
  {
    HeaderRoundTripLoose(m, p, input);
  }

  /** Cleaning the client's text leaves the trimmed input: the header's line feeds are whitespace. */
  lemma CleanHeaderText(m: string, p: string, input: string)
    requires TagSafe(m) && TagSafe(p) && |m| > 0 && |p| > 0
    ensures CleanText(RoutingHeader(m, p) + input) == Trim(input)
  {
    HeaderRoundTripLoose(m, p, input);
    TrimSkipsBlankLines(input);
  }

  /** The message the client sends: the routing header and the input as the first part, then the images. */
  function ClientMessage(id: string, m: string, p: string, input: string, images: seq<Part>): Message {
    Message(User, Parts([TextPart(Some(RoutingHeader(m, p) + input))] + images), id)
  }

  /** The route reads the client message's routing. */
  lemma ReadClientRoute(prior: seq<Message>, id: string, m: string, p: string, input: string, images: seq<Part>)
    requires TagSafe(m) && TagSafe(p) && |m| > 0 && |p| > 0
    ensures ReadRoute(prior + [ClientMessage(id, m, p, input, images)]) == Ok(Route(RoutingHeader(m, p) + input, m, ToLower(p)))
  {
    var msg := ClientMessage(id, m, p, input, images);
    var msgs := prior + [msg];
    assert msgs[|msgs| - 1] == msg;
    assert FirstTextIndex(msg.content.parts) == Some(0);
    assert MessageText(msg.content) == Some(RoutingHeader(m, p) + input);
    ReadHeaderTags(m, p, input);
  }

  /** Cleaning the client message keeps the history and the images and leaves the trimmed input as its text. */
  lemma CleanClientMessage(prior: seq<Message>, id: string, m: string, p: string, input: string, images: seq<Part>)
    requires TagSafe(m) && TagSafe(p) && |m| > 0 && |p| > 0
    ensures CleanLast(prior + [ClientMessage(id, m, p, input, images)], RoutingHeader(m, p) + input) ==
      prior + [Message(User, Parts([TextPart(Some(Trim(input)))] + images), id)]
  {
    var msg := ClientMessage(id, m, p, input, images);
    var msgs := prior + [msg];
    assert msgs[|msgs| - 1] == msg;
    assert msgs[..|msgs| - 1] == prior;
    CleanHeaderText(m, p, input);
    var ps := msg.content.parts;
    assert FirstTextIndex(ps) == Some(0);
    assert SetFirstText(ps, Trim(input)) == [TextPart(Some(Trim(input)))] + images;
  }

  /** A readable last message hands the request to the dispatch step. */
  lemma ActionDispatches(msgs: seq<Message>, keys: KeysField)
    requires |msgs| > 0 && ReadRoute(msgs).Ok?
    ensures ChatAction(Some(ChatRequest(Some(msgs), keys))) == Dispatch(msgs, ReadRoute(msgs).value, keys)
  {
  }

  /** With a truthy credential and an adapter that accepts its configuration, the generation call is made. */
  lemma DispatchGenerates(msgs: seq<Message>, route: Route, keys: map<string, ConfigInput>)
    requires |msgs| > 0
    requires route.provider in keys && Truthy(keys[route.provider])
    requires CreateProvider(route.provider, keys[route.provider]).Ok?
    requires var a := CreateProvider(route.provider, keys[route.provider]).value;
      a.kind == AzureAdapter ==> Present(a.config.endpoint) && Present(a.config.apiVersion)
    ensures Dispatch(msgs, route, KeysObject(keys)).Generation?
  {
  }

  /**
   * End to end with the client: a message written by the chat client, with
   * non-empty tag-safe names and a truthy credential under the lower-cased
   * provider name, is either generated with model m, provider lower(p),
   * maxTokens 4096, the earlier messages untouched and the text part reduced
   * to the trimmed input, or fails with 500 (no adapter, or an incomplete Azure
   * configuration); it is never rejected with 400.
   */
  lemma ClientRequestRoundTrip(prior: seq<Message>, id: string, m: string, p: string, input: string,
                               images: seq<Part>, keys: map<string, ConfigInput>)
    requires TagSafe(m) && TagSafe(p) && |m| > 0 && |p| > 0
    requires ToLower(p) in keys && Truthy(keys[ToLower(p)])
    ensures var r := ChatAction(Some(ChatRequest(Some(prior + [ClientMessage(id, m, p, input, images)]), KeysObject(keys))));
      && (r.Failure? ==> r.status == 500)
      && (r.Generation? ==>
        && r.options == GenerateOptions(ToLower(p), m, Some(RouteMaxTokens))
        && r.messages == prior + [Message(User, Parts([TextPart(Some(Trim(input)))] + images), id)])
  {
    var msgs := prior + [ClientMessage(id, m, p, input, images)];
    ReadClientRoute(prior, id, m, p, input, images);
    CleanClientMessage(prior, id, m, p, input, images);
    ActionDispatches(msgs, KeysObject(keys));
  }

  /** When the adapter exists and, for Azure, the configuration is complete, the client's request is generated. */
  lemma ClientRequestGenerated(prior: seq<Message>, id: string, m: string, p: string, input: string,
                               images: seq<Part>, keys: map<string, ConfigInput>)
    requires TagSafe(m) && TagSafe(p) && |m| > 0 && |p| > 0
    requires ToLower(p) in keys && Truthy(keys[ToLower(p)])
    requires HasAdapter(ToLower(p))
    requires ToLower(p) == "azure-openai" ==>
      keys[ToLower(p)].Structured? && Present(keys[ToLower(p)].config.endpoint) && Present(keys[ToLower(p)].config.apiVersion)
    ensures ChatAction(Some(ChatRequest(Some(prior + [ClientMessage(id, m, p, input, images)]), KeysObject(keys)))).Generation?
  {
    var msgs := prior + [ClientMessage(id, m, p, input, images)];
    ReadClientRoute(prior, id, m, p, input, images);
    ActionDispatches(msgs, KeysObject(keys));
    var route := ReadRoute(msgs).value;
    assert route.provider == ToLower(p);
    ToLowerIdempotent(p);
    AdapterFor(route.provider, keys[route.provider]);
    DispatchGenerates(msgs, route, keys);
  }
}

=== FILE: config_store.dfy ===
/**
 * The configuration store of the src/ layer (src/store/ai.ts). A `Partial<AIConfig>`
 * is a patch listing, per field, whether the field is present; a present field
 * may itself carry `undefined` for the optional ones, which the spread copies.
 * The environment-derived default configuration is a parameter.
 */
module ConfigStore {
  import opened Wrappers
  import opened AiTypes

  /** One field of a partial record: absent, or present with a value. */
  datatype Field<T> = Keep | Set(value: T) {
    function Apply(current: T): T {
      if Set? then value else current
    }
  }

  /** `Partial<AIConfig>`. */
  datatype Patch = Patch(
    provider: Field<string>,
    model: Field<string>,
    temperature: Field<Option<real>>,
    maxTokens: Field<Option<int>>,
    apiKey: Field<Option<string>>,
    functions: Field<Option<seq<FunctionSpec>>>)

  const NoChange := Patch(Keep, Keep, Keep, Keep, Keep, Keep)

  /** `setConfig`: `{ ...state.config, ...newConfig }`. */
  function SetConfig(c: AIConfig, p: Patch): (r: AIConfig)
    ensures p.provider.Set? ==> r.provider == p.provider.value
    ensures p.provider.Keep? ==> r.provider == c.provider
    ensures p.model.Set? ==> r.model == p.model.value
    ensures p.model.Keep? ==> r.model == c.model
    ensures p.temperature.Set? ==> r.temperature == p.temperature.value
    ensures p.temperature.Keep? ==> r.temperature == c.temperature
    ensures p.maxTokens.Set? ==> r.maxTokens == p.maxTokens.value
    ensures p.maxTokens.Keep? ==> r.maxTokens == c.maxTokens
    ensures p.apiKey.Set? ==> r.apiKey == p.apiKey.value
    ensures p.apiKey.Keep? ==> r.apiKey == c.apiKey
    ensures p.functions.Set? ==> r.functions == p.functions.value
    ensures p.functions.Keep? ==> r.functions == c.functions
  {
    AIConfig(p.provider.Apply(c.provider), p.model.Apply(c.model), p.temperature.Apply(c.temperature),
             p.maxTokens.Apply(c.maxTokens), p.apiKey.Apply(c.apiKey), p.functions.Apply(c.functions))
  }

  /** Applying the same partial twice is applying it once. */
  lemma SetConfigIdempotent(c: AIConfig, p: Patch)
    ensures SetConfig(SetConfig(c, p), p) == SetConfig(c, p)
  {
  }

  /** The empty partial changes nothing. */
  lemma EmptyPatchKeepsConfig(c: AIConfig)
    ensures SetConfig(c, NoChange) == c
  {
  }

  /** A partial setting every field replaces the whole configuration, whatever it was. */
  lemma FullPatchReplaces(c: AIConfig, d: AIConfig)
    ensures SetConfig(c, Patch(Set(d.provider), Set(d.model), Set(d.temperature), Set(d.maxTokens),
                               Set(d.apiKey), Set(d.functions))) == d
  {
  }

  /** `resetConfig`: the default configuration, from any state. */
  function ResetConfig(c: AIConfig, default: AIConfig): (r: AIConfig)
    ensures r == default
  {
    default
  }

  /** After a reset, earlier patches leave no trace. */
  lemma ResetForgetsPatches(c: AIConfig, p: Patch, default: AIConfig)
    ensures ResetConfig(SetConfig(c, p), default) == ResetConfig(c, default)
  {
  }
}

=== FILE: enhancer.dfy ===
/**
 * The prompt-enhancer endpoint (app/routes/api.enhancer.ts): field validation,
 * the routed user message it streams, and how failures map to statuses.
 * The `stripIndents` tag and the instruction text of the template are
 * parameters, and the model call is represented by its outcome.
 */
module Enhancer {
  import opened Wrappers
  import opened Text
  import opened Messages
  import opened Tags
  import StreamText

  /** A JSON field: absent, a string, or a value of another type. */
  datatype Field = Absent | StrField(s: string) | OtherField

  /** The `provider` object of the body (absent when undefined or null). */
  datatype ProviderField = ProviderField(name: Field)

  datatype EnhancerRequest = EnhancerRequest(message: Field, model: Field, provider: Option<ProviderField>)

  /** What the try block can throw: an Error with its message, or some other value. */
  datatype Thrown = ErrorValue(message: string) | OtherValue

  datatype EnhancerResponse =
    | Rejected(status: int, body: string)              // a thrown Response
    | Crash                                            // an exception that is not a Response
    | Streaming(headers: seq<(string, string)>, content: string)

  const StreamHeaders: seq<(string, string)> :=
    [("Content-Type", "text/event-stream"), ("Cache-Control", "no-cache"), ("Connection", "keep-alive")]

  const OpenTag := "<original_prompt>"
  const CloseTag := "</original_prompt>"

  /** `!x || typeof x !== 'string'` is false: a non-empty string. */
  predicate ValidString(f: Field) {
    f.StrField? && f.s != ""
  }

  /** A tag function: it receives the literal pieces of a template and the substituted values. */
  type Tag = (seq<string>, seq<Field>) -> string

  /** `n` spaces. */
  function Indent(n: nat): (r: string)
    ensures |r| == n && AllSpace(r)
  {
    seq(n, _ => ' ')
  }

  /**
   * The literal pieces of the enhancer's template around its one substitution
   * `${message}`: the instructions (everything up to the opening tag, with the
   * indentation of its line), then the opening tag and the 14-space indentation
   * of the draft's line; after the draft, a line break, the closing tag indented
   * by 12, and the 10-space indentation of the literal's last line.
   */
  function TemplateStrings(instructions: string): (r: seq<string>)
    ensures |r| == 2
    ensures StartsWith(r[0], instructions)
    ensures |r[0]| >= |OpenTag| + 15 && r[0][|r[0]| - |OpenTag| - 15..] == OpenTag + "\n" + Indent(14)
    ensures StartsWith(r[1], "\n" + Indent(12) + CloseTag)
  {
    var first := instructions + (OpenTag + "\n" + Indent(14));
    var second := "\n" + Indent(12) + CloseTag + ("\n" + Indent(10));
    assert first[..|instructions|] == instructions;
    assert second[..|"\n" + Indent(12) + CloseTag|] == "\n" + Indent(12) + CloseTag;
    [first, second]
  }

  /** The template read without a tag: the pieces with the draft's text between them. */
  function Template(instructions: string, message: string): (r: string)
    ensures StartsWith(r, instructions)
    ensures Contains(r, OpenTag + "\n" + Indent(14) + message + "\n" + Indent(12) + CloseTag)
  {
    var p := TemplateStrings(instructions);
    var r := p[0] + message + p[1];
    var w := OpenTag + "\n" + Indent(14) + message + "\n" + Indent(12) + CloseTag;
    var at := |p[0]| - |OpenTag| - 15;
    assert r[..|instructions|] == p[0][..|instructions|];
    assert r[at..at + |w|] == p[0][at..] + message + p[1][..|"\n" + Indent(12) + CloseTag|];
    assert OccursAt(r, w, at);
    r
  }

  /** Inside the tags, the draft is surrounded by whitespace only: trimming that region gives the trimmed draft. */
  lemma TemplateDraftTrims(message: string)
    ensures Trim(Indent(14) + message) == Trim(message)
  {
    TrimSkipsLeadingSpace(Indent(14), message);
  }

  /**
   * The content of the one user message sent to the model: the routing header,
   * then what `stripIndents` makes of the template's pieces and the draft.
   */
  function EnhancerContent(model: string, providerName: string, message: Field, instructions: string,
                           stripIndents: Tag): (r: string)
    ensures StartsWith(r, RoutingHeader(model, providerName))
    ensures r[|RoutingHeader(model, providerName)|..] == stripIndents(TemplateStrings(instructions), [message])
  {
    var h := RoutingHeader(model, providerName);
    var r := h + stripIndents(TemplateStrings(instructions), [message]);
    assert r[..|h|] == h;
    r
  }

  /** The 401/500 choice for a failure inside the try block. */
  function FailureStatus(e: Thrown): (r: EnhancerResponse)
    ensures r.Rejected?
    ensures r.status == 401 <==> e.ErrorValue? && Contains(e.message, "API key")
    ensures r.status == 401 || r.status == 500
  {
    if e.ErrorValue? && Contains(e.message, "API key") then Rejected(401, "Invalid or missing API key")
    else Rejected(500, "Internal server error")
  }

  /**
   * `enhancerAction`. `body` is None when the request is not JSON; `failure`
   * is what the model call throws, None when it succeeds.
   */
  function EnhancerAction(body: Option<EnhancerRequest>, instructions: string, stripIndents: Tag,
                          failure: Option<Thrown>): (r: EnhancerResponse)
    ensures body.None? || body.value.provider.None? ==> r == Crash
    ensures body.Some? && body.value.provider.Some? ==>
      (r == Rejected(400, "Invalid or missing model") <==> !ValidString(body.value.model))
    ensures body.Some? && body.value.provider.Some? && ValidString(body.value.model) ==>
      (r == Rejected(400, "Invalid or missing provider") <==> !ValidString(body.value.provider.value.name))
    ensures r.Streaming? <==>
      body.Some? && body.value.provider.Some? && ValidString(body.value.model) &&
      ValidString(body.value.provider.value.name) && failure.None?
    ensures r.Streaming? ==> r.headers == StreamHeaders
    ensures r.Streaming? ==> StartsWith(r.content, RoutingHeader(body.value.model.s, body.value.provider.value.name.s))
    ensures r.Streaming? ==>
      r.content[|RoutingHeader(body.value.model.s, body.value.provider.value.name.s)|..] ==
      stripIndents(TemplateStrings(instructions), [body.value.message])
  {
    if body.None? || body.value.provider.None? then Crash
    else
      var req := body.value;
      if !ValidString(req.model) then Rejected(400, "Invalid or missing model")
      else if !ValidString(req.provider.value.name) then Rejected(400, "Invalid or missing provider")
      else
        match failure
        case Some(e) => FailureStatus(e)
        case None =>
          Streaming(StreamHeaders, EnhancerContent(req.model.s, req.provider.value.name.s,
            req.message, instructions, stripIndents))
  }

  /** The model is checked before the provider: both invalid gives the model error. */
  lemma ModelCheckedFirst(message: Field, model: Field, name: Field, instructions: string,
                          stripIndents: Tag, failure: Option<Thrown>)
    requires !ValidString(model) && !ValidString(name)
    ensures EnhancerAction(Some(EnhancerRequest(message, model, Some(ProviderField(name)))), instructions, stripIndents, failure)
      == Rejected(400, "Invalid or missing model")
  {
  }

  /** With no provider object, destructuring fails before any check, even when the model is invalid. */
  lemma MissingProviderCrashes(message: Field, model: Field, instructions: string,
                               stripIndents: Tag, failure: Option<Thrown>)
    ensures EnhancerAction(Some(EnhancerRequest(message, model, None)), instructions, stripIndents, failure) == Crash
  {
  }

  /**
   * Format compatibility only: the enhancer's message starts with a header in the
   * format the chat route's tag extractor reads, and that extractor would read back
   * the requested model and provider. The enhancer's own call chooses its model
   * through `getModel` and streams through the `ai` package, not through the extractor.
   */
  lemma EnhancerRoutesToRequestedModel(model: string, providerName: string, message: Field, instructions: string,
                                       stripIndents: Tag, id: string, serialize: StreamText.Serializer)
    requires TagSafe(model) && TagSafe(providerName)
    ensures var content := EnhancerContent(model, providerName, message, instructions, stripIndents);
      var e := StreamText.ExtractProperties(Message(User, Str(content), id), serialize);
      e.Some? && e.value.model == model && e.value.provider == providerName
  {
    StreamText.ExtractRoundTrip(User, id, model, providerName, stripIndents(TemplateStrings(instructions), [message]), serialize);
  }
}

=== FILE: messages.dfy ===
/**
 * The chat message shape shared by the client, the chat route, the server-side
 * normalisation and the provider adapters (app/types/message.ts): a role and a
 * content that is either a plain string or an ordered list of typed parts.
 */
module Messages {
  import opened Wrappers

  datatype Role = System | User | Assistant | Function | Data | Tool

  /** A content part. A text part's `text` field is optional on the wire. */
  datatype Part = TextPart(text: Option<string>) | ImagePart(image: string)

  /** `content` of a message: a string, an array of parts, or absent (`null`). */
  datatype Content = Str(s: string) | Parts(parts: seq<Part>) | NoContent

  datatype Message = Message(role: Role, content: Content, id: string)

  /** Index of the part `Array.prototype.find(p => p.type === 'text')` returns. */
  function FirstTextIndex(parts: seq<Part>): (r: Option<nat>)
    ensures r.Some? ==> r.value < |parts| && parts[r.value].TextPart?
    ensures r.Some? ==> forall j :: 0 <= j < r.value ==> !parts[j].TextPart?
    ensures r.None? <==> forall j :: 0 <= j < |parts| ==> !parts[j].TextPart?
  {
    if |parts| == 0 then None
    else if parts[0].TextPart? then Some(0)
    else match FirstTextIndex(parts[1..])
      case Some(j) => Some(j + 1)
      case None => None
  }

  /** `parts.find(p => p.type === 'text')?.text || ''`. */
  function FirstText(parts: seq<Part>): string {
    match FirstTextIndex(parts)
    case Some(j) => parts[j].text.GetOr("")
    case None => ""
  }

  /** Replaces the text of the first text part, if any, leaving every other part as it is. */
  function SetFirstText(parts: seq<Part>, text: string): (r: seq<Part>)
    ensures |r| == |parts|
    ensures FirstTextIndex(parts).None? ==> r == parts
    ensures FirstTextIndex(parts).Some? ==>
      var j := FirstTextIndex(parts).value;
      r[j] == TextPart(Some(text)) && forall i :: 0 <= i < |parts| && i != j ==> r[i] == parts[i]
  {
    match FirstTextIndex(parts)
    case Some(j) => parts[j := TextPart(Some(text))]
    case None => parts
  }
}

=== FILE: model_selector.dfy ===
/**
 * The provider and model pickers (app/components/chat/ModelSelector.tsx): the
 * models offered for the current provider, switching provider, saving a typed
 * key, and when 'Add API Key' is offered.
 */
module ModelSelector {
  import opened Wrappers
  import opened Text
  import opened Catalogue
  import Settings
  import ChatClient

  /** `filteredModels`: the list entries belonging to the provider, in list order. */
  function FilteredModels(list: seq<ModelInfo>, providerName: string): (r: seq<ModelInfo>)
    ensures forall e :: e in r <==> e in list && e.provider == providerName
  {
    ModelsOf(list, providerName)
  }

  /** The offered models keep their relative order: filtering distributes over concatenation. */
  lemma FilteredKeepsOrder(a: seq<ModelInfo>, b: seq<ModelInfo>, providerName: string)
    ensures FilteredModels(a + b, providerName) == FilteredModels(a, providerName) + FilteredModels(b, providerName)
  {
    ModelsOfAppend(a, b, providerName);
  }

  /** `PROVIDER_LIST.find(p => p.name === name)`. */
  function FindProvider(providers: seq<ProviderInfo>, name: string): (r: Option<ProviderInfo>)
    ensures r.Some? ==> r.value in providers && r.value.name == name
    ensures r.None? <==> forall i :: 0 <= i < |providers| ==> providers[i].name != name
  {
    if |providers| == 0 then None
    else if providers[0].name == name then Some(providers[0])
    else FindProvider(providers[1..], name)
  }

  /** `modelList.find(m => m.provider === name)`: the first model of the provider. */
  function FirstModelOf(list: seq<ModelInfo>, providerName: string): (r: Option<ModelInfo>)
    ensures r.None? <==> FilteredModels(list, providerName) == []
    ensures r.Some? ==> r.value == FilteredModels(list, providerName)[0]
  {
    if |list| == 0 then None
    else
      ModelsOfAppend([list[0]], list[1..], providerName);
      assert [list[0]] + list[1..] == list;
      if list[0].provider == providerName then Some(list[0])
      else FirstModelOf(list[1..], providerName)
  }

  /** The pickers' selection. */
  datatype Selection = Selection(model: string, provider: ProviderInfo)

  /** `handleProviderChange` with the chosen option's value. */
  function HandleProviderChange(sel: Selection, value: string, list: seq<ModelInfo>): (r: Selection)
    ensures FindProvider(ProviderList, value).None? ==> r == sel
    ensures FindProvider(ProviderList, value).Some? ==> r.provider == FindProvider(ProviderList, value).value
    ensures FindProvider(ProviderList, value).Some? && FilteredModels(list, value) == [] ==> r.model == sel.model
    ensures FindProvider(ProviderList, value).Some? && FilteredModels(list, value) != [] ==>
      r.model == FilteredModels(list, value)[0].name
  {
    match FindProvider(ProviderList, value)
    case None => sel
    case Some(p) =>
      match FirstModelOf(list, p.name)
      case Some(m) => Selection(m.name, p)
      case None => sel.(provider := p)
  }

  /** After switching to a provider that has models, the selected model is one of those offered. */
  lemma SwitchSelectsOfferedModel(sel: Selection, value: string, list: seq<ModelInfo>)
    requires FindProvider(ProviderList, value).Some? && FilteredModels(list, value) != []
    ensures var r := HandleProviderChange(sel, value, list);
      exists e :: e in FilteredModels(list, r.provider.name) && e.name == r.model
  {
    var r := HandleProviderChange(sel, value, list);
    assert FilteredModels(list, value)[0] in FilteredModels(list, r.provider.name);
  }

  /** `handleSaveApiKey` as written: the key is stored under the provider name exactly as spelled; the typed key is cleared. */
  function HandleSaveApiKey(keys: Settings.KeyMap, providerName: string, typed: string): (r: (Settings.KeyMap, string))
    ensures providerName in r.0 && r.0[providerName] == typed && r.1 == ""
    ensures forall k :: k != providerName ==> (k in r.0 <==> k in keys) && (k in keys ==> r.0[k] == keys[k])
  {
    (keys[providerName := typed], "")
  }

  /** The save with the name lower-cased, as the settings dialog and the chat page read it. */
  function HandleSaveApiKeyLower(keys: Settings.KeyMap, providerName: string, typed: string): (r: (Settings.KeyMap, string))
    ensures r.0 == Settings.HandleApiKeyChange(keys, providerName, typed) && r.1 == ""
  {
    (keys[ToLower(providerName) := typed], "")
  }

  /**
   * The 'Add API Key' condition as written: no truthy entry under the exact
   * provider name. It agrees with the settings field only for a name that is
   * already lower-case.
   */
  function ShowAddKey(keys: Settings.KeyMap, providerName: string): (r: bool)
    ensures r <==> !ChatClient.HasKey(keys, providerName)
    ensures ToLower(providerName) == providerName ==> (r <==> Settings.DisplayedKey(keys, providerName) == "")
  {
    !(providerName in keys && keys[providerName] != "")
  }

  /** The condition looking under the lower-cased name, where the other components keep credentials. */
  predicate ShowAddKeyLower(keys: Settings.KeyMap, providerName: string) {
    !ChatClient.HasKey(keys, ToLower(providerName))
  }

  /** The default provider's name has an upper-case letter, so lower-casing changes it. */
  lemma CatalogueNamesNotLowerCase()
    ensures ToLower(DefaultProvider.name) != DefaultProvider.name
  {
    DefaultProviderIsOpenRouter();
    assert ToLower(DefaultProvider.name)[0] == 'o';
  }

  /**
   * As written, a key entered in the settings dialog for a provider whose name
   * is not already lower-case is invisible to the selector: the chat page
   * finds it, yet 'Add API Key' is still offered.
   */
  lemma SettingsKeyHiddenFromSelector(keys: Settings.KeyMap, providerName: string, value: string)
    requires ToLower(providerName) != providerName && providerName !in keys && value != ""
    ensures var after := Settings.HandleApiKeyChange(keys, providerName, value);
      ChatClient.HasKey(after, ToLower(providerName)) && ShowAddKey(after, providerName)
  {
  }

  /**
   * As written, a key saved from the selector would not be found by the chat
   * page's send guard. The defect is latent: the Save button is rendered only
   * while the key input is shown, and nothing in the component ever shows it.
   */
  lemma SelectorKeyHiddenFromChat(keys: Settings.KeyMap, providerName: string, typed: string)
    requires ToLower(providerName) != providerName && ToLower(providerName) !in keys && typed != ""
    ensures var after := HandleSaveApiKey(keys, providerName, typed).0;
      !ChatClient.HasKey(after, ToLower(providerName)) && !ShowAddKey(after, providerName)
  {
  }

  /** Corrected: the button is offered exactly when the chat page would refuse to send, and a settings edit hides it. */
  lemma AddKeyAgreesWithChat(keys: Settings.KeyMap, providerName: string, value: string)
    requires value != ""
    ensures ShowAddKeyLower(keys, providerName) <==> !ChatClient.HasKey(keys, ToLower(providerName))
    ensures !ShowAddKeyLower(Settings.HandleApiKeyChange(keys, providerName, value), providerName)
  {
  }

  /** Corrected: a key saved from the selector is found by the chat page and shown in the settings field. */
  lemma SavedKeyReachesChat(keys: Settings.KeyMap, providerName: string, typed: string)
    requires typed != ""
    ensures var after := HandleSaveApiKeyLower(keys, providerName, typed).0;
      ChatClient.HasKey(after, ToLower(providerName)) && Settings.DisplayedKey(after, providerName) == typed
  {
  }
}

=== FILE: providers.dfy ===
/**
 * Provider resolution and request shaping of the app-side adapters
 * (app/lib/providers): the string-or-record configuration, the case-insensitive
 * factory, the message flattening every adapter applies, and the Azure OpenAI
 * request. Adapters are represented by the request they would send; the HTTP
 * call itself is not modelled.
 */
module Providers {
  import opened Wrappers
  import opened Text
  import opened Messages

  /** ProviderConfig of base.ts. */
  datatype ProviderConfig = ProviderConfig(
    apiKey: string,
    apiVersion: Option<string>,
    endpoint: Option<string>,
    organization: Option<string>)

  /** The constructor argument: a bare API key or a configuration record. */
  datatype ConfigInput = Bare(key: string) | Structured(config: ProviderConfig)

  /** The BaseProvider constructor's normalisation. */
  function NormalizeConfig(c: ConfigInput): (r: ProviderConfig)
    ensures c.Bare? ==> r.apiKey == c.key && r.apiVersion.None? && r.endpoint.None? && r.organization.None?
    ensures c.Structured? ==> r == c.config
  {
    match c
    case Bare(k) => ProviderConfig(k, None, None, None)
    case Structured(cfg) => cfg
  }

  datatype GenerateOptions = GenerateOptions(provider: string, model: string, maxTokens: Option<int>)

  /** The base class's `generate`, which every adapter without its own override inherits. */
  function BaseGenerate(msgs: seq<Message>, options: GenerateOptions): (r: Result<(), string>)
    ensures r.Err? && r.error == "Method not implemented"
  {
    Err("Method not implemented")
  }

  /** AIMessage of base.ts: only role and content survive; content stays null when it was null. */
  datatype AIMessage = AIMessage(role: Role, content: Option<string>)

  /** What one part contributes to the flattened text: a text part's text (missing text renders as ''), else ''. */
  function PartText(p: Part): string {
    match p
    case TextPart(t) => t.GetOr("")
    case ImagePart(_) => ""
  }

  function PartTexts(ps: seq<Part>): (r: seq<string>)
    ensures |r| == |ps|
    ensures forall i :: 0 <= i < |ps| ==> r[i] == PartText(ps[i])
  {
    if |ps| == 0 then [] else [PartText(ps[0])] + PartTexts(ps[1..])
  }

  /** The content flattening of `cleanMessages`. */
  function CleanContent(c: Content): (r: Option<string>)
    ensures c.Str? ==> r == Some(c.s)
    ensures c.NoContent? ==> r.None?
    ensures c.Parts? ==> r == Some(Join(PartTexts(c.parts), "\n"))
  {
    match c
    case Str(s) => Some(s)
    case Parts(ps) => Some(Join(PartTexts(ps), "\n"))
    case NoContent => None
  }

  /** `cleanMessages`: one record per message, in order, keeping the role. */
  function CleanMessages(msgs: seq<Message>): (r: seq<AIMessage>)
    ensures |r| == |msgs|
    ensures forall i :: 0 <= i < |msgs| ==> r[i].role == msgs[i].role && r[i].content == CleanContent(msgs[i].content)
  {
    if |msgs| == 0 then [] else [AIMessage(msgs[0].role, CleanContent(msgs[0].content))] + CleanMessages(msgs[1..])
  }

  /** Number of line feeds in a string. */
  function CountNewlines(s: string): nat {
    if |s| == 0 then 0 else (if s[0] == '\n' then 1 else 0) + CountNewlines(s[1..])
  }

  lemma {:induction false} CountNewlinesAppend(a: string, b: string)
    ensures CountNewlines(a + b) == CountNewlines(a) + CountNewlines(b)
  {
    if |a| == 0 {
      assert a + b == b;
    } else {
      assert (a + b)[1..] == a[1..] + b;
      CountNewlinesAppend(a[1..], b);
    }
  }

  /** Newlines inside the parts' own texts. */
  function PartNewlines(ps: seq<Part>): nat {
    if |ps| == 0 then 0 else CountNewlines(PartText(ps[0])) + PartNewlines(ps[1..])
  }

  /**
   * Flattening n parts inserts exactly n - 1 line feeds between them: the
   * flattened text has the parts' own line feeds plus n - 1, and its length is
   * the parts' lengths plus n - 1.
   */
  lemma {:induction false} FlattenSeparators(ps: seq<Part>)
    requires |ps| > 0
    ensures CountNewlines(CleanContent(Parts(ps)).value) == PartNewlines(ps) + |ps| - 1
    ensures |CleanContent(Parts(ps)).value| == TotalLength(PartTexts(ps)) + |ps| - 1
  {
    JoinLength(PartTexts(ps), "\n");
    if |ps| > 1 {
      FlattenSeparators(ps[1..]);
      assert PartTexts(ps)[1..] == PartTexts(ps[1..]);
      var t := Join(PartTexts(ps[1..]), "\n");
      CountNewlinesAppend(PartText(ps[0]), "\n");
      CountNewlinesAppend(PartText(ps[0]) + "\n", t);
      assert CountNewlines("\n") == 1 by {
        assert "\n"[1..] == "";
      }
    } else {
      assert Join(PartTexts(ps), "\n") == PartText(ps[0]);
    }
  }

  /** A message made only of image parts flattens to line feeds only. */
  lemma {:induction false} ImagesFlattenToSeparators(ps: seq<Part>)
    requires |ps| > 0 && forall i :: 0 <= i < |ps| ==> ps[i].ImagePart?
    ensures CountNewlines(CleanContent(Parts(ps)).value) == |CleanContent(Parts(ps)).value| == |ps| - 1
  {
    FlattenSeparators(ps);
    ImagesContribute(ps);
  }

  lemma {:induction false} ImagesContribute(ps: seq<Part>)
    requires forall i :: 0 <= i < |ps| ==> ps[i].ImagePart?
    ensures PartNewlines(ps) == 0 && TotalLength(PartTexts(ps)) == 0
  {
    if |ps| > 0 {
      ImagesContribute(ps[1..]);
      assert PartTexts(ps)[1..] == PartTexts(ps[1..]);
      assert PartText(ps[0]) == "";
    }
  }

  // ---------------------------------------------------------------- factory

  datatype AdapterKind = OpenAIAdapter | OpenRouterAdapter | AzureAdapter

  /** A constructed adapter: its kind and the normalised configuration it holds. */
  datatype Adapter = Adapter(kind: AdapterKind, config: ProviderConfig)

  const AzureConfigError := "Azure OpenAI requires endpoint and apiVersion configuration"

  /** The names of the adapters that exist. */
  predicate HasAdapter(lower: string) {
    lower == "openai" || lower == "openrouter" || lower == "azure-openai"
  }

  /** `createProvider` of factory.ts: dispatch on the lower-cased name. */
  function CreateProvider(name: string, config: ConfigInput): (r: Result<Adapter, string>)
    ensures r.Ok? ==> r.value.config == NormalizeConfig(config)
    ensures ToLower(name) == "openai" ==> r.Ok? && r.value.kind == OpenAIAdapter
    ensures ToLower(name) == "openrouter" ==> r.Ok? && r.value.kind == OpenRouterAdapter
    ensures ToLower(name) == "azure-openai" ==>
      (if config.Bare? then r == Err(AzureConfigError) else r.Ok? && r.value.kind == AzureAdapter)
    ensures !HasAdapter(ToLower(name)) ==> r == Err("Unsupported provider: " + name)
  {
    var n := ToLower(name);
    if n == "openai" then Ok(Adapter(OpenAIAdapter, NormalizeConfig(config)))
    else if n == "azure-openai" then
      if config.Bare? then Err(AzureConfigError) else Ok(Adapter(AzureAdapter, NormalizeConfig(config)))
    else if n == "openrouter" then Ok(Adapter(OpenRouterAdapter, NormalizeConfig(config)))
    else Err("Unsupported provider: " + name)
  }

  /** Which adapter a supported name yields: Azure exactly for 'azure-openai', and only with a structured configuration. */
  lemma AdapterFor(name: string, config: ConfigInput)
    requires HasAdapter(ToLower(name))
    requires ToLower(name) == "azure-openai" ==> config.Structured?
    ensures CreateProvider(name, config).Ok?
    ensures CreateProvider(name, config).value.kind == AzureAdapter <==> ToLower(name) == "azure-openai"
    ensures CreateProvider(name, config).value.config == NormalizeConfig(config)
  {
    var n := ToLower(name);
    if n == "openai" {
      assert CreateProvider(name, config) == Ok(Adapter(OpenAIAdapter, NormalizeConfig(config)));
    } else if n == "openrouter" {
      assert CreateProvider(name, config) == Ok(Adapter(OpenRouterAdapter, NormalizeConfig(config)));
    } else {
      assert CreateProvider(name, config) == Ok(Adapter(AzureAdapter, NormalizeConfig(config)));
    }
  }

  /** Names that differ only in letter case resolve to the same adapter, or both fail. */
  lemma CreateProviderIgnoresCase(a: string, b: string, config: ConfigInput)
    requires SameIgnoringCase(a, b)
    ensures CreateProvider(a, config).Ok? == CreateProvider(b, config).Ok?
    ensures CreateProvider(a, config).Ok? ==> CreateProvider(a, config) == CreateProvider(b, config)
  {
  }

  /** The catalogue's Anthropic and Google providers, and plain 'azure', have no adapter. */
  lemma OtherProvidersUnsupported(config: ConfigInput)
    ensures CreateProvider("Anthropic", config).Err?
    ensures CreateProvider("Google", config).Err?
    ensures CreateProvider("azure", config).Err?
  {
    assert |ToLower("Anthropic")| == 9;
    assert ToLower("Google")[0] == 'g';
    assert |ToLower("azure")| == 5;
  }

  // ---------------------------------------------------------------- Azure OpenAI

  /** The JSON body the adapter posts (temperature is not modelled). */
  datatype RequestBody = RequestBody(messages: seq<AIMessage>, maxTokens: Option<int>, stream: bool)

  datatype Request = Request(url: string, headers: seq<(string, string)>, body: RequestBody)

  /** `.replace(/\/$/, '')`: one trailing slash, if present, is removed. */
  function StripTrailingSlash(s: string): (r: string)
    ensures r == s || r + "/" == s
    ensures |s| > 0 && s[|s| - 1] == '/' <==> r != s
  {
    if |s| > 0 && s[|s| - 1] == '/' then
      assert s[..|s| - 1] + "/" == s;
      s[..|s| - 1]
    else s
  }

  /** Only one slash goes: a doubled trailing slash leaves one behind. */
  lemma StripOnlyOneSlash(s: string)
    ensures StripTrailingSlash(s + "//") == s + "/"
  {
    assert (s + "//")[..|s| + 1] == s + "/";
  }

  /** A present, non-empty optional string (`!value` is false). */
  predicate Present(o: Option<string>) {
    o.Some? && o.value != ""
  }

  const DeploymentsPath := "/openai/deployments/"
  const CompletionsQuery := "/chat/completions?api-version="

  /** The chat-completions URL of a deployment. */
  function AzureUrl(endpoint: string, deployment: string, apiVersion: string): string {
    StripTrailingSlash(endpoint) + DeploymentsPath + deployment + CompletionsQuery + apiVersion
  }

  /** The URL starts with the trimmed endpoint and the deployment path, and ends with the API version query. */
  lemma AzureUrlShape(endpoint: string, deployment: string, apiVersion: string)
    ensures var url := AzureUrl(endpoint, deployment, apiVersion);
      && StartsWith(url, StripTrailingSlash(endpoint) + DeploymentsPath + deployment)
      && |url| >= |CompletionsQuery + apiVersion|
      && url[|url| - |CompletionsQuery + apiVersion|..] == CompletionsQuery + apiVersion
  {
    var base := StripTrailingSlash(endpoint) + DeploymentsPath + deployment;
    var url := AzureUrl(endpoint, deployment, apiVersion);
    assert url == base + (CompletionsQuery + apiVersion);
    assert url[..|base|] == base;
    assert url[|base|..] == CompletionsQuery + apiVersion;
  }

  /** The Azure adapter's `generate`, up to the request it sends. */
  function AzureGenerate(config: ProviderConfig, msgs: seq<Message>, options: GenerateOptions): (r: Result<Request, string>)
    ensures r.Err? <==> !Present(config.endpoint) || !Present(config.apiVersion)
    ensures r.Err? ==> r.error == AzureConfigError
    ensures r.Ok? ==> r.value.url == AzureUrl(config.endpoint.value, options.model, config.apiVersion.value)
    ensures r.Ok? ==> ("api-key", config.apiKey) in r.value.headers
    ensures r.Ok? ==> forall h :: h in r.value.headers ==> h.0 != "Authorization"
    ensures r.Ok? ==> r.value.body == RequestBody(CleanMessages(msgs), options.maxTokens, true)
  {
    if !Present(config.endpoint) || !Present(config.apiVersion) then Err(AzureConfigError)
    else
      Ok(Request(AzureUrl(config.endpoint.value, options.model, config.apiVersion.value),
        [("Content-Type", "application/json"), ("api-key", config.apiKey)],
        RequestBody(CleanMessages(msgs), options.maxTokens, true)))
  }

  /** Endpoints with and without one trailing slash give the same URL. */
  lemma AzureUrlIgnoresTrailingSlash(config: ProviderConfig, endpoint: string, msgs: seq<Message>, options: GenerateOptions)
    requires endpoint != "" && endpoint[|endpoint| - 1] != '/' && Present(config.apiVersion)
    ensures AzureGenerate(config.(endpoint := Some(endpoint + "/")), msgs, options) ==
      AzureGenerate(config.(endpoint := Some(endpoint)), msgs, options)
  {
    assert (endpoint + "/")[..|endpoint|] == endpoint;
    assert StripTrailingSlash(endpoint + "/") == StripTrailingSlash(endpoint);
  }
}

=== FILE: sdk_openai.dfy ===
/**
 * The OpenAI adapter of the src/ layer (src/lib/providers/openai.ts): the request
 * it sends, how upstream stream parts become `StreamChunk`s, how a completion
 * becomes an `AIResponse`, and how failures are classified. The SDK client is
 * replaced by its outcomes, given as values.
 */
module OpenAiSdk {
  import opened Wrappers
  import opened Text
  import opened AiTypes

  /** The first choice of an upstream stream part: its delta content and finish reason. */
  datatype Choice = Choice(content: Option<string>, finishReason: Option<string>)

  /** An upstream stream part; `choice` is absent when `choices` is empty. */
  datatype Part = Part(id: string, choice: Option<Choice>)

  /** `part.choices[0]?.delta?.content || ''`. */
  function DeltaText(p: Part): string {
    if p.choice.Some? then p.choice.value.content.GetOr("") else ""
  }

  /** The request passed to `chat.completions.create`; `temperature` is left out. */
  datatype CreateParams = CreateParams(model: string, messages: seq<AIMessage>, maxTokens: Option<int>, stream: bool)

  function StreamParams(messages: seq<AIMessage>, config: AIConfig): (r: CreateParams)
    ensures r.model == config.model && r.messages == messages && r.maxTokens == config.maxTokens && r.stream
  {
    CreateParams(config.model, messages, config.maxTokens, true)
  }

  function CompletionParams(messages: seq<AIMessage>, config: AIConfig): (r: CreateParams)
    ensures r.model == config.model && r.messages == messages && r.maxTokens == config.maxTokens && !r.stream
  {
    CreateParams(config.model, messages, config.maxTokens, false)
  }

  /** The chunk one upstream part contributes, if any. */
  function ChunkOf(p: Part): (r: Option<StreamChunk>)
    ensures r.None? <==> DeltaText(p) == ""
    ensures r.Some? ==> r.value.id == p.id && r.value.content == DeltaText(p)
    ensures r.Some? ==> (r.value.done <==> p.choice.Some? && p.choice.value.finishReason == Some("stop"))
  {
    var content := DeltaText(p);
    if content == "" then None
    else Some(StreamChunk(p.id, content, p.choice.Some? && p.choice.value.finishReason == Some("stop")))
  }

  /** The chunks enqueued for a sequence of upstream parts, in order. */
  function Chunks(parts: seq<Part>): (r: seq<StreamChunk>)
    ensures |r| <= |parts|
    ensures forall i :: 0 <= i < |r| ==> r[i].content != ""
  {
    if |parts| == 0 then []
    else
      match ChunkOf(parts[0])
      case Some(c) => [c] + Chunks(parts[1..])
      case None => Chunks(parts[1..])
  }

  lemma {:induction false} ChunksAppend(a: seq<Part>, b: seq<Part>)
    ensures Chunks(a + b) == Chunks(a) + Chunks(b)
  {
    if |a| == 0 {
      assert a + b == b;
    } else {
      assert (a + b)[0] == a[0];
      assert (a + b)[1..] == a[1..] + b;
      ChunksAppend(a[1..], b);
    }
  }

  /** One upstream part contributes exactly its own chunk, or nothing; with `ChunksAppend` this fixes every chunk of a stream. */
  lemma ChunksSingle(p: Part)
    ensures Chunks([p]) == (if ChunkOf(p).Some? then [ChunkOf(p).value] else [])
  {
    assert [p][1..] == [];
  }

  /** Conversely, an upstream part that finished with 'stop' and carried text puts a done chunk with its id in the stream. */
  lemma StopWithTextGivesDone(parts: seq<Part>, k: nat)
    requires k < |parts| && DeltaText(parts[k]) != ""
    requires parts[k].choice.Some? && parts[k].choice.value.finishReason == Some("stop")
    ensures exists i :: 0 <= i < |Chunks(parts)| && Chunks(parts)[i].done && Chunks(parts)[i].id == parts[k].id
  {
    var c := ChunkOf(parts[k]).value;
    assert parts == parts[..k] + [parts[k]] + parts[k + 1..];
    ChunksAppend(parts[..k] + [parts[k]], parts[k + 1..]);
    ChunksAppend(parts[..k], [parts[k]]);
    ChunksSingle(parts[k]);
    var i := |Chunks(parts[..k])|;
    assert Chunks(parts) == Chunks(parts[..k]) + [c] + Chunks(parts[k + 1..]);
    assert Chunks(parts)[i] == c;
  }

  function ChunkTexts(cs: seq<StreamChunk>): string {
    if |cs| == 0 then "" else cs[0].content + ChunkTexts(cs[1..])
  }

  function DeltaTexts(parts: seq<Part>): string {
    if |parts| == 0 then "" else DeltaText(parts[0]) + DeltaTexts(parts[1..])
  }

  /** The chunk contents, concatenated, are the upstream delta texts concatenated: nothing is lost or reordered. */
  lemma {:induction false} ChunksPreserveText(parts: seq<Part>)
    ensures ChunkTexts(Chunks(parts)) == DeltaTexts(parts)
  {
    if |parts| > 0 {
      ChunksPreserveText(parts[1..]);
      if ChunkOf(parts[0]).Some? {
        var c := ChunkOf(parts[0]).value;
        assert Chunks(parts) == [c] + Chunks(parts[1..]);
        assert ([c] + Chunks(parts[1..]))[1..] == Chunks(parts[1..]);
      }
    }
  }

  /** A stop part without text yields nothing, so the stream then never carries `done`. */
  lemma BareStopDropped(id: string)
    ensures Chunks([Part(id, Some(Choice(None, Some("stop"))))]) == []
    ensures Chunks([Part(id, Some(Choice(Some(""), Some("stop"))))]) == []
  {
  }

  /** Every chunk marked done comes from an upstream part that finished with 'stop' and carried text. */
  lemma {:induction false} DoneNeedsStopWithText(parts: seq<Part>, i: nat)
    requires i < |Chunks(parts)| && Chunks(parts)[i].done
    ensures exists k :: 0 <= k < |parts| && ChunkOf(parts[k]) == Some(Chunks(parts)[i]) &&
                        DeltaText(parts[k]) != "" && parts[k].choice.value.finishReason == Some("stop")
  {
    if ChunkOf(parts[0]).Some? {
      if i == 0 {
        assert ChunkOf(parts[0]) == Some(Chunks(parts)[0]);
      } else {
        DoneNeedsStopWithText(parts[1..], i - 1);
        var k :| 0 <= k < |parts[1..]| && ChunkOf(parts[1..][k]) == Some(Chunks(parts[1..])[i - 1])
          && DeltaText(parts[1..][k]) != "" && parts[1..][k].choice.value.finishReason == Some("stop");
        assert parts[k + 1] == parts[1..][k];
      }
    } else {
      DoneNeedsStopWithText(parts[1..], i);
      var k :| 0 <= k < |parts[1..]| && ChunkOf(parts[1..][k]) == Some(Chunks(parts[1..])[i])
        && DeltaText(parts[1..][k]) != "" && parts[1..][k].choice.value.finishReason == Some("stop");
      assert parts[k + 1] == parts[1..][k];
    }
  }

  /** The `catch` blocks: SDK API errors keep message and status, anything else becomes UNKNOWN_ERROR. */
  function Classify(e: Thrown, fallback: string): (r: AIError)
    ensures e.ApiError? <==> r.code == "OPENAI_API_ERROR"
    ensures e.ApiError? ==> r.message == e.message && r.statusCode == e.status
    ensures !e.ApiError? ==> r == AIError(fallback, "UNKNOWN_ERROR", None)
  {
    match e
    case ApiError(m, s) => AIError(m, "OPENAI_API_ERROR", s)
    case _ => AIError(fallback, "UNKNOWN_ERROR", None)
  }

  const StreamFailure := "Failed to generate stream"
  const GenerateFailure := "Failed to generate response"

  /** An upstream stream as received: its parts, and the error it ended with, if any. */
  datatype Upstream = Upstream(parts: seq<Part>, failure: Option<Thrown>)

  /** The returned stream: its chunks, then either close or the upstream error, passed on unclassified. */
  datatype ChunkStream = ChunkStream(chunks: seq<StreamChunk>, failure: Option<Thrown>)

  /** `generateStream`, given the outcome of `chat.completions.create`. */
  function GenerateStream(created: Result<Upstream, Thrown>): (r: Result<ChunkStream, AIError>)
    ensures created.Err? ==> r == Err(Classify(created.error, StreamFailure))
    ensures created.Ok? ==> r.Ok? && r.value.failure == created.value.failure
    ensures created.Ok? ==> r.value.chunks == Chunks(created.value.parts)
    ensures created.Ok? ==> ChunkTexts(r.value.chunks) == DeltaTexts(created.value.parts)
  {
    match created
    case Err(e) => Err(Classify(e, StreamFailure))
    case Ok(up) =>
      ChunksPreserveText(up.parts);
      Ok(ChunkStream(Chunks(up.parts), up.failure))
  }

  /** The upstream usage record, each count possibly missing. */
  datatype UsageIn = UsageIn(promptTokens: Option<int>, completionTokens: Option<int>, totalTokens: Option<int>)

  /** A completed response: the first choice's message content, and the usage, when present. */
  datatype Completion = Completion(content: Option<string>, usage: Option<UsageIn>)

  /** `x || 0` on a possibly missing count. */
  function CountOr0(n: Option<int>): int {
    n.GetOr(0)
  }

  /** An output count is the upstream count when present, and 0 when missing. */
  predicate CountFrom(out: int, upstream: Option<int>) {
    if upstream.Some? then out == upstream.value else out == 0
  }

  /** `generate`: content or '', and a usage record that is always present with missing counts as 0. */
  function Generate(created: Result<Completion, Thrown>): (r: Result<AIResponse, AIError>)
    ensures created.Err? ==> r == Err(Classify(created.error, GenerateFailure))
    ensures created.Ok? ==> r.Ok? && r.value.usage.Some?
    ensures created.Ok? && created.value.content.Some? ==> r.value.content == created.value.content.value
    ensures created.Ok? && created.value.content.None? ==> r.value.content == ""
    ensures created.Ok? && created.value.usage.None? ==> r.value.usage == Some(Usage(0, 0, 0))
    ensures created.Ok? && created.value.usage.Some? ==>
      var u := created.value.usage.value;
      var v := r.value.usage.value;
      CountFrom(v.promptTokens, u.promptTokens) && CountFrom(v.completionTokens, u.completionTokens) &&
      CountFrom(v.totalTokens, u.totalTokens)
  {
    match created
    case Err(e) => Err(Classify(e, GenerateFailure))
    case Ok(c) =>
      var u := c.usage.GetOr(UsageIn(None, None, None));
      Ok(AIResponse(c.content.GetOr(""),
                    Some(Usage(CountOr0(u.promptTokens), CountOr0(u.completionTokens), CountOr0(u.totalTokens)))))
  }
}

=== FILE: settings.dfy ===
/**
 * The credential map of the settings dialog
 * (app/components/settings/SettingsDialog.tsx): how it is loaded from the stored
 * cookie, how an edit updates it, and what the field shows. Cookie access and
 * `JSON.parse` are parameters.
 */
module Settings {
  import opened Wrappers
  import opened Text

  /** Provider name to API key, as stored in the `apiKeys` cookie. */
  type KeyMap = map<string, string>

  /**
   * The initial state: the parsed cookie, or the empty map when the cookie is
   * absent or empty, or when it does not parse.
   */
  function InitialKeys(stored: Option<string>, parse: string -> Option<KeyMap>): (r: KeyMap)
    ensures stored.None? || stored.value == "" ==> r == map[]
    ensures stored.Some? && stored.value != "" && parse(stored.value).None? ==> r == map[]
    ensures stored.Some? && stored.value != "" && parse(stored.value).Some? ==> r == parse(stored.value).value
    ensures r != map[] ==> stored.Some? && parse(stored.value) == Some(r)
  {
    if stored.None? || stored.value == "" then map[]
    else match parse(stored.value)
      case Some(keys) => keys
      case None => map[]
  }

  /** `handleApiKeyChange`: the value is stored under the lower-cased provider name. */
  function HandleApiKeyChange(keys: KeyMap, provider: string, value: string): (r: KeyMap)
    ensures ToLower(provider) in r && r[ToLower(provider)] == value
    ensures forall k :: k != ToLower(provider) ==> (k in r <==> k in keys)
    ensures forall k :: k != ToLower(provider) && k in keys ==> r[k] == keys[k]
  {
    keys[ToLower(provider) := value]
  }

  /** Applying the same edit twice is applying it once. */
  lemma EditIdempotent(keys: KeyMap, provider: string, value: string)
    ensures HandleApiKeyChange(HandleApiKeyChange(keys, provider, value), provider, value) == HandleApiKeyChange(keys, provider, value)
  {
  }

  /** Spellings of a provider name that differ only in letter case edit the same entry. */
  lemma EditIgnoresCase(keys: KeyMap, a: string, b: string, value: string)
    requires SameIgnoringCase(a, b)
    ensures HandleApiKeyChange(keys, a, value) == HandleApiKeyChange(keys, b, value)
  {
  }

  /** The field's value: the entry under the lower-cased name, or '' when absent or empty. */
  function DisplayedKey(keys: KeyMap, providerName: string): (r: string)
    ensures ToLower(providerName) !in keys ==> r == ""
    ensures ToLower(providerName) in keys ==> r == keys[ToLower(providerName)]
    ensures r != "" ==> ToLower(providerName) in keys && keys[ToLower(providerName)] == r
  {
    if ToLower(providerName) in keys then keys[ToLower(providerName)] else ""
  }

  /** An edit is shown back in the same provider's field, and leaves other providers' fields as they were. */
  lemma EditThenDisplay(keys: KeyMap, provider: string, value: string, other: string)
    requires ToLower(other) != ToLower(provider)
    ensures DisplayedKey(HandleApiKeyChange(keys, provider, value), provider) == value
    ensures DisplayedKey(HandleApiKeyChange(keys, provider, value), other) == DisplayedKey(keys, other)
  {
  }
}

=== FILE: stream_text.dfy ===
/**
 * Server-side request normalisation (app/lib/.server/llm/stream-text.ts): reading
 * the routing tags out of user messages, choosing the model, provider and token
 * ceiling for the call, and converting the history into the provider prompt.
 * `JSON.stringify` of a part list is a parameter, as are the model list and the
 * system prompt (both come from code outside this model).
 */
module StreamText {
  import opened Wrappers
  import opened Text
  import opened Messages
  import opened Tags
  import opened Catalogue

  /** MAX_TOKENS of app/lib/.server/llm/constants.ts: the fallback token ceiling. */
  const MaxTokens: int := 4096

  /** `JSON.stringify` applied to a list of content parts. */
  type Serializer = seq<Part> -> string

  datatype Extracted = Extracted(model: string, provider: string, content: string)

  /** The text searched for tags: the string, or the first text part's text, or ''. */
  function TagText(c: Content): string {
    match c
    case Str(s) => s
    case Parts(ps) => FirstText(ps)
    case NoContent => ""
  }

  /** `.replace(MODEL_REGEX, '').replace(PROVIDER_REGEX, '')`. */
  function StripTags(t: string): string {
    RemoveFirst(ProviderRegex, RemoveFirst(ModelRegex, t))
  }

  /**
   * The array case: every text part loses its first tags and every other part
   * is kept. A text part without a `text` field makes `item.text.replace` throw.
   */
  function StripParts(ps: seq<Part>): (r: Option<seq<Part>>)
    ensures r.None? <==> exists i :: 0 <= i < |ps| && ps[i] == TextPart(None)
    ensures r.Some? ==> |r.value| == |ps|
    ensures r.Some? ==> forall i :: 0 <= i < |ps| ==>
      r.value[i] == (if ps[i].TextPart? then TextPart(Some(StripTags(ps[i].text.value))) else ps[i])
  {
    if |ps| == 0 then Some([])
    else
      var tail := StripParts(ps[1..]);
      match ps[0]
      case TextPart(None) => None
      case TextPart(Some(t)) =>
        if tail.None? then None else Some([TextPart(Some(StripTags(t)))] + tail.value)
      case ImagePart(_) =>
        if tail.None? then None else Some([ps[0]] + tail.value)
  }

  /**
   * `extractPropertiesFromMessage`: the model tag at the start of the tag text
   * (else the default model), the first provider tag anywhere in it (else the
   * first provider's name), and the content with its tags removed, serialised
   * when it is an array. None when a text part has no text.
   */
  function ExtractProperties(m: Message, serialize: Serializer): (r: Option<Extracted>)
    ensures r.None? <==> m.content.Parts? && exists i :: 0 <= i < |m.content.parts| && m.content.parts[i] == TextPart(None)
    ensures r.Some? && m.content.Str? ==> r.value.content == StripTags(m.content.s)
    ensures r.Some? && m.content.NoContent? ==> r.value.content == ""
    ensures r.Some? && m.content.Parts? ==>
      StripParts(m.content.parts).Some? && r.value.content == serialize(StripParts(m.content.parts).value)
    ensures r.Some? ==> r.value.model == Capture(ModelRegex, TagText(m.content)).GetOr(DefaultModel)
    ensures r.Some? ==> r.value.provider == Capture(ProviderRegex, TagText(m.content)).GetOr(DefaultProvider.name)
  {
    var text := TagText(m.content);
    var model := Capture(ModelRegex, text).GetOr(DefaultModel);
    var provider := Capture(ProviderRegex, text).GetOr(DefaultProvider.name);
    match m.content
    case Str(s) => Some(Extracted(model, provider, StripTags(s)))
    case NoContent => Some(Extracted(model, provider, StripTags("")))
    case Parts(ps) =>
      match StripParts(ps)
      case Some(cleaned) => Some(Extracted(model, provider, serialize(cleaned)))
      case None => None
  }

  /** The empty string has no tags to strip. */
  lemma StripEmpty()
    ensures StripTags("") == ""
  {
    assert Exec(ModelRegex, "") == None;
    assert Exec(ProviderRegex, "") == None;
  }

  /**
   * Round trip: a string written as `[Model: m]\n\n[Provider: p]\n\n` + b, with tag-safe
   * names, extracts to exactly (m, p, b).
   */
  lemma ExtractRoundTrip(role: Role, id: string, m: string, p: string, b: string, serialize: Serializer)
    requires TagSafe(m) && TagSafe(p)
    ensures ExtractProperties(Message(role, Str(RoutingHeader(m, p) + b), id), serialize) == Some(Extracted(m, p, b))
  {
    HeaderRoundTrip(m, p, b);
  }

  /** Text without tags extracts to the defaults and keeps its text. */
  lemma ExtractDefaults(role: Role, id: string, s: string, serialize: Serializer)
    requires forall i :: 0 <= i < |s| ==> s[i] != '['
    ensures ExtractProperties(Message(role, Str(s), id), serialize) ==
      Some(Extracted(DefaultModel, DefaultProvider.name, s))
  {
    forall j: nat, k: nat ensures !MatchesAt(ModelRegex, s, j, k) && !MatchesAt(ProviderRegex, s, j, k) {
      if j < |s| && j + 8 <= |s| {
        assert s[j..j + 8][0] == s[j];
      }
      if j < |s| && j + 11 <= |s| {
        assert s[j..j + 11][0] == s[j];
      }
    }
  }

  /**
   * The client's array message: the tags are read from its first text part, that
   * part loses them, and the image parts pass through to the serialiser untouched.
   */
  lemma ExtractClientMessage(id: string, m: string, p: string, input: string, images: seq<Part>, serialize: Serializer)
    requires TagSafe(m) && TagSafe(p)
    requires forall i :: 0 <= i < |images| ==> images[i].ImagePart?
    ensures ExtractProperties(Message(User, Parts([TextPart(Some(RoutingHeader(m, p) + input))] + images), id), serialize)
      == Some(Extracted(m, p, serialize([TextPart(Some(input))] + images)))
  {
    var ps := [TextPart(Some(RoutingHeader(m, p) + input))] + images;
    HeaderRoundTrip(m, p, input);
    assert FirstTextIndex(ps) == Some(0);
    var cleaned := StripParts(ps).value;
    assert cleaned == [TextPart(Some(input))] + images;
  }

  /** The model and provider in force for the call. */
  datatype Selection = Selection(model: string, provider: string)

  const InitialSelection := Selection(DefaultModel, DefaultProvider.name)

  /** Every user message can be read (none has a text part without text). */
  predicate Readable(msgs: seq<Message>, serialize: Serializer) {
    forall i :: 0 <= i < |msgs| && msgs[i].role == User ==> ExtractProperties(msgs[i], serialize).Some?
  }

  /** One step of the `messages.map` callback on the selection. */
  function Step(sel: Selection, m: Message, modelList: seq<ModelInfo>, serialize: Serializer): Selection
    requires m.role == User ==> ExtractProperties(m, serialize).Some?
  {
    if m.role != User then sel
    else
      var e := ExtractProperties(m, serialize).value;
      Selection(if FindByName(modelList, e.model).Some? then e.model else sel.model, e.provider)
  }

  /** The message as `streamText` passes it on: user content replaced by the cleaned string. */
  function Processed(m: Message, serialize: Serializer): Message
    requires m.role == User ==> ExtractProperties(m, serialize).Some?
  {
    if m.role != User then m else m.(content := Str(ExtractProperties(m, serialize).value.content))
  }

  /**
   * The `messages.map` pass of `streamText`, left to right, threading the
   * current model and provider. Fails when some user message cannot be read.
   */
  function ProcessMessages(msgs: seq<Message>, modelList: seq<ModelInfo>, serialize: Serializer, sel: Selection)
    : (r: Option<(seq<Message>, Selection)>)
    ensures r.Some? <==> Readable(msgs, serialize)
    ensures r.Some? ==> |r.value.0| == |msgs|
    ensures r.Some? ==> forall i :: 0 <= i < |msgs| ==> r.value.0[i] == Processed(msgs[i], serialize)
  {
    if |msgs| == 0 then Some(([], sel))
    else if msgs[0].role == User && ExtractProperties(msgs[0], serialize).None? then None
    else
      var rest := ProcessMessages(msgs[1..], modelList, serialize, Step(sel, msgs[0], modelList, serialize));
      assert Readable(msgs, serialize) ==> Readable(msgs[1..], serialize) by {
        if Readable(msgs, serialize) {
          forall i | 0 <= i < |msgs[1..]| && msgs[1..][i].role == User
            ensures ExtractProperties(msgs[1..][i], serialize).Some?
          {
            assert msgs[1..][i] == msgs[i + 1];
          }
        }
      }
      assert Readable(msgs[1..], serialize) && (msgs[0].role == User ==> ExtractProperties(msgs[0], serialize).Some?)
        ==> Readable(msgs, serialize) by {
        if Readable(msgs[1..], serialize) && (msgs[0].role == User ==> ExtractProperties(msgs[0], serialize).Some?) {
          forall i | 0 <= i < |msgs| && msgs[i].role == User ensures ExtractProperties(msgs[i], serialize).Some? {
            if i > 0 {
              assert msgs[i] == msgs[1..][i - 1];
            }
          }
        }
      }
      match rest
      case None => None
      case Some((tail, s)) => Some(([Processed(msgs[0], serialize)] + tail, s))
  }

  /** Reference: the provider of the last user message, read from the end; `d` if there is none. */
  function LastProvider(msgs: seq<Message>, serialize: Serializer, d: string): string
    requires Readable(msgs, serialize)
  {
    if |msgs| == 0 then d
    else if msgs[|msgs| - 1].role == User then ExtractProperties(msgs[|msgs| - 1], serialize).value.provider
    else LastProvider(msgs[..|msgs| - 1], serialize, d)
  }

  /** Reference: the last user-extracted model name present in the list, read from the end; `d` if none. */
  function LastListedModel(msgs: seq<Message>, modelList: seq<ModelInfo>, serialize: Serializer, d: string): string
    requires Readable(msgs, serialize)
  {
    if |msgs| == 0 then d
    else
      var last := msgs[|msgs| - 1];
      if last.role == User && FindByName(modelList, ExtractProperties(last, serialize).value.model).Some? then
        ExtractProperties(last, serialize).value.model
      else LastListedModel(msgs[..|msgs| - 1], modelList, serialize, d)
  }

  lemma ReadablePrefix(msgs: seq<Message>, serialize: Serializer, n: nat)
    requires Readable(msgs, serialize) && n <= |msgs|
    ensures Readable(msgs[..n], serialize) && Readable(msgs[n..], serialize)
  {
    forall i | 0 <= i < |msgs[n..]| && msgs[n..][i].role == User ensures ExtractProperties(msgs[n..][i], serialize).Some? {
      assert msgs[n..][i] == msgs[n + i];
    }
  }

  /** Reading from the end agrees with one left-to-right step followed by the rest. */
  lemma {:induction false} LastFromFront(msgs: seq<Message>, modelList: seq<ModelInfo>, serialize: Serializer, sel: Selection)
    requires Readable(msgs, serialize) && |msgs| > 0
    ensures Readable(msgs[1..], serialize)
    ensures var s := Step(sel, msgs[0], modelList, serialize);
      && LastProvider(msgs, serialize, sel.provider) == LastProvider(msgs[1..], serialize, s.provider)
      && LastListedModel(msgs, modelList, serialize, sel.model) == LastListedModel(msgs[1..], modelList, serialize, s.model)
    decreases |msgs|
  {
    ReadablePrefix(msgs, serialize, 1);
    var n := |msgs|;
    if n > 1 {
      var init := msgs[..n - 1];
      ReadablePrefix(msgs, serialize, n - 1);
      assert init[0] == msgs[0];
      assert init[1..] == msgs[1..][..n - 2];
      assert msgs[1..][n - 2] == msgs[n - 1];
      LastFromFront(init, modelList, serialize, sel);
    }
  }

  /**
   * After the pass, the provider is the last user message's provider (each user
   * message without a tag resets it to the default), and the model is the last
   * user-extracted name found in the model list, else the starting model.
   */
  lemma {:induction false} SelectionIsLast(msgs: seq<Message>, modelList: seq<ModelInfo>, serialize: Serializer, sel: Selection)
    requires Readable(msgs, serialize)
    ensures ProcessMessages(msgs, modelList, serialize, sel).Some?
    ensures ProcessMessages(msgs, modelList, serialize, sel).value.1 ==
      Selection(LastListedModel(msgs, modelList, serialize, sel.model), LastProvider(msgs, serialize, sel.provider))
    decreases |msgs|
  {
    if |msgs| > 0 {
      LastFromFront(msgs, modelList, serialize, sel);
      SelectionIsLast(msgs[1..], modelList, serialize, Step(sel, msgs[0], modelList, serialize));
    }
  }

  /**
   * The token ceiling for the chosen model: its catalogue entry's non-zero
   * `maxTokenAllowed`, else MAX_TOKENS.
   */
  function ResolveMaxTokens(modelList: seq<ModelInfo>, model: string): (r: int)
    ensures (forall i :: 0 <= i < |modelList| ==> modelList[i].maxTokenAllowed >= 0) ==> r > 0
    ensures r != MaxTokens ==> exists i :: 0 <= i < |modelList| && modelList[i].name == model && modelList[i].maxTokenAllowed == r
    ensures IndexOfName(modelList, model).Some? && modelList[IndexOfName(modelList, model).value].maxTokenAllowed != 0 ==>
      r == modelList[IndexOfName(modelList, model).value].maxTokenAllowed
    ensures IndexOfName(modelList, model).None? || modelList[IndexOfName(modelList, model).value].maxTokenAllowed == 0 ==>
      r == MaxTokens
  {
    match FindByName(modelList, model)
    case Some(e) => if e.maxTokenAllowed != 0 then e.maxTokenAllowed else MaxTokens
    case None => MaxTokens
  }

  /** The default model is not in the static catalogue, so it gets the 4096 fallback. */
  lemma DefaultModelGetsFallback()
    ensures ResolveMaxTokens(ModelList, DefaultModel) == 4096
  {
    DefaultModelNotListed();
  }

  /** A prompt entry as the provider receives it. */
  datatype PromptMessage = PromptMessage(role: Role, content: string)

  /** `!message.content` is false. */
  predicate Truthy(c: Content) {
    match c
    case Str(s) => s != ""
    case Parts(_) => true
    case NoContent => false
  }

  /** The string sent: the content itself, or its serialisation. */
  function Serialized(c: Content, serialize: Serializer): string {
    match c
    case Str(s) => s
    case Parts(ps) => serialize(ps)
    case NoContent => ""
  }

  /**
   * The message survives the filter: truthy content that is not all whitespace
   * once serialised (KeptIffTrimmed: the same as its `trim()` being non-empty).
   */
  predicate Kept(m: Message, serialize: Serializer) {
    Truthy(m.content) && !AllSpace(Serialized(m.content, serialize))
  }

  /** The filter as the source writes it: falsy content, or content whose `trim()` is empty, is dropped. */
  lemma KeptIffTrimmed(m: Message, serialize: Serializer)
    ensures Kept(m, serialize) <==> Truthy(m.content) && !IsBlank(Serialized(m.content, serialize))
  {
    BlankIffAllSpace(Serialized(m.content, serialize));
  }

  /** What one message contributes to the prompt: itself as a string, or nothing. */
  function Entry(m: Message, serialize: Serializer): (r: seq<PromptMessage>)
    ensures |r| <= 1
    ensures |r| == 1 <==> Kept(m, serialize)
    ensures |r| == 1 ==> !AllSpace(r[0].content) && r[0].content != "" && r[0].role == m.role
  {
    if Kept(m, serialize) then [PromptMessage(m.role, Serialized(m.content, serialize))] else []
  }

  /** The `messages.forEach` loop of `convertToProviderMessages`. */
  function ConvertBody(msgs: seq<Message>, serialize: Serializer): (r: seq<PromptMessage>)
    ensures |r| <= |msgs|
    ensures forall i :: 0 <= i < |r| ==> !AllSpace(r[i].content)
  {
    if |msgs| == 0 then []
    else
      var head := Entry(msgs[0], serialize);
      var tail := ConvertBody(msgs[1..], serialize);
      assert forall i :: 0 <= i < |tail| ==> (head + tail)[|head| + i] == tail[i];
      head + tail
  }

  /** The loop is a filter followed by a map: it distributes over concatenation, so order is kept. */
  lemma {:induction false} ConvertBodyAppend(a: seq<Message>, b: seq<Message>, serialize: Serializer)
    ensures ConvertBody(a + b, serialize) == ConvertBody(a, serialize) + ConvertBody(b, serialize)
  {
    if |a| == 0 {
      assert a + b == b;
    } else {
      assert (a + b)[1..] == a[1..] + b;
      ConvertBodyAppend(a[1..], b, serialize);
    }
  }

  /** A single message is dropped exactly when its content is falsy or blank. */
  lemma ConvertBodySingle(m: Message, serialize: Serializer)
    ensures ConvertBody([m], serialize) ==
      if Kept(m, serialize) then [PromptMessage(m.role, Serialized(m.content, serialize))] else []
  {
  }

  /** Some surviving entry is a user message with content. */
  predicate HasUserEntry(out: seq<PromptMessage>) {
    exists i :: 0 <= i < |out| && out[i].role == User && out[i].content != ""
  }

  /**
   * `convertToProviderMessages`: one system entry first when the system prompt
   * is non-empty, then the surviving messages; an error when no user entry
   * with content survives.
   */
  function ConvertToProviderMessages(msgs: seq<Message>, systemPrompt: string, serialize: Serializer)
    : (r: Result<seq<PromptMessage>, string>)
    ensures r.Ok? ==> r.value == (if systemPrompt != "" then [PromptMessage(System, systemPrompt)] else []) + ConvertBody(msgs, serialize)
    ensures r.Err? ==> r.error == "Messages must contain at least one non-empty user message"
  {
    var out := (if systemPrompt != "" then [PromptMessage(System, systemPrompt)] else []) + ConvertBody(msgs, serialize);
    if |out| == 0 || !HasUserEntry(out) then Err("Messages must contain at least one non-empty user message")
    else Ok(out)
  }

  /** Conversion fails exactly when no user message survives the filter. */
  lemma {:induction false} ConvertFailsIff(msgs: seq<Message>, systemPrompt: string, serialize: Serializer)
    ensures ConvertToProviderMessages(msgs, systemPrompt, serialize).Err? <==>
      forall i :: !KeptUser(msgs, serialize, i)
  {
    var sys := if systemPrompt != "" then [PromptMessage(System, systemPrompt)] else [];
    var body := ConvertBody(msgs, serialize);
    var out := sys + body;
    if i :| KeptUser(msgs, serialize, i) {
      assert ContributesUser(msgs, serialize, i);
      var k := KeptUserAppears(msgs, serialize, i);
      assert out[|sys| + k] == body[k];
      assert HasUserEntry(out);
    }
    if HasUserEntry(out) {
      var k :| 0 <= k < |out| && out[k].role == User && out[k].content != "";
      assert out[k] == body[k - |sys|];
      var i := UserEntrySource(msgs, serialize, k - |sys|);
      assert KeptUser(msgs, serialize, i);
    }
  }

  /** Message `i` is a user message that survives the filter. */
  predicate KeptUser(msgs: seq<Message>, serialize: Serializer, i: int) {
    0 <= i < |msgs| && msgs[i].role == User && Kept(msgs[i], serialize)
  }

  /** Message `i` is a user message that contributes an entry (the same as KeptUser, by Entry's contract). */
  predicate ContributesUser(msgs: seq<Message>, serialize: Serializer, i: int) {
    0 <= i < |msgs| && msgs[i].role == User && |Entry(msgs[i], serialize)| == 1
  }

  /** A kept user message appears in the filtered body, at or before its own index. */
  lemma {:induction false} KeptUserAppears(msgs: seq<Message>, serialize: Serializer, i: int) returns (k: nat)
    requires ContributesUser(msgs, serialize, i)
    ensures k < |ConvertBody(msgs, serialize)| && k <= i
    ensures ConvertBody(msgs, serialize)[k] == PromptMessage(User, Serialized(msgs[i].content, serialize))
    decreases |msgs|
  {
    var head := Entry(msgs[0], serialize);
    var tail := ConvertBody(msgs[1..], serialize);
    assert ConvertBody(msgs, serialize) == head + tail;
    if i == 0 {
      k := 0;
    } else {
      assert msgs[1..][i - 1] == msgs[i];
      var t := KeptUserAppears(msgs[1..], serialize, i - 1);
      k := |head| + t;
    }
  }

  /** Every user entry of the filtered body comes from a kept user message. */
  lemma {:induction false} UserEntrySource(msgs: seq<Message>, serialize: Serializer, k: int) returns (i: nat)
    requires 0 <= k < |ConvertBody(msgs, serialize)| && ConvertBody(msgs, serialize)[k].role == User
    ensures ContributesUser(msgs, serialize, i) && k <= i
    decreases |msgs|
  {
    var head := Entry(msgs[0], serialize);
    var tail := ConvertBody(msgs[1..], serialize);
    assert ConvertBody(msgs, serialize) == head + tail;
    if k < |head| {
      assert head[0] == ConvertBody(msgs, serialize)[k];
      i := 0;
    } else {
      assert tail[k - |head|] == ConvertBody(msgs, serialize)[k];
      assert tail[k - |head|].role == User;
      var j := UserEntrySource(msgs[1..], serialize, k - |head|);
      assert msgs[1..][j] == msgs[j + 1];
      i := j + 1;
    }
  }

  /** What `streamText` hands to the model: the selection, the prompt and the token ceiling. */
  datatype CallOptions = CallOptions(provider: string, model: string, prompt: seq<PromptMessage>, maxTokens: int)

  /** Reference for the history handed to the conversion: each message processed on its own. */
  function ProcessedAll(msgs: seq<Message>, serialize: Serializer): (r: seq<Message>)
    requires Readable(msgs, serialize)
    ensures |r| == |msgs|
    ensures forall i :: 0 <= i < |msgs| ==> r[i] == Processed(msgs[i], serialize)
    decreases |msgs|
  {
    if |msgs| == 0 then []
    else
      ReadablePrefix(msgs, serialize, 1);
      var tail := ProcessedAll(msgs[1..], serialize);
      var r := [Processed(msgs[0], serialize)] + tail;
      forall i | 1 <= i < |msgs| ensures r[i] == Processed(msgs[i], serialize) {
        assert r[i] == tail[i - 1];
        assert msgs[1..][i - 1] == msgs[i];
      }
      r
  }

  /** The pass hands the reference history to the conversion, which succeeds exactly when a user message survives. */
  lemma ProcessedIsReference(msgs: seq<Message>, modelList: seq<ModelInfo>, systemPrompt: string, serialize: Serializer)
    requires Readable(msgs, serialize)
    ensures ProcessMessages(msgs, modelList, serialize, InitialSelection).Some?
    ensures ProcessMessages(msgs, modelList, serialize, InitialSelection).value.0 == ProcessedAll(msgs, serialize)
    ensures ConvertToProviderMessages(ProcessedAll(msgs, serialize), systemPrompt, serialize).Ok? <==>
      exists i :: KeptUser(ProcessedAll(msgs, serialize), serialize, i)
  {
    var p := ProcessMessages(msgs, modelList, serialize, InitialSelection).value.0;
    var q := ProcessedAll(msgs, serialize);
    assert |p| == |q|;
    assert forall i :: 0 <= i < |p| ==> p[i] == q[i];
    ConvertFailsIff(q, systemPrompt, serialize);
  }

  /**
   * `streamText` up to `doStream`: process the messages, resolve the token
   * ceiling, convert the prompt.
   */
  function PrepareCall(msgs: seq<Message>, modelList: seq<ModelInfo>, systemPrompt: string, serialize: Serializer)
    : (r: Result<CallOptions, string>)
    ensures Readable(msgs, serialize) && r.Ok? ==>
      && r.value.provider == LastProvider(msgs, serialize, DefaultProvider.name)
      && r.value.model == LastListedModel(msgs, modelList, serialize, DefaultModel)
    ensures r.Ok? ==> r.value.maxTokens == ResolveMaxTokens(modelList, r.value.model)
    ensures !Readable(msgs, serialize) ==> r.Err?
    ensures Readable(msgs, serialize) ==>
      (r.Ok? <==> exists i :: KeptUser(ProcessedAll(msgs, serialize), serialize, i))
    ensures Readable(msgs, serialize) && r.Ok? ==>
      var conv := ConvertToProviderMessages(ProcessedAll(msgs, serialize), systemPrompt, serialize);
      conv.Ok? && r.value.prompt == conv.value
  {
    if !Readable(msgs, serialize) then Err("TypeError: text part without text")
    else
      SelectionIsLast(msgs, modelList, serialize, InitialSelection);
      ProcessedIsReference(msgs, modelList, systemPrompt, serialize);
      var sel := ProcessMessages(msgs, modelList, serialize, InitialSelection).value.1;
      var conv := ConvertToProviderMessages(ProcessedAll(msgs, serialize), systemPrompt, serialize);
      if conv.Err? then Err(conv.error)
      else Ok(CallOptions(sel.provider, sel.model, conv.value, ResolveMaxTokens(modelList, sel.model)))
  }
}

=== FILE: system_tools.dfy ===
/**
 * The built-in tools of the src/ layer (src/lib/system-tools.ts) and their
 * registration. The clock, the date formatter, the UUID source and `eval` are
 * parameters; the e-mail check and the expression sanitiser are modelled
 * character by character.
 */
module SystemTools {
  import opened Wrappers
  import opened Text
  import opened AiTypes
  import ToolSystem

  // ---- validateEmail: /^[^\s@]+@[^\s@]+\.[^\s@]+$/ ----

  /** A character of the class `[^\s@]`. */
  predicate Plain(c: char) {
    !IsSpace(c) && c != '@'
  }

  predicate AllPlain(s: string) {
    forall i :: 0 <= i < |s| ==> Plain(s[i])
  }

  /** The pattern matches `s` with its '@' at `k` and the separating '.' at `j`. */
  predicate MatchAt(s: string, k: int, j: int) {
    0 < k && k + 1 < j && j + 1 < |s| && s[k] == '@' && s[j] == '.' &&
    AllPlain(s[..k]) && AllPlain(s[k + 1..j]) && AllPlain(s[j + 1..])
  }

  /** Reference reading of the pattern: some placement of '@' and '.' splits `s` into three non-empty plain runs. */
  ghost predicate EmailPattern(s: string) {
    exists k, j :: MatchAt(s, k, j)
  }

  /** The first position at or after `from` holding `c`, or `|s|`. */
  function IndexOf(s: string, c: char, from: nat): (r: nat)
    requires from <= |s|
    ensures from <= r <= |s|
    ensures forall i :: from <= i < r ==> s[i] != c
    ensures r < |s| ==> s[r] == c
    decreases |s| - from
  {
    if from == |s| || s[from] == c then from else IndexOf(s, c, from + 1)
  }

  /** Some '.' lies at a position in `[lo, hi)`. */
  function HasDot(s: string, lo: nat, hi: nat): (r: bool)
    requires hi <= |s|
    ensures r <==> exists j :: lo <= j < hi && s[j] == '.'
    decreases hi - lo
  {
    if lo >= hi then false else s[lo] == '.' || HasDot(s, lo + 1, hi)
  }

  predicate NoSpace(s: string) {
    forall i :: 0 <= i < |s| ==> !IsSpace(s[i])
  }

  /** `emailRegex.test(email)`: one '@' after a non-empty head, no whitespace, and an inner '.' in the domain. */
  function ValidateEmail(s: string): bool {
    var k := IndexOf(s, '@', 0);
    0 < k < |s| && NoSpace(s) && IndexOf(s, '@', k + 1) == |s| && HasDot(s, k + 2, |s| - 1)
  }

  /** The scanning check accepts exactly the strings the pattern matches. */
  lemma ValidateEmailIff(s: string)
    ensures ValidateEmail(s) <==> EmailPattern(s)
  {
    if ValidateEmail(s) {
      var k := IndexOf(s, '@', 0);
      var j :| k + 2 <= j < |s| - 1 && s[j] == '.';
      assert AllPlain(s[..k]) by {
        forall i | 0 <= i < k ensures Plain(s[..k][i]) {
          assert s[..k][i] == s[i];
        }
      }
      var domain := s[k + 1..j];
      assert AllPlain(domain) by {
        forall i | 0 <= i < |domain| ensures Plain(domain[i]) {
          assert domain[i] == s[k + 1 + i];
        }
      }
      var tld := s[j + 1..];
      assert AllPlain(tld) by {
        forall i | 0 <= i < |tld| ensures Plain(tld[i]) {
          assert tld[i] == s[j + 1 + i];
        }
      }
      assert MatchAt(s, k, j);
    }
    if EmailPattern(s) {
      var k, j :| MatchAt(s, k, j);
      assert forall i :: 0 <= i < k ==> s[i] == s[..k][i];
      assert forall i :: k < i < j ==> s[i] == s[k + 1..j][i - k - 1];
      assert forall i :: j < i < |s| ==> s[i] == s[j + 1..][i - j - 1];
      assert IndexOf(s, '@', 0) == k;
      assert NoSpace(s);
      assert IndexOf(s, '@', k + 1) == |s|;
      assert HasDot(s, k + 2, |s| - 1);
    }
  }

  /** `params.email`, when it is a string. */
  function StringField(args: Value, field: string): Option<string> {
    if args.Obj? && field in args.fields && args.fields[field].Str? then Some(args.fields[field].s) else None
  }

  /** `params.email` as destructuring reads it from a non-null value: None stands for `undefined`. */
  function Field(args: Value, field: string): Option<Value> {
    if args.Obj? && field in args.fields then Some(args.fields[field]) else None
  }

  /** A decimal digit character. */
  function DigitChar(d: nat): (r: char)
    requires d < 10
    ensures '0' <= r <= '9'
  {
    ('0' as int + d) as char
  }

  /** The decimal digits of `n`, most significant first. */
  function Digits(n: nat): (r: string)
    ensures |r| > 0
    ensures forall i :: 0 <= i < |r| ==> '0' <= r[i] <= '9'
    decreases n
  {
    if n < 10 then [DigitChar(n)] else Digits(n / 10) + [DigitChar(n % 10)]
  }

  /** `String(n)` for an integer. */
  function Decimal(n: int): string {
    if n < 0 then "-" + Digits(-n) else Digits(n)
  }

  /**
   * JavaScript's `String(v)` on a parsed JSON value, which `RegExp.prototype.test`
   * applies to its argument: an array joins its elements with ',' (null elements
   * as ''), an object becomes "[object Object]".
   */
  function StringOf(v: Value): string
    decreases v
  {
    match v
    case Null => "null"
    case Bool(b) => if b then "true" else "false"
    case Num(n) => Decimal(n)
    case Str(s) => s
    case Arr(items) =>
      Join(seq(|items|, i requires 0 <= i < |items| => if items[i].Null? then "" else StringOf(items[i])), ",")
    case Obj(_) => "[object Object]"
  }

  /** The address check, `emailRegex.test(email)`, with `undefined` for a missing field. */
  function EmailVerdict(email: Option<Value>): bool {
    match email
    case Some(v) => ValidateEmail(StringOf(v))
    case None => ValidateEmail("undefined")
  }

  /**
   * The `validateEmail` tool body. Destructuring null throws a TypeError (its
   * engine text is left empty); otherwise the verdict on the address, which is
   * echoed back unchanged. A missing address is `undefined`, which the JSON
   * result drops.
   */
  function ValidateEmailTool(args: Value): (r: Outcome)
    ensures args.Null? <==> r.Threw?
    ensures args.Null? ==> r == Threw(ErrorObject("TypeError", ""))
    ensures r.Returned? ==> r.value.Obj? && "isValid" in r.value.fields
    ensures r.Returned? ==> ("email" in r.value.fields <==> Field(args, "email").Some?)
    ensures r.Returned? && Field(args, "email").Some? ==>
      r.value.fields["isValid"] == Bool(EmailPattern(StringOf(Field(args, "email").value))) &&
      r.value.fields["email"] == Field(args, "email").value
    ensures StringField(args, "email").Some? ==>
      r.value.fields["isValid"] == Bool(EmailPattern(StringField(args, "email").value)) &&
      r.value.fields["email"] == Str(StringField(args, "email").value)
    ensures r.Returned? && Field(args, "email").None? ==> r.value.fields["isValid"] == Bool(false)
  {
    if args.Null? then Threw(ErrorObject("TypeError", ""))
    else
      match Field(args, "email")
      case Some(email) =>
        ValidateEmailIff(StringOf(email));
        Returned(Obj(map["isValid" := Bool(EmailVerdict(Some(email))), "email" := email]))
      case None =>
        NoAtNeverValid("undefined");
        Returned(Obj(map["isValid" := Bool(EmailVerdict(None))]))
  }

  /** A string without '@' never passes the address check. */
  lemma NoAtNeverValid(s: string)
    requires forall i :: 0 <= i < |s| ==> s[i] != '@'
    ensures !ValidateEmail(s)
  {
  }

  /** Only a string or an array can pass the check: every other value's string form lacks an '@'. */
  lemma OnlyStringsAndArraysValid(v: Value)
    requires !v.Str? && !v.Arr?
    ensures !EmailVerdict(Some(v))
  {
    var s := StringOf(v);
    if v.Num? {
      if v.n < 0 {
        assert forall i :: 1 <= i < |s| ==> s[i] == Digits(-v.n)[i - 1];
      }
    }
    NoAtNeverValid(s);
  }

  // ---- calculateMath: expression.replace(/[^0-9+\-*/.()\s]/g, '') ----

  /** A character the sanitiser keeps: a digit, one of + - * / . ( ), or whitespace. */
  predicate Allowed(c: char) {
    '0' <= c <= '9' || c == '+' || c == '-' || c == '*' || c == '/' || c == '.' || c == '(' || c == ')' || IsSpace(c)
  }

  predicate AllAllowed(s: string) {
    forall i :: 0 <= i < |s| ==> Allowed(s[i])
  }

  /** The sanitiser: every other character is deleted. */
  function Sanitize(s: string): (r: string)
    ensures |r| <= |s| && AllAllowed(r)
  {
    if |s| == 0 then ""
    else if Allowed(s[0]) then [s[0]] + Sanitize(s[1..])
    else Sanitize(s[1..])
  }

  lemma {:induction false} SanitizeAppend(a: string, b: string)
    ensures Sanitize(a + b) == Sanitize(a) + Sanitize(b)
  {
    if |a| == 0 {
      assert a + b == b;
    } else {
      assert (a + b)[0] == a[0];
      assert (a + b)[1..] == a[1..] + b;
      SanitizeAppend(a[1..], b);
    }
  }

  /** A string of allowed characters passes unchanged. */
  lemma {:induction false} SanitizeKeepsAllowed(s: string)
    requires AllAllowed(s)
    ensures Sanitize(s) == s
  {
    if |s| > 0 {
      SanitizeKeepsAllowed(s[1..]);
      assert [s[0]] + s[1..] == s;
    }
  }

  /** Sanitising twice is sanitising once. */
  lemma SanitizeIdempotent(s: string)
    ensures Sanitize(Sanitize(s)) == Sanitize(s)
  {
    SanitizeKeepsAllowed(Sanitize(s));
  }

  /** `a` can be obtained from `b` by deleting characters. */
  predicate Subsequence(a: string, b: string)
    decreases |b|
  {
    |a| == 0 || (|b| > 0 && ((a[0] == b[0] && Subsequence(a[1..], b[1..])) || Subsequence(a, b[1..])))
  }

  /** The output keeps the input's characters in their order, only deleting some. */
  lemma {:induction false} SanitizeSubsequence(s: string)
    ensures Subsequence(Sanitize(s), s)
  {
    if |s| > 0 {
      SanitizeSubsequence(s[1..]);
      if Allowed(s[0]) {
        assert ([s[0]] + Sanitize(s[1..]))[1..] == Sanitize(s[1..]);
      }
    }
  }

  /** What `eval` is handed always consists of allowed characters only. */
  lemma EvalInputAllowed(expression: string)
    ensures AllAllowed("(" + Sanitize(expression) + ")")
  {
  }

  const InvalidExpression := ErrorObject("Error", "Invalid mathematical expression")

  /** The `calculateMath` tool body; `eval` gives a value or throws. A non-string expression makes `replace` throw a TypeError, whose engine text is not modelled. */
  function CalculateMathTool(args: Value, eval: string -> Option<Value>): (r: Outcome)
    ensures StringField(args, "expression").None? ==> r == Threw(ErrorObject("TypeError", ""))
    ensures StringField(args, "expression").Some? ==>
      var input := "(" + Sanitize(StringField(args, "expression").value) + ")";
      (eval(input).None? ==> r == Threw(InvalidExpression)) &&
      (eval(input).Some? ==> r == Returned(Obj(map["result" := eval(input).value])))
  {
    match StringField(args, "expression")
    case None => Threw(ErrorObject("TypeError", ""))
    case Some(e) =>
      match eval("(" + Sanitize(e) + ")")
      case None => Threw(InvalidExpression)
      case Some(v) => Returned(Obj(map["result" := v]))
  }

  // ---- the tool list and registerSystemTools ----

  /** The environment the remaining tools read: the clock, `Intl.DateTimeFormat`, `crypto.randomUUID`, `eval`. */
  datatype Env = Env(
    now: string,
    formatDate: (Option<Value>, Value) -> Outcome,
    uuid: string,
    eval: string -> Option<Value>)

  function FieldSchema(description: string): Value {
    Obj(map["type" := Str("string"), "description" := Str(description)])
  }

  /**
   * The `formatDate` tool body: destructuring null throws a TypeError; otherwise
   * the formatter gets the date (None: `undefined`) and the format.
   */
  function FormatDateTool(args: Value, formatDate: (Option<Value>, Value) -> Outcome): (r: Outcome)
    ensures args.Null? ==> r == Threw(ErrorObject("TypeError", ""))
    ensures !args.Null? ==> r == formatDate(Field(args, "date"), FormatArg(args))
    ensures args.Obj? && "format" !in args.fields ==> r == formatDate(Field(args, "date"), Str("long"))
  {
    if args.Null? then Threw(ErrorObject("TypeError", "")) else formatDate(Field(args, "date"), FormatArg(args))
  }

  /** `format = 'long'`: the default applies only when the field is missing. */
  function FormatArg(args: Value): Value {
    if args.Obj? && "format" in args.fields then args.fields["format"] else Str("long")
  }

  /** `systemTools`, in declaration order. */
  function Tools(env: Env): (r: seq<Tool>)
    ensures |r| == 5
    ensures forall i, j :: 0 <= i < j < |r| ==> r[i].name != r[j].name
  {
    [ Tool("getCurrentTime", "Get the current time in ISO format", Obj(map[]),
           _ => Returned(Obj(map["time" := Str(env.now)]))),
      Tool("formatDate", "Format a date string using Intl.DateTimeFormat",
           Obj(map["date" := FieldSchema("The date string to format"),
                   "format" := Obj(map["type" := Str("string"),
                                       "enum" := Arr([Str("short"), Str("medium"), Str("long"), Str("full")]),
                                       "description" := Str("The format to use")])]),
           args => FormatDateTool(args, env.formatDate)),
      Tool("calculateMath", "Safely evaluate a mathematical expression",
           Obj(map["expression" := FieldSchema("The mathematical expression to evaluate")]),
           args => CalculateMathTool(args, env.eval)),
      Tool("generateUUID", "Generate a UUID v4", Obj(map[]),
           _ => Returned(Obj(map["uuid" := Str(env.uuid)]))),
      Tool("validateEmail", "Validate an email address",
           Obj(map["email" := FieldSchema("The email address to validate")]),
           ValidateEmailTool) ]
  }

  /** `tools.forEach(toolRegistry)` with `ToolSystem.registerTool` as the callback: the first refusal stops it. */
  function RegisterAll(reg: ToolSystem.Registry, tools: seq<Tool>): (r: Result<ToolSystem.Registry, AIError>)
    requires ToolSystem.Valid(reg)
    ensures r.Ok? ==> ToolSystem.Valid(r.value)
    ensures r.Err? ==> r.error.code == "DUPLICATE_TOOL"
    decreases |tools|
  {
    if |tools| == 0 then Ok(reg)
    else
      match ToolSystem.RegisterTool(reg, tools[0])
      case Err(e) => Err(e)
      case Ok(reg1) => RegisterAll(reg1, tools[1..])
  }

  /** Tools with distinct names, none registered yet, are all appended in order. */
  lemma {:induction false} RegisterAllFresh(reg: ToolSystem.Registry, tools: seq<Tool>)
    requires ToolSystem.Valid(reg)
    requires forall i, j :: 0 <= i < j < |tools| ==> tools[i].name != tools[j].name
    requires forall i :: 0 <= i < |tools| ==> !ToolSystem.Has(reg, tools[i].name)
    ensures RegisterAll(reg, tools) == Ok(ToolSystem.Registry(reg.tools + tools))
    decreases |tools|
  {
    if |tools| == 0 {
      assert reg.tools + tools == reg.tools;
    } else {
      var reg1 := ToolSystem.Registry(reg.tools + [tools[0]]);
      assert ToolSystem.RegisterTool(reg, tools[0]) == Ok(reg1);
      forall i | 0 <= i < |tools[1..]| ensures !ToolSystem.Has(reg1, tools[1..][i].name) {
        assert tools[1..][i] == tools[i + 1];
        assert tools[i + 1].name != tools[0].name;
        forall m | 0 <= m < |reg1.tools| ensures reg1.tools[m].name != tools[i + 1].name {
          if m < |reg.tools| {
            assert reg1.tools[m] == reg.tools[m];
          }
        }
      }
      RegisterAllFresh(reg1, tools[1..]);
      assert reg1.tools + tools[1..] == reg.tools + tools;
    }
  }

  /** `registerSystemTools` on an empty registry never meets DUPLICATE_TOOL: all five tools end up registered, in order. */
  lemma SystemToolsRegisterCleanly(env: Env)
    ensures RegisterAll(ToolSystem.Empty, Tools(env)) == Ok(ToolSystem.Registry(Tools(env)))
  {
    RegisterAllFresh(ToolSystem.Empty, Tools(env));
    assert ToolSystem.Empty.tools + Tools(env) == Tools(env);
  }

  /** Registering the system tools a second time is refused at the first one. */
  lemma SystemToolsTwiceRefused(env: Env)
    ensures RegisterAll(ToolSystem.Registry(Tools(env)), Tools(env)) == Err(ToolSystem.Duplicate("getCurrentTime"))
  {
    assert ToolSystem.Registry(Tools(env)).tools[0].name == "getCurrentTime";
  }
}

=== FILE: tags.dfy ===
/**
 * The routing tags the client writes in front of a prompt,
 * `[Model: m]\n\n[Provider: p]\n\n<text>`, and the regular expressions that read
 * them back. Every expression the source uses has the shape
 * `prefix (.*?) suffix` or `prefix (.+?) suffix`, possibly anchored by `^`; the
 * model below gives such a pattern JavaScript's matching semantics: the match
 * starts at the leftmost position where one exists, and there the lazy group
 * takes the fewest characters that let the suffix follow, never crossing a line
 * terminator (the characters `.` does not match).
 */
module Tags {
  import opened Wrappers
  import opened Text

  /** `^?` prefix `(.*?)` suffix when `minCapture` is 0, `(.+?)` when it is 1. */
  datatype Pattern = Pattern(prefix: string, suffix: string, minCapture: nat, anchored: bool)

  /** `/^\[Model: (.*?)\]\n\n/`, the server's model tag. */
  const ModelRegex := Pattern("[Model: ", "]\n\n", 0, true)
  /** `/\[Provider: (.*?)\]\n\n/`, the server's provider tag. */
  const ProviderRegex := Pattern("[Provider: ", "]\n\n", 0, false)
  /** `/\[Provider: (.+?)\]/`, the chat route's provider tag. */
  const LooseProviderRegex := Pattern("[Provider: ", "]", 1, false)
  /** `/\[Model: (.+?)\]/`, the chat route's model tag. */
  const LooseModelRegex := Pattern("[Model: ", "]", 1, false)

  /** The pattern matches `s` from position `i` with a capture of `k` characters. */
  predicate MatchesAt(p: Pattern, s: string, i: nat, k: nat) {
    var c := i + |p.prefix|;
    && (p.anchored ==> i == 0)
    && p.minCapture <= k
    && c + k + |p.suffix| <= |s|
    && s[i..c] == p.prefix
    && NoLineTerminator(s[c..c + k])
    && s[c + k..c + k + |p.suffix|] == p.suffix
  }

  ghost predicate HasMatchAt(p: Pattern, s: string, i: nat) {
    exists k :: MatchesAt(p, s, i, k)
  }

  /** A match: where it starts and how many characters the group captured. */
  datatype Match = Match(start: nat, len: nat)

  /** The match JavaScript reports: leftmost start, then the shortest lazy capture. */
  ghost predicate IsFirstMatch(p: Pattern, s: string, m: Match) {
    && MatchesAt(p, s, m.start, m.len)
    && (forall j :: 0 <= j < m.start ==> !HasMatchAt(p, s, j))
    && (forall k :: 0 <= k < m.len ==> !MatchesAt(p, s, m.start, k))
  }

  /** One past the last character the match consumed. */
  function EndOf(p: Pattern, m: Match): nat {
    m.start + |p.prefix| + m.len + |p.suffix|
  }

  /** The lazy group: tries capture lengths k, k+1, ... at position i. */
  function ShortestFrom(p: Pattern, s: string, i: nat, k: nat): (r: Option<nat>)
    decreases |s| - k
    ensures r.Some? ==> k <= r.value && MatchesAt(p, s, i, r.value)
    ensures r.Some? ==> forall k' :: k <= k' < r.value ==> !MatchesAt(p, s, i, k')
    ensures r.None? ==> forall k' :: k <= k' ==> !MatchesAt(p, s, i, k')
  {
    if i + |p.prefix| + k + |p.suffix| > |s| then None
    else if MatchesAt(p, s, i, k) then Some(k)
    else ShortestFrom(p, s, i, k + 1)
  }

  /** The scan over start positions i, i+1, ... up to the end of the string. */
  function FirstFrom(p: Pattern, s: string, i: nat): (r: Option<Match>)
    decreases |s| + 1 - i
    ensures r.Some? ==> i <= r.value.start && MatchesAt(p, s, r.value.start, r.value.len)
    ensures r.Some? ==> forall j :: i <= j < r.value.start ==> !HasMatchAt(p, s, j)
    ensures r.Some? ==> forall k :: 0 <= k < r.value.len ==> !MatchesAt(p, s, r.value.start, k)
    ensures r.None? ==> forall j, k :: i <= j ==> !MatchesAt(p, s, j, k)
  {
    if i > |s| || (p.anchored && i > 0) then None
    else match ShortestFrom(p, s, i, p.minCapture)
      case Some(k) => Some(Match(i, k))
      case None => FirstFrom(p, s, i + 1)
  }

  /** `s.match(p)`: the first match, or none. */
  function Exec(p: Pattern, s: string): (r: Option<Match>)
    ensures r.Some? ==> IsFirstMatch(p, s, r.value)
    ensures r.None? <==> forall j, k :: !MatchesAt(p, s, j, k)
  {
    FirstFrom(p, s, 0)
  }

  /** The first match is determined by the pattern and the string alone. */
  lemma FirstMatchUnique(p: Pattern, s: string, m: Match)
    requires IsFirstMatch(p, s, m)
    ensures Exec(p, s) == Some(m)
  {
    var r := Exec(p, s);
    assert MatchesAt(p, s, m.start, m.len);
    assert r.Some?;
    var n := r.value;
    assert HasMatchAt(p, s, n.start);
    assert HasMatchAt(p, s, m.start);
    assert n.start == m.start;
    assert n.len == m.len;
  }

  /** Every first match is the one `Exec` reports. */
  lemma ExecIsFirst(p: Pattern, s: string)
    ensures forall m :: IsFirstMatch(p, s, m) ==> Exec(p, s) == Some(m)
  {
    forall m | IsFirstMatch(p, s, m) ensures Exec(p, s) == Some(m) {
      FirstMatchUnique(p, s, m);
    }
  }

  /** `s.match(p)?.[1]`: the captured group of the first match. */
  function Capture(p: Pattern, s: string): Option<string> {
    match Exec(p, s)
    case Some(m) => Some(s[m.start + |p.prefix|..m.start + |p.prefix| + m.len])
    case None => None
  }

  /** `t` is what `s.replace(p, '')` leaves: the first match cut out, or `s` itself when nothing matches. */
  ghost predicate Replaced(p: Pattern, s: string, t: string) {
    || ((forall j, k :: !MatchesAt(p, s, j, k)) && t == s)
    || (exists m :: IsFirstMatch(p, s, m) && t == s[..m.start] + s[EndOf(p, m)..])
  }

  /** `s.replace(p, '')`: removes the first match only. */
  function RemoveFirst(p: Pattern, s: string): string {
    match Exec(p, s)
    case Some(m) => s[..m.start] + s[EndOf(p, m)..]
    case None => s
  }

  /** `match` gives nothing exactly when the pattern matches nowhere, and otherwise the group of the first match. */
  lemma CaptureFirstMatch(p: Pattern, s: string)
    ensures Capture(p, s).None? <==> forall j, k :: !MatchesAt(p, s, j, k)
    ensures forall m :: IsFirstMatch(p, s, m) ==>
      Capture(p, s) == Some(s[m.start + |p.prefix|..m.start + |p.prefix| + m.len])
  {
    forall m | IsFirstMatch(p, s, m)
      ensures Capture(p, s) == Some(s[m.start + |p.prefix|..m.start + |p.prefix| + m.len])
    {
      FirstMatchUnique(p, s, m);
    }
  }

  /** `replace` leaves exactly the text with the first match cut out, or the text itself when nothing matches. */
  lemma RemoveFirstMatch(p: Pattern, s: string)
    ensures Replaced(p, s, RemoveFirst(p, s))
    ensures forall t :: Replaced(p, s, t) ==> t == RemoveFirst(p, s)
  {
    forall t | Replaced(p, s, t) ensures t == RemoveFirst(p, s) {
      if m :| IsFirstMatch(p, s, m) && t == s[..m.start] + s[EndOf(p, m)..] {
        FirstMatchUnique(p, s, m);
      }
    }
  }

  /** A name the tags carry unambiguously: no brackets and no line terminators. */
  predicate TagSafe(x: string) {
    forall i :: 0 <= i < |x| ==> x[i] != '[' && x[i] != ']' && !IsLineTerminator(x[i])
  }

  /** The text both writers put before the prompt: Chat.client.tsx and api.enhancer.ts. */
  function RoutingHeader(model: string, provider: string): string {
    "[Model: " + model + "]\n\n[Provider: " + provider + "]\n\n"
  }

  /** Without the prefix at j there is no match at j. */
  lemma NoPrefixNoMatch(p: Pattern, s: string, j: nat)
    requires j + |p.prefix| > |s| || s[j..j + |p.prefix|] != p.prefix
    ensures !HasMatchAt(p, s, j)
  {
  }

  /**
   * A tag whose name is tag-safe and whose suffix begins with ']' is matched
   * exactly: the lazy group stops at the name's end, because no character of the
   * name can start the suffix.
   */
  lemma TagAt(p: Pattern, s: string, i: nat, x: string)
    requires |p.suffix| > 0 && p.suffix[0] == ']' && p.minCapture <= |x| && TagSafe(x)
    requires p.anchored ==> i == 0
    requires i + |p.prefix| + |x| + |p.suffix| <= |s|
    requires s[i..i + |p.prefix|] == p.prefix
    requires s[i + |p.prefix|..i + |p.prefix| + |x|] == x
    requires s[i + |p.prefix| + |x|..i + |p.prefix| + |x| + |p.suffix|] == p.suffix
    requires forall j :: 0 <= j < i ==> !HasMatchAt(p, s, j)
    ensures Exec(p, s) == Some(Match(i, |x|))
    ensures Capture(p, s) == Some(x)
    ensures RemoveFirst(p, s) == s[..i] + s[i + |p.prefix| + |x| + |p.suffix|..]
  {
    TagIsFirst(p, s, i, x);
    FirstMatchUnique(p, s, Match(i, |x|));
  }

  /** The tag itself is the first match, with the whole name captured. */
  lemma TagIsFirst(p: Pattern, s: string, i: nat, x: string)
    requires |p.suffix| > 0 && p.suffix[0] == ']' && p.minCapture <= |x| && TagSafe(x)
    requires p.anchored ==> i == 0
    requires i + |p.prefix| + |x| + |p.suffix| <= |s|
    requires s[i..i + |p.prefix|] == p.prefix
    requires s[i + |p.prefix|..i + |p.prefix| + |x|] == x
    requires s[i + |p.prefix| + |x|..i + |p.prefix| + |x| + |p.suffix|] == p.suffix
    requires forall j :: 0 <= j < i ==> !HasMatchAt(p, s, j)
    ensures IsFirstMatch(p, s, Match(i, |x|))
  {
    var c := i + |p.prefix|;
    assert NoLineTerminator(s[c..c + |x|]);
    assert MatchesAt(p, s, i, |x|);
    forall k | 0 <= k < |x| ensures !MatchesAt(p, s, i, k) {
      NoEarlyClose(p, s, c, x, k);
    }
  }

  /** Inside a tag-safe name no position can begin a suffix that opens with ']'. */
  lemma NoEarlyClose(p: Pattern, s: string, c: nat, x: string, k: nat)
    requires |p.suffix| > 0 && p.suffix[0] == ']' && TagSafe(x)
    requires c + |x| <= |s| && s[c..c + |x|] == x && k < |x|
    ensures c + k + |p.suffix| > |s| || s[c + k..c + k + |p.suffix|] != p.suffix
  {
    assert s[c + k] == x[k];
    if c + k + |p.suffix| <= |s| {
      assert s[c + k..c + k + |p.suffix|][0] == s[c + k];
    }
  }

  /** Where each piece of `RoutingHeader(m, pr) + b` lies. */
  lemma HeaderLayout(m: string, pr: string, b: string)
    ensures var s := RoutingHeader(m, pr) + b;
      var q := 11 + |m|;
      var e := q + 11 + |pr| + 3;
      && |s| == e + |b|
      && s[0..8] == "[Model: "
      && s[8..8 + |m|] == m
      && s[8 + |m|..q] == "]\n\n"
      && s[q..q + 11] == "[Provider: "
      && s[q + 11..q + 11 + |pr|] == pr
      && s[q + 11 + |pr|..e] == "]\n\n"
      && s[e..] == b
      && s[1] == 'M'
  {
    var s := RoutingHeader(m, pr) + b;
    var q := 11 + |m|;
    assert s == "[Model: " + m + "]\n\n" + "[Provider: " + pr + "]\n\n" + b;
  }

  /** Before the provider tag the header holds no '[' except the very first character. */
  lemma HeaderBrackets(m: string, pr: string, b: string)
    requires TagSafe(m)
    ensures var s := RoutingHeader(m, pr) + b;
      forall j :: 0 < j < 11 + |m| ==> s[j] != '['
  {
    var s := RoutingHeader(m, pr) + b;
    HeaderLayout(m, pr, b);
    forall j | 0 < j < 11 + |m| ensures s[j] != '[' {
      if j < 8 {
        assert s[j] == s[0..8][j];
      } else if j < 8 + |m| {
        assert s[j] == s[8..8 + |m|][j - 8];
      } else {
        assert s[j] == s[8 + |m|..11 + |m|][j - 8 - |m|];
      }
    }
  }

  /** A provider-tag pattern cannot match anywhere before the header's provider tag. */
  lemma NoProviderTagBefore(p: Pattern, m: string, pr: string, b: string)
    requires p.prefix == "[Provider: " && TagSafe(m)
    ensures var s := RoutingHeader(m, pr) + b;
      forall j :: 0 <= j < 11 + |m| ==> !HasMatchAt(p, s, j)
  {
    var s := RoutingHeader(m, pr) + b;
    HeaderLayout(m, pr, b);
    HeaderBrackets(m, pr, b);
    forall j | 0 <= j < 11 + |m| ensures !HasMatchAt(p, s, j) {
      if j == 0 {
        assert s[0..11][1] == 'M';
      } else {
        assert s[j..j + 11][0] == s[j];
      }
      NoPrefixNoMatch(p, s, j);
    }
  }

  lemma HeaderModelTag(m: string, pr: string, b: string)
    requires TagSafe(m)
    ensures var s := RoutingHeader(m, pr) + b;
      && Capture(ModelRegex, s) == Some(m)
      && RemoveFirst(ModelRegex, s) == "[Provider: " + pr + "]\n\n" + b
  {
    var s := RoutingHeader(m, pr) + b;
    var rest := "[Provider: " + pr + "]\n\n" + b;
    assert s == "[Model: " + m + "]\n\n" + rest;
    HeaderLayout(m, pr, b);
    TagAt(ModelRegex, s, 0, m);
    assert s[..0] + s[11 + |m|..] == rest;
  }

  lemma HeaderProviderTag(m: string, pr: string, b: string)
    requires TagSafe(m) && TagSafe(pr)
    ensures Capture(ProviderRegex, RoutingHeader(m, pr) + b) == Some(pr)
  {
    var s := RoutingHeader(m, pr) + b;
    HeaderLayout(m, pr, b);
    NoProviderTagBefore(ProviderRegex, m, pr, b);
    TagAt(ProviderRegex, s, 11 + |m|, pr);
  }

  /** A provider tag at the very start is removed whole. */
  lemma LeadingProviderTag(pr: string, b: string)
    requires TagSafe(pr)
    ensures RemoveFirst(ProviderRegex, "[Provider: " + pr + "]\n\n" + b) == b
  {
    var t := "[Provider: " + pr + "]\n\n" + b;
    assert t[0..11] == "[Provider: " && t[11..11 + |pr|] == pr && t[11 + |pr|..14 + |pr|] == "]\n\n";
    TagAt(ProviderRegex, t, 0, pr);
    assert t[..0] + t[14 + |pr|..] == b;
  }

  /**
   * The server's expressions read back exactly what the client wrote: the model
   * tag at the start, the provider tag after it, and removing first the model tag
   * and then the provider tag leaves the body.
   */
  lemma HeaderRoundTrip(m: string, pr: string, b: string)
    requires TagSafe(m) && TagSafe(pr)
    ensures var s := RoutingHeader(m, pr) + b;
      && Capture(ModelRegex, s) == Some(m)
      && Capture(ProviderRegex, s) == Some(pr)
      && RemoveFirst(ProviderRegex, RemoveFirst(ModelRegex, s)) == b
  {
    HeaderModelTag(m, pr, b);
    HeaderProviderTag(m, pr, b);
    LeadingProviderTag(pr, b);
  }

  lemma HeaderLooseModelTag(m: string, pr: string, b: string)
    requires TagSafe(m) && |m| > 0
    ensures Capture(LooseModelRegex, RoutingHeader(m, pr) + b) == Some(m)
  {
    var s := RoutingHeader(m, pr) + b;
    HeaderLayout(m, pr, b);
    assert s[8 + |m|..9 + |m|] == "]";
    TagAt(LooseModelRegex, s, 0, m);
  }

  lemma HeaderLooseProviderTag(m: string, pr: string, b: string)
    requires TagSafe(m) && TagSafe(pr) && |pr| > 0
    ensures var s := RoutingHeader(m, pr) + b;
      && Capture(LooseProviderRegex, s) == Some(pr)
      && RemoveFirst(LooseProviderRegex, s) == "[Model: " + m + "]" + ("\n\n\n\n" + b)
  {
    var s := RoutingHeader(m, pr) + b;
    var q := 11 + |m|;
    HeaderLayout(m, pr, b);
    assert s[q + 11 + |pr|..q + 12 + |pr|] == "]";
    NoProviderTagBefore(LooseProviderRegex, m, pr, b);
    TagAt(LooseProviderRegex, s, q, pr);
    HeaderWithoutProvider(m, pr, b);
  }

  /** Cutting the provider tag out of header + body leaves the model tag, four line feeds and the body. */
  lemma HeaderWithoutProvider(m: string, pr: string, b: string)
    ensures var s := RoutingHeader(m, pr) + b;
      s[..11 + |m|] + s[11 + |m| + 12 + |pr|..] == "[Model: " + m + "]" + ("\n\n\n\n" + b)
  {
    var s := RoutingHeader(m, pr) + b;
    var a := "[Model: " + m + "]\n\n";
    var p := "[Provider: " + pr + "]";
    var c := "\n\n" + b;
    assert s == a + p + c;
    assert s[..|a|] == a;
    assert s[|a| + |p|..] == c;
  }

  /** A loose model tag at the very start is removed up to its closing bracket. */
  lemma LeadingLooseModelTag(m: string, rest: string)
    requires TagSafe(m) && |m| > 0
    ensures RemoveFirst(LooseModelRegex, "[Model: " + m + "]" + rest) == rest
  {
    var t := "[Model: " + m + "]" + rest;
    assert t[0..8] == "[Model: " && t[8..8 + |m|] == m && t[8 + |m|..9 + |m|] == "]";
    TagAt(LooseModelRegex, t, 0, m);
    assert t[..0] + t[9 + |m|..] == rest;
  }

  /**
   * The chat route's looser expressions read the same names back, and removing
   * first the provider tag and then the model tag leaves the body behind four
   * line feeds (the two tags' own blank lines).
   */
  lemma HeaderRoundTripLoose(m: string, pr: string, b: string)
    requires TagSafe(m) && TagSafe(pr) && |m| > 0 && |pr| > 0
    ensures var s := RoutingHeader(m, pr) + b;
      && Capture(LooseModelRegex, s) == Some(m)
      && Capture(LooseProviderRegex, s) == Some(pr)
      && RemoveFirst(LooseModelRegex, RemoveFirst(LooseProviderRegex, s)) == "\n\n\n\n" + b
  {
    HeaderLooseModelTag(m, pr, b);
    HeaderLooseProviderTag(m, pr, b);
    LeadingLooseModelTag(m, "\n\n\n\n" + b);
  }

  /** The model expression is anchored: text not opening with '[' has no model tag. */
  lemma ModelTagOnlyAtStart(s: string)
    requires |s| == 0 || s[0] != '['
    ensures Capture(ModelRegex, s) == None
  {
    forall j: nat, k: nat ensures !MatchesAt(ModelRegex, s, j, k) {
      if j == 0 && 8 <= |s| {
        assert s[0..8][0] == s[0];
      }
    }
  }

  /** The provider expression is not anchored: a tag after bracket-free text is found. */
  lemma ProviderTagAnywhere(w: string, pr: string, b: string)
    requires forall i :: 0 <= i < |w| ==> w[i] != '['
    requires TagSafe(pr)
    ensures Capture(ProviderRegex, w + "[Provider: " + pr + "]\n\n" + b) == Some(pr)
  {
    var s := w + "[Provider: " + pr + "]\n\n" + b;
    var q := |w|;
    assert s[q..q + 11] == "[Provider: " && s[q + 11..q + 11 + |pr|] == pr;
    assert s[q + 11 + |pr|..q + 14 + |pr|] == "]\n\n";
    forall j | 0 <= j < q ensures !HasMatchAt(ProviderRegex, s, j) {
      if j + 11 <= |s| {
        assert s[j..j + 11][0] == w[j];
      }
      NoPrefixNoMatch(ProviderRegex, s, j);
    }
    TagAt(ProviderRegex, s, q, pr);
  }

  /** Both server expressions need the blank line after the closing bracket. */
  lemma ModelTagNeedsBlankLine(m: string)
    requires TagSafe(m)
    ensures Capture(ModelRegex, "[Model: " + m + "]") == None
  {
    var s := "[Model: " + m + "]";
    assert s[8..8 + |m|] == m;
    forall j: nat, k: nat ensures !MatchesAt(ModelRegex, s, j, k) {
      if j == 0 && 8 + k + 3 <= |s| {
        NoEarlyClose(ModelRegex, s, 8, m, k);
      }
    }
  }
}

=== FILE: text.dfy ===
/**
 * String helpers standing in for the JavaScript string built-ins the source uses:
 * `trim`, `toLowerCase`, `startsWith`, `Array.prototype.join`, and the character
 * classes `\s` and `.` of its regular expressions. Only ASCII is modelled:
 * whitespace is space, tab, line feed, vertical tab, form feed and carriage return,
 * and lower-casing maps 'A'..'Z' to 'a'..'z'.
 */
module Text {

  /** A character JavaScript's `trim` removes and `\s` matches (ASCII part). */
  predicate IsSpace(c: char) {
    c == ' ' || c == '\t' || c == '\n' || c == '\r' || c == '\U{000B}' || c == '\U{000C}'
  }

  /** A JavaScript line terminator: exactly the characters a regex `.` does not match. */
  predicate IsLineTerminator(c: char) {
    c == '\n' || c == '\r' || c == '\U{2028}' || c == '\U{2029}'
  }

  predicate AllSpace(s: string) {
    forall i :: 0 <= i < |s| ==> IsSpace(s[i])
  }

  predicate NoLineTerminator(s: string) {
    forall i :: 0 <= i < |s| ==> !IsLineTerminator(s[i])
  }

  predicate StartsWith(s: string, prefix: string) {
    |prefix| <= |s| && s[..|prefix|] == prefix
  }

  /** `sub` occurs in `s` starting at position `i`. */
  predicate OccursAt(s: string, sub: string, i: int) {
    0 <= i <= |s| - |sub| && s[i..i + |sub|] == sub
  }

  /** `s.includes(sub)`. */
  predicate Contains(s: string, sub: string) {
    exists i :: 0 <= i <= |s| && OccursAt(s, sub, i)
  }

  /** Removes leading whitespace. */
  function TrimStart(s: string): (r: string)
    ensures |r| <= |s| && r == s[|s| - |r|..]
    ensures AllSpace(s[..|s| - |r|])
    ensures r == [] || !IsSpace(r[0])
  {
    if |s| > 0 && IsSpace(s[0]) then
      var u := s[1..];
      var r := TrimStart(u);
      assert r == s[|s| - |r|..] by { assert u[|u| - |r|..] == s[|s| - |r|..]; }
      SpacePrefixExtends(s, |s| - |r|);
      r
    else s
  }

  /** A whitespace character in front of a whitespace run extends the run. */
  lemma SpacePrefixExtends(s: string, n: int)
    requires 1 <= n <= |s| && IsSpace(s[0]) && AllSpace(s[1..][..n - 1])
    ensures AllSpace(s[..n])
  {
    forall i | 1 <= i < n ensures IsSpace(s[..n][i]) {
      assert s[..n][i] == s[1..][..n - 1][i - 1];
    }
  }

  /** A whitespace character behind a whitespace run extends the run. */
  lemma SpaceSuffixExtends(s: string, n: int)
    requires 0 <= n < |s| && IsSpace(s[|s| - 1]) && AllSpace(s[..|s| - 1][n..])
    ensures AllSpace(s[n..])
  {
    forall i | 0 <= i < |s| - 1 - n ensures IsSpace(s[n..][i]) {
      assert s[n..][i] == s[..|s| - 1][n..][i];
    }
  }

  /** Removes trailing whitespace. */
  function TrimEnd(s: string): (r: string)
    ensures |r| <= |s| && r == s[..|r|]
    ensures AllSpace(s[|r|..])
    ensures r == [] || !IsSpace(r[|r| - 1])
  {
    if |s| > 0 && IsSpace(s[|s| - 1]) then
      var u := s[..|s| - 1];
      var r := TrimEnd(u);
      assert r == s[..|r|] by { assert u[..|r|] == s[..|r|]; }
      SpaceSuffixExtends(s, |r|);
      r
    else s
  }

  /** `r` is the slice `s[i..j]`, and everything outside it is whitespace. */
  predicate SpaceAround(s: string, r: string, i: int, j: int) {
    0 <= i <= j <= |s| && r == s[i..j] && AllSpace(s[..i]) && AllSpace(s[j..])
  }

  /** JavaScript's `String.prototype.trim`: only surrounding whitespace goes, and none is left at either end. */
  function Trim(s: string): (r: string)
    ensures |r| <= |s|
    ensures exists i, j :: SpaceAround(s, r, i, j)
    ensures r == [] || (!IsSpace(r[0]) && !IsSpace(r[|r| - 1]))
  {
    var t := TrimStart(s);
    var r := TrimEnd(t);
    TrimmedSlice(s, t, r);
    r
  }

  /** Cutting whitespace from the front and then from the back leaves a slice with whitespace around it. */
  lemma TrimmedSlice(s: string, t: string, r: string)
    requires |t| <= |s| && t == s[|s| - |t|..] && AllSpace(s[..|s| - |t|])
    requires |r| <= |t| && r == t[..|r|] && AllSpace(t[|r|..])
    ensures SpaceAround(s, r, |s| - |t|, |s| - |t| + |r|)
  {
    var i := |s| - |t|;
    assert r == s[i..i + |r|];
    assert t[|r|..] == s[i + |r|..];
  }

  /** `s.trim()` is the empty string, i.e. falsy. */
  predicate IsBlank(s: string) {
    Trim(s) == []
  }

  /** A string is blank exactly when every character of it is whitespace. */
  lemma BlankIffAllSpace(s: string)
    ensures IsBlank(s) <==> AllSpace(s)
  {
    var t := TrimStart(s);
    if AllSpace(s) {
      TrimStartAllSpace(s);
    }
    if IsBlank(s) {
      var u := TrimEnd(t);
      assert u == [];
      assert AllSpace(t[|u|..]);
      assert t == [];
      assert s[..|s| - |t|] == s;
    }
  }

  /** Whitespace alone trims away from the front entirely. */
  lemma {:induction false} TrimStartAllSpace(s: string)
    requires AllSpace(s)
    ensures TrimStart(s) == []
  {
    if |s| > 0 {
      assert IsSpace(s[0]);
      assert AllSpace(s[1..]) by {
        var u := s[1..];
        forall i | 0 <= i < |u| ensures IsSpace(u[i]) {
          assert u[i] == s[i + 1];
        }
      }
      TrimStartAllSpace(s[1..]);
    }
  }

  /** Leading whitespace does not change the trimmed result. */
  lemma {:induction false} TrimStartSkipsSpace(w: string, x: string)
    requires AllSpace(w)
    ensures TrimStart(w + x) == TrimStart(x)
  {
    if |w| > 0 {
      assert (w + x)[0] == w[0];
      assert (w + x)[1..] == w[1..] + x;
      TrimStartSkipsSpace(w[1..], x);
    } else {
      assert w + x == x;
    }
  }

  lemma TrimSkipsLeadingSpace(w: string, x: string)
    requires AllSpace(w)
    ensures Trim(w + x) == Trim(x)
  {
    TrimStartSkipsSpace(w, x);
  }

  /** Blank lines in front do not change the trimmed result. */
  lemma TrimSkipsBlankLines(x: string)
    ensures Trim("\n\n\n\n" + x) == Trim(x)
  {
    assert AllSpace("\n\n\n\n");
    TrimSkipsLeadingSpace("\n\n\n\n", x);
  }

  /** A character's ASCII lower-case form. */
  function LowerChar(c: char): char {
    if 'A' <= c <= 'Z' then (c as int + 32) as char else c
  }

  /** JavaScript's `toLowerCase`, ASCII letters only. */
  function ToLower(s: string): (r: string)
    ensures |r| == |s|
    ensures forall i :: 0 <= i < |s| ==> r[i] == LowerChar(s[i])
  {
    if s == [] then [] else [LowerChar(s[0])] + ToLower(s[1..])
  }

  /** Lower-casing twice is lower-casing once. */
  lemma ToLowerIdempotent(s: string)
    ensures ToLower(ToLower(s)) == ToLower(s)
  {
    var a := ToLower(ToLower(s));
    var b := ToLower(s);
    assert |a| == |b|;
    forall i | 0 <= i < |a| ensures a[i] == b[i] {
    }
  }

  /** Strings that differ only in the case of ASCII letters lower-case to the same string. */
  predicate SameIgnoringCase(a: string, b: string) {
    ToLower(a) == ToLower(b)
  }

  /** `Array.prototype.join(sep)` over strings. */
  function Join(pieces: seq<string>, sep: string): string {
    if |pieces| == 0 then ""
    else if |pieces| == 1 then pieces[0]
    else pieces[0] + sep + Join(pieces[1..], sep)
  }

  /** Total length of a sequence of strings. */
  function TotalLength(pieces: seq<string>): nat {
    if |pieces| == 0 then 0 else |pieces[0]| + TotalLength(pieces[1..])
  }

  /** Joining n pieces inserts exactly n - 1 separators. */
  lemma {:induction false} JoinLength(pieces: seq<string>, sep: string)
    requires |pieces| > 0
    ensures |Join(pieces, sep)| == TotalLength(pieces) + (|pieces| - 1) * |sep|
  {
    if |pieces| > 1 {
      JoinLength(pieces[1..], sep);
    }
  }

  /** Concatenation of a sequence of strings, in order. */
  function Concat(pieces: seq<string>): string {
    if |pieces| == 0 then "" else pieces[0] + Concat(pieces[1..])
  }

  lemma {:induction false} ConcatAppend(a: seq<string>, b: seq<string>)
    ensures Concat(a + b) == Concat(a) + Concat(b)
  {
    if |a| > 0 {
      assert (a + b)[1..] == a[1..] + b;
      ConcatAppend(a[1..], b);
    } else {
      assert a + b == b;
    }
  }
}

=== FILE: tool_system.dfy ===
/**
 * The tool registry of the src/ layer (src/lib/tool-system.ts). The `Map` keeps
 * insertion order, so the registry is a sequence of tools with distinct names.
 */
module ToolSystem {
  import opened Wrappers
  import opened AiTypes

  /** Tools in registration order. */
  datatype Registry = Registry(tools: seq<Tool>)

  const Empty := Registry([])

  /** No two registered tools share a name. */
  predicate Valid(reg: Registry) {
    forall i, j :: 0 <= i < j < |reg.tools| ==> reg.tools[i].name != reg.tools[j].name
  }

  /** `this.tools.has(name)`. */
  predicate Has(reg: Registry, name: string) {
    exists i :: 0 <= i < |reg.tools| && reg.tools[i].name == name
  }

  /** `this.tools.get(name)`. */
  function Find(tools: seq<Tool>, name: string): (r: Option<Tool>)
    ensures r.None? <==> forall i :: 0 <= i < |tools| ==> tools[i].name != name
    ensures r.Some? ==> exists i :: 0 <= i < |tools| && tools[i] == r.value && r.value.name == name
  {
    if |tools| == 0 then None
    else if tools[0].name == name then Some(tools[0])
    else
      var r := Find(tools[1..], name);
      assert r.Some? ==> exists i :: 0 <= i < |tools[1..]| && tools[1..][i] == r.value && r.value.name == name;
      r
  }

  function Duplicate(name: string): AIError {
    AIError("Tool " + name + " is already registered", "DUPLICATE_TOOL", None)
  }

  /** `registerTool`: a new name is appended; a registered name is refused and nothing changes. */
  function RegisterTool(reg: Registry, tool: Tool): (r: Result<Registry, AIError>)
    requires Valid(reg)
    ensures r.Err? <==> Has(reg, tool.name)
    ensures r.Err? ==> r.error == Duplicate(tool.name)
    ensures r.Ok? ==> Valid(r.value) && r.value.tools == reg.tools + [tool]
  {
    if Find(reg.tools, tool.name).Some? then Err(Duplicate(tool.name))
    else Ok(Registry(reg.tools + [tool]))
  }

  /** `clearTools`. */
  function ClearTools(reg: Registry): (r: Registry)
    ensures Valid(r) && forall name :: !Has(r, name)
  {
    Empty
  }

  /** After clearing, any tool can be registered. */
  lemma RegisterAfterClear(reg: Registry, tool: Tool)
    ensures RegisterTool(ClearTools(reg), tool) == Ok(Registry([tool]))
  {
    assert Empty.tools + [tool] == [tool];
  }

  const InvalidArgs := AIError("Invalid tool arguments format", "INVALID_TOOL_ARGS", None)

  function NotFound(name: string): AIError {
    AIError("Tool " + name + " not found", "TOOL_NOT_FOUND", None)
  }

  /** The `catch` block: a `SyntaxError` means bad arguments; anything else is an execution failure. */
  function ExecutionError(e: Thrown): (r: AIError)
    ensures e.IsSyntaxError() <==> r == InvalidArgs
    ensures !e.IsSyntaxError() ==> r.code == "TOOL_EXECUTION_ERROR"
    ensures !e.IsSyntaxError() && e.IsError() ==> r.message == "Tool execution failed: " + e.message
    ensures e.NonError? ==> r.message == "Tool execution failed: Unknown error"
  {
    if e.IsSyntaxError() then InvalidArgs
    else AIError("Tool execution failed: " + (if e.IsError() then e.message else "Unknown error"),
                 "TOOL_EXECUTION_ERROR", None)
  }

  /**
   * `executeTool`. The registry is an input only: executing never changes it.
   * `parse` is `JSON.parse`, whose failure is a `SyntaxError`.
   */
  function ExecuteTool(reg: Registry, call: ToolCall, parse: JsonParser): (r: Result<Value, AIError>)
    ensures !Has(reg, call.name) ==> r == Err(NotFound(call.name))
    ensures Has(reg, call.name) && parse(call.arguments).Err? ==> r == Err(InvalidArgs)
    ensures r.Ok? ==>
              parse(call.arguments).Ok? &&
              exists i :: 0 <= i < |reg.tools| && reg.tools[i].name == call.name &&
                          reg.tools[i].execute(parse(call.arguments).value) == Returned(r.value)
    ensures r.Err? && r.error.code == "TOOL_EXECUTION_ERROR" ==> Has(reg, call.name) && parse(call.arguments).Ok?
    ensures Find(reg.tools, call.name).Some? && parse(call.arguments).Ok? &&
            Find(reg.tools, call.name).value.execute(parse(call.arguments).value).Threw? ==>
              r == Err(ExecutionError(Find(reg.tools, call.name).value.execute(parse(call.arguments).value).error))
    ensures Find(reg.tools, call.name).Some? && parse(call.arguments).Ok? &&
            Find(reg.tools, call.name).value.execute(parse(call.arguments).value).Returned? ==>
              r == Ok(Find(reg.tools, call.name).value.execute(parse(call.arguments).value).value)
  {
    match Find(reg.tools, call.name)
    case None => Err(NotFound(call.name))
    case Some(tool) =>
      match parse(call.arguments)
      case Err(_) => Err(InvalidArgs)
      case Ok(args) =>
        match tool.execute(args)
        case Returned(v) => Ok(v)
        case Threw(e) => Err(ExecutionError(e))
  }

  /** One entry of `getToolDescriptions`. */
  datatype Description = Description(name: string, description: string, parameters: Value)

  function Describe(t: Tool): Description {
    Description(t.name, t.description, t.parameters)
  }

  /** `getToolDescriptions`: one description per tool, in registration order. */
  function Descriptions(tools: seq<Tool>): (r: seq<Description>)
    ensures |r| == |tools|
    ensures forall i :: 0 <= i < |tools| ==> r[i] == Describe(tools[i])
  {
    if |tools| == 0 then [] else [Describe(tools[0])] + Descriptions(tools[1..])
  }

  lemma {:induction false} DescriptionsAppend(a: seq<Tool>, b: seq<Tool>)
    ensures Descriptions(a + b) == Descriptions(a) + Descriptions(b)
  {
    if |a| == 0 {
      assert a + b == b;
    } else {
      assert (a + b)[1..] == a[1..] + b;
      DescriptionsAppend(a[1..], b);
    }
  }

  /** Registering a tool appends exactly its description to the listing. */
  lemma RegisterListsLast(reg: Registry, tool: Tool)
    requires Valid(reg) && !Has(reg, tool.name)
    ensures RegisterTool(reg, tool).Ok?
    ensures Descriptions(RegisterTool(reg, tool).value.tools) == Descriptions(reg.tools) + [Describe(tool)]
  {
    DescriptionsAppend(reg.tools, [tool]);
  }
}

=== FILE: translator.dfy ===
/**
 * The response side of `streamText` (app/lib/.server/llm/stream-text.ts): the
 * transform that turns the provider's stream parts into OpenAI-style
 * `chat.completion.chunk` frames, and their server-sent-event wire form.
 * The `id` and `created` fields come from the clock and are not modelled;
 * `JSON.stringify` of a frame is a parameter.
 */
module Translator {
  import opened Wrappers
  import opened Text

  /** A part of the provider stream as the transform sees it. */
  datatype Chunk =
    | TextDelta(delta: string)   // an object with type 'text-delta' and a textDelta field
    | Finish                     // an object with type 'finish'
    | StringChunk(s: string)     // a bare string
    | OtherChunk                 // any other object or value

  /** The `delta` object of a frame. */
  datatype Delta = RoleDelta | ContentDelta(content: string) | EmptyDelta

  /** One emitted event: a chunk object (`finish_reason` null or 'stop'), or the `[DONE]` marker. */
  datatype Frame = Payload(model: string, delta: Delta, finishReason: Option<string>) | Done

  /** The `transform` callback: the frames one chunk produces. */
  function TranslateChunk(model: string, c: Chunk): (r: seq<Frame>)
    ensures c.TextDelta? ==> (r == [] <==> c.delta == "")
    ensures c.TextDelta? && c.delta != "" ==> r == [Payload(model, ContentDelta(c.delta), None)]
    ensures c.OtherChunk? ==> r == []
    ensures c.StringChunk? ==> r == [Payload(model, ContentDelta(c.s), None)]
    ensures c.Finish? ==> |r| == 2 && r[1] == Done && r[0].Payload? && r[0].finishReason == Some("stop")
    ensures c.Finish? ==> r[0].delta == EmptyDelta
    ensures forall i :: 0 <= i < |r| && r[i].Payload? ==> r[i].model == model
    ensures forall i :: 0 <= i < |r| && r[i].Payload? ==> !r[i].delta.RoleDelta?
    ensures forall i :: 0 <= i < |r| && r[i].Payload? && r[i].delta.ContentDelta? ==> r[i].finishReason.None?
  {
    match c
    case TextDelta(d) => if d != "" then [Payload(model, ContentDelta(d), None)] else []
    case Finish => [Payload(model, EmptyDelta, Some("stop")), Done]
    case StringChunk(s) => [Payload(model, ContentDelta(s), None)]
    case OtherChunk => []
  }

  /** The transform applied to each chunk in turn, with no state between chunks. */
  function TranslateAll(model: string, chunks: seq<Chunk>): (r: seq<Frame>)
    ensures forall i :: 0 <= i < |r| && r[i].Payload? ==> r[i].model == model && !r[i].delta.RoleDelta?
    ensures forall i :: 0 <= i < |r| && r[i].Payload? && r[i].delta.ContentDelta? ==> r[i].finishReason.None?
  {
    if |chunks| == 0 then []
    else
      var head := TranslateChunk(model, chunks[0]);
      var tail := TranslateAll(model, chunks[1..]);
      assert forall i :: 0 <= i < |tail| ==> (head + tail)[|head| + i] == tail[i];
      head + tail
  }

  /** The whole response stream: the `start` frame announcing the assistant role, then the chunks' frames. */
  function Translate(model: string, chunks: seq<Chunk>): (r: seq<Frame>)
    ensures |r| >= 1 && r[0] == Payload(model, RoleDelta, None)
    ensures forall i :: 0 <= i < |r| && r[i].Payload? ==> r[i].model == model
    ensures forall i :: 1 <= i < |r| && r[i].Payload? ==> !r[i].delta.RoleDelta?
  {
    var tail := TranslateAll(model, chunks);
    assert forall i :: 0 <= i < |tail| ==> ([Payload(model, RoleDelta, None)] + tail)[1 + i] == tail[i];
    [Payload(model, RoleDelta, None)] + tail
  }

  /** The translation is stateless: it distributes over concatenation of chunk streams. */
  lemma {:induction false} TranslateAllAppend(model: string, a: seq<Chunk>, b: seq<Chunk>)
    ensures TranslateAll(model, a + b) == TranslateAll(model, a) + TranslateAll(model, b)
  {
    if |a| == 0 {
      assert a + b == b;
    } else {
      assert (a + b)[1..] == a[1..] + b;
      TranslateAllAppend(model, a[1..], b);
    }
  }

  /** Nothing is suppressed after a finish: the chunks that follow it are still translated and emitted. */
  lemma FramesAfterFinish(model: string, before: seq<Chunk>, after: seq<Chunk>)
    ensures Translate(model, before + [Finish] + after) ==
      Translate(model, before) + [Payload(model, EmptyDelta, Some("stop")), Done] + TranslateAll(model, after)
  {
    var role := Payload(model, RoleDelta, None);
    var stop := [Payload(model, EmptyDelta, Some("stop")), Done];
    var a := TranslateAll(model, before);
    var z := TranslateAll(model, after);
    calc {
      Translate(model, before + [Finish] + after);
      [role] + TranslateAll(model, before + [Finish] + after);
      { TranslateAllAppend(model, before + [Finish], after); }
      [role] + (TranslateAll(model, before + [Finish]) + z);
      { TranslateAllAppend(model, before, [Finish]); FinishFrames(model); }
      [role] + ((a + stop) + z);
      ([role] + a) + stop + z;
      Translate(model, before) + stop + z;
    }
  }

  /** A finish on its own becomes the stop frame and the end marker. */
  lemma FinishFrames(model: string)
    ensures TranslateAll(model, [Finish]) == [Payload(model, EmptyDelta, Some("stop")), Done]
  {
    assert [Finish][1..] == [];
  }

  /** The text a chunk contributes to the answer. */
  function ChunkText(c: Chunk): string {
    match c
    case TextDelta(d) => d
    case StringChunk(s) => s
    case _ => ""
  }

  /** The text carried by a frame's content delta. */
  function FrameText(f: Frame): string {
    if f.Payload? && f.delta.ContentDelta? then f.delta.content else ""
  }

  function StreamText(chunks: seq<Chunk>): string {
    if |chunks| == 0 then "" else ChunkText(chunks[0]) + StreamText(chunks[1..])
  }

  function FramesText(frames: seq<Frame>): string {
    if |frames| == 0 then "" else FrameText(frames[0]) + FramesText(frames[1..])
  }

  lemma {:induction false} FramesTextAppend(a: seq<Frame>, b: seq<Frame>)
    ensures FramesText(a + b) == FramesText(a) + FramesText(b)
  {
    if |a| == 0 {
      assert a + b == b;
    } else {
      assert (a + b)[1..] == a[1..] + b;
      FramesTextAppend(a[1..], b);
    }
  }

  /** Concatenating the content deltas of the output gives exactly the text of the input stream. */
  lemma {:induction false} ContentPreserved(model: string, chunks: seq<Chunk>)
    ensures FramesText(Translate(model, chunks)) == StreamText(chunks)
    ensures FramesText(TranslateAll(model, chunks)) == StreamText(chunks)
  {
    if |chunks| > 0 {
      ContentPreserved(model, chunks[1..]);
      FramesTextAppend(TranslateChunk(model, chunks[0]), TranslateAll(model, chunks[1..]));
      var h := TranslateChunk(model, chunks[0]);
      assert FramesText(h) == ChunkText(chunks[0]) by {
        if h != [] {
          assert h[1..] == [] || h[1..] == [Done];
        }
      }
    }
    FramesTextAppend([Payload(model, RoleDelta, None)], TranslateAll(model, chunks));
  }

  function CountFinish(chunks: seq<Chunk>): nat {
    if |chunks| == 0 then 0 else (if chunks[0].Finish? then 1 else 0) + CountFinish(chunks[1..])
  }

  function CountDone(frames: seq<Frame>): nat {
    if |frames| == 0 then 0 else (if frames[0].Done? then 1 else 0) + CountDone(frames[1..])
  }

  lemma {:induction false} CountDoneAppend(a: seq<Frame>, b: seq<Frame>)
    ensures CountDone(a + b) == CountDone(a) + CountDone(b)
  {
    if |a| == 0 {
      assert a + b == b;
    } else {
      assert (a + b)[1..] == a[1..] + b;
      CountDoneAppend(a[1..], b);
    }
  }

  /** One `[DONE]` marker per finish part, and none otherwise. */
  lemma {:induction false} DonePerFinish(model: string, chunks: seq<Chunk>)
    ensures CountDone(Translate(model, chunks)) == CountFinish(chunks)
    ensures CountDone(TranslateAll(model, chunks)) == CountFinish(chunks)
  {
    if |chunks| > 0 {
      DonePerFinish(model, chunks[1..]);
      var h := TranslateChunk(model, chunks[0]);
      CountDoneAppend(h, TranslateAll(model, chunks[1..]));
      assert CountDone(h) == (if chunks[0].Finish? then 1 else 0) by {
        if h != [] && !chunks[0].Finish? {
          assert h[1..] == [];
        }
        if chunks[0].Finish? {
          assert h[1..][1..] == [];
        }
      }
    }
    CountDoneAppend([Payload(model, RoleDelta, None)], TranslateAll(model, chunks));
  }

  // ---------------------------------------------------------------- wire form

  const EventPrefix := "data: "
  const EventEnd := "\r\n\r\n"
  const DoneData := "[DONE]"

  /** `data: <json>\r\n\r\n`, with `[DONE]` as the data of the final marker. */
  function EncodeFrame(f: Frame, json: Frame -> string): (r: string)
    ensures |r| == |EventPrefix| + |FrameData(f, json)| + |EventEnd|
    ensures r[..|EventPrefix|] == EventPrefix
    ensures r[|EventPrefix|..|r| - |EventEnd|] == FrameData(f, json)
    ensures r[|r| - |EventEnd|..] == EventEnd
  {
    var d := FrameData(f, json);
    var r := EventPrefix + (if f.Done? then DoneData else json(f)) + EventEnd;
    assert r == EventPrefix + d + EventEnd;
    r
  }

  function EncodeAll(frames: seq<Frame>, json: Frame -> string): string {
    if |frames| == 0 then "" else EncodeFrame(frames[0], json) + EncodeAll(frames[1..], json)
  }

  /** The data of an event must not hold a carriage return for the stream to split back unambiguously. */
  predicate NoCR(s: string) {
    forall i :: 0 <= i < |s| ==> s[i] != '\r'
  }

  /** The event terminator starts at position `j` of `s`. */
  predicate EndAt(s: string, j: int) {
    0 <= j && j + 4 <= |s| && s[j..j + 4] == EventEnd
  }

  /** The first position at or after `from` where the event terminator starts. */
  function FindEnd(s: string, from: nat): (r: Option<nat>)
    requires from <= |s|
    ensures r.Some? ==> from <= r.value && EndAt(s, r.value)
    ensures r.Some? ==> forall j :: from <= j < r.value ==> !EndAt(s, j)
    ensures r.None? ==> forall j :: from <= j ==> !EndAt(s, j)
    decreases |s| - from
  {
    if from + 4 > |s| then None
    else if s[from..from + 4] == EventEnd then Some(from)
    else FindEnd(s, from + 1)
  }

  /** Splits a wire string back into the data fields of its events; None when it is not a well-formed event stream. */
  function DecodeAll(s: string): (r: Option<seq<string>>)
    decreases |s|
  {
    if |s| == 0 then Some([])
    else if !StartsWith(s, EventPrefix) then None
    else
      match FindEnd(s, 6)
      case None => None
      case Some(e) =>
        match DecodeAll(s[e + 4..])
        case None => None
        case Some(rest) => Some([s[6..e]] + rest)
  }

  /** The data field each frame is sent with. */
  function FrameData(f: Frame, json: Frame -> string): string {
    if f.Done? then DoneData else json(f)
  }

  function AllData(frames: seq<Frame>, json: Frame -> string): (r: seq<string>)
    ensures |r| == |frames|
    ensures forall i :: 0 <= i < |frames| ==> r[i] == FrameData(frames[i], json)
  {
    if |frames| == 0 then [] else [FrameData(frames[0], json)] + AllData(frames[1..], json)
  }

  lemma FirstEndAfterData(d: string, rest: string)
    requires NoCR(d)
    ensures FindEnd(EventPrefix + d + EventEnd + rest, 6) == Some(6 + |d|)
  {
    var s := EventPrefix + d + EventEnd + rest;
    var r := FindEnd(s, 6);
    assert s[6 + |d|..6 + |d| + 4] == EventEnd;
    assert EndAt(s, 6 + |d|);
    forall j | 6 <= j < 6 + |d| ensures !EndAt(s, j) {
      assert s[j] == d[j - 6];
      if j + 4 <= |s| {
        assert s[j..j + 4][0] == s[j];
      }
    }
  }

  /**
   * Round trip of the wire form: when JSON never emits a raw carriage return,
   * splitting the encoded stream gives back each frame's data, in order.
   */
  lemma {:induction false} DecodeEncoded(frames: seq<Frame>, json: Frame -> string)
    requires forall f :: NoCR(json(f))
    ensures DecodeAll(EncodeAll(frames, json)) == Some(AllData(frames, json))
  {
    if |frames| > 0 {
      var d := FrameData(frames[0], json);
      var rest := EncodeAll(frames[1..], json);
      var s := EventPrefix + d + EventEnd + rest;
      assert EncodeAll(frames, json) == s;
      assert StartsWith(s, EventPrefix) by {
        assert s[..6] == EventPrefix;
      }
      assert NoCR(d) by {
        if frames[0].Done? {
          assert d == DoneData;
        }
      }
      FirstEndAfterData(d, rest);
      assert s[6 + |d| + 4..] == rest;
      assert s[6..6 + |d|] == d;
      DecodeEncoded(frames[1..], json);
    }
  }
}

=== FILE: wrappers.dfy ===
/** Success/failure carriers shared by every module of the model. */
module Wrappers {

  /** A value that may be absent: JavaScript's `undefined`/`null` for an optional field. */
  datatype Option<+T> = None | Some(value: T) {

    predicate IsFailure() {
      None?
    }

    function PropagateFailure<U>(): Option<U>
      requires None?
    {
      None
    }

    function Extract(): T
      requires Some?
    {
      value
    }

    /** The value, or `default` when absent (JavaScript's `x ?? default`). */
    function GetOr(default: T): T {
      match this
      case Some(v) => v
      case None => default
    }
  }

  /** The outcome of an operation that either returns a value or throws an error. */
  datatype Result<+T, +E> = Ok(value: T) | Err(error: E) {

    predicate IsFailure() {
      Err?
    }

    function PropagateFailure<U>(): Result<U, E>
      requires Err?
    {
      Err(error)
    }

    function Extract(): T
      requires Ok?
    {
      value
    }
  }
}
